=== FILE: README.md ===
# langchain4j-workflow: a verified model of the workflow core

This project models the core of langchain4j-workflow, a Java workflow engine. A workflow is a named graph of nodes.
Each node has a type (FUNCTION, AI, CONDITIONAL, PARALLEL, JOIN) and a list of dependencies, and runs once they are complete.
The model covers:

- the per-execution `WorkflowState` (variables, execution history, status, error message) and node readiness;
- building and validating workflow graphs, including the depth-first cycle search;
- the in-memory registry, and the execution tables of `DefaultWorkflowEngine` and `AnnotationBasedWorkflowEngine`;
- how node executors are chosen, how parameters are resolved and results stored, and how the AI prompt is assembled;
- the service layer: create, update, delete, execute, stop and status, the input/context overlay and the metrics aggregation;
- the cache-key generator and the per-workflow execution statistics of the workflow aspect.

Futures are treated as complete the moment they are returned. An executor call gives one of three results:
it succeeds (`Done`), it returns a failed future (`FailedWith`), or it throws (`Threw`).
Java `null` is an `Option` wherever the code branches on it. An exception is a `Failure` value whose Java class name and `getMessage()` text are
modelled (`Failures.ClassName`, `Failures.Message`). `CompletionException` wrapping is `Failures.Wrapped`.
Objects that the code updates in place are classes: `WorkflowState`, `GraphBuilder`, the registry, the engines, the service and the metrics accumulators.
Pure helpers are functions, and every explicit `for` or `while` loop of the code is a method with invariants. Stream pipelines and `forEach` calls, such as those of `mapStringToClassMap` and `mapExceptionClasses`, are recursive functions.
Several loops are also proved equal to a specification function, which carries the lemmas: `AddAll`, `DependencyGraph`, `ResolveAll`, `PromptOf`, `NodesOf` and `MergeAll`.

The model follows the code as written, including where the design intent differs:

- `isNodeCompleted(n)` looks up the bare key `n`, while nodes record `n.start`, `n.end` and `n.error`.
  So a node with dependencies never becomes ready (`Nodes.BareDependencyNeverReady`).
- Dependency-existence checking happens before the cycle search. When it fails, the search would dereference a missing graph entry and throw.
- `deleteWorkflow` throws a NullPointerException whenever an execution is still running: `getNow(null)` of a pending future is null.
- Definitions built by the service leave `startNodes` unset, so the default engine rejects them.

## Model


| member | source | states |
|---|---|---|
| State.OwnKeysDiffer | src/main/java/com/niko/langchain4jworkflow/workflow/core/WorkflowState.java:41-52 | the `.start`, `.end` and `.error` keys of a node never equal the bare node name |
| State.DotlessNameIsBare | src/main/java/com/niko/langchain4jworkflow/workflow/core/WorkflowState.java:37-52 | a name without a dot is none of the three suffixed keys of any node |
| State.WorkflowState.constructor | src/main/java/com/niko/langchain4jworkflow/workflow/core/WorkflowState.java:17-26 | a new state has the given id, status RUNNING, empty variables and history and no error message |
| State.WorkflowState.MarkAsCompleted | src/main/java/com/niko/langchain4jworkflow/workflow/core/WorkflowState.java:28-30 | status becomes COMPLETED from any prior status; error message, variables and history are unchanged |
| State.WorkflowState.MarkAsFailed | src/main/java/com/niko/langchain4jworkflow/workflow/core/WorkflowState.java:32-35 | status becomes FAILED and the error message becomes the given one, from any prior status |
| State.WorkflowState.IsNodeCompleted | src/main/java/com/niko/langchain4jworkflow/workflow/core/WorkflowState.java:37-39 | whether the bare node name is a history key; nodes only ever record suffixed keys, so `Nodes.BareDependencyNeverReady` applies |
| State.WorkflowState.RecordNodeStart | src/main/java/com/niko/langchain4jworkflow/workflow/core/WorkflowState.java:41-43 | writes exactly `<n>.start`; the node's completion, the variables, status and error message are unchanged |
| State.WorkflowState.RecordNodeCompletion | src/main/java/com/niko/langchain4jworkflow/workflow/core/WorkflowState.java:45-48 | writes exactly `<n>.end`; the node's completion and everything else are unchanged |
| State.WorkflowState.RecordNodeError | src/main/java/com/niko/langchain4jworkflow/workflow/core/WorkflowState.java:50-52 | writes exactly `<n>.error` when the message is non-null; a null message makes the map throw and nothing is recorded |
| State.WorkflowState.SetVariable | src/main/java/com/niko/langchain4jworkflow/workflow/core/WorkflowState.java:54-56 | after the write, the key reads back the value and is present; history and status are unchanged |
| State.WorkflowState.GetVariable | src/main/java/com/niko/langchain4jworkflow/workflow/core/WorkflowState.java:58-60 | present exactly when the key is a variable, and then yields its value |
| State.WorkflowState.GetVariableAs | src/main/java/com/niko/langchain4jworkflow/workflow/core/WorkflowState.java:62-68 | present exactly when the key is a variable whose value has the requested type |
| State.WorkflowState.HasVariable | src/main/java/com/niko/langchain4jworkflow/workflow/core/WorkflowState.java:70-72 | whether the key is a variable, which is exactly when `GetVariable` returns a value |
| State.WorkflowState.RemoveVariable | src/main/java/com/niko/langchain4jworkflow/workflow/core/WorkflowState.java:74-76 | the key is gone and every other key reads as before |
| State.WorkflowState.Clone | src/main/java/com/niko/langchain4jworkflow/workflow/core/WorkflowState.java:79-86 | a fresh object with the same id, variables, history, status and error message |
| Nodes.AllCompleted | src/main/java/com/niko/langchain4jworkflow/workflow/core/Node.java:48-49 | true exactly when every listed dependency is a history key |
| Nodes.CanExecute | src/main/java/com/niko/langchain4jworkflow/workflow/core/Node.java:44-50 | true for null or empty dependencies, otherwise exactly when every dependency is completed |
| Nodes.CanExecuteIgnoresOrder | src/main/java/com/niko/langchain4jworkflow/workflow/core/Node.java:48-49 | dependency lists with the same members give the same readiness, whatever the order or repetition |
| Nodes.CanExecuteReadsOnlyHistory | src/main/java/com/niko/langchain4jworkflow/workflow/core/Node.java:44-50 | states with equal histories give the same readiness, so variable writes never change it |
| Nodes.BareDependencyNeverReady | src/main/java/com/niko/langchain4jworkflow/workflow/core/WorkflowState.java:37-52 | if the history holds only suffixed keys, a node with a bare-named dependency is never ready |
| Nodes.DotlessDependencyNeverReady | src/main/java/com/niko/langchain4jworkflow/workflow/core/Node.java:44-50 | the same for any dependency whose name has no dot, which includes every valid node name |
| Definitions.ListingLength | src/main/java/com/niko/langchain4jworkflow/workflow/core/InMemoryWorkflowRegistry.java:34 | a duplicate-free listing of a key set has as many entries as the set |
| Definitions.IterationOrder | src/main/java/com/niko/langchain4jworkflow/workflow/model/WorkflowValidator.java:136 | a map's iteration order lists each key exactly once |
| Builders.GraphBuilder.constructor | src/main/java/com/niko/langchain4jworkflow/workflow/core/GraphBuilder.java:6-7 | a new builder has no nodes and no start nodes |
| Builders.GraphBuilder.AddNode | src/main/java/com/niko/langchain4jworkflow/workflow/core/GraphBuilder.java:9-14 | the node replaces any earlier one of that name; its name is appended to the start list exactly when it has no dependencies; every start name stays a node key |
| Builders.GraphBuilder.Build | src/main/java/com/niko/langchain4jworkflow/workflow/core/GraphBuilder.java:16-21 | a definition with that name and the builder's current nodes and start list, with no description, config or metadata |
| Registry.InMemoryWorkflowRegistry.Register | src/main/java/com/niko/langchain4jworkflow/workflow/core/InMemoryWorkflowRegistry.java:13-15 | stores the definition under its own name, replacing any earlier one; other names are unchanged |
| Registry.InMemoryWorkflowRegistry.Get | src/main/java/com/niko/langchain4jworkflow/workflow/core/InMemoryWorkflowRegistry.java:18-20 | present exactly when the name is registered, and then yields the stored definition |
| Registry.InMemoryWorkflowRegistry.Unregister | src/main/java/com/niko/langchain4jworkflow/workflow/core/InMemoryWorkflowRegistry.java:23-25 | removes the name; an absent name changes nothing; other names are unchanged |
| Registry.InMemoryWorkflowRegistry.Exists | src/main/java/com/niko/langchain4jworkflow/workflow/core/InMemoryWorkflowRegistry.java:28-30 | equals `Get(name)` being present |
| Registry.InMemoryWorkflowRegistry.GetAll | src/main/java/com/niko/langchain4jworkflow/workflow/core/InMemoryWorkflowRegistry.java:33-35 | exactly one definition per registered name, each the stored one |
| Registry.InMemoryWorkflowRegistry.List | src/main/java/com/niko/langchain4jworkflow/workflow/core/InMemoryWorkflowRegistry.java:38-40 | the same guarantee as `GetAll`, which it calls |
| Registry.LastCallFor | src/main/java/com/niko/langchain4jworkflow/workflow/core/InMemoryWorkflowRegistry.java:13-25 | the last register or unregister call that concerns a name is one of the calls |
| Registry.ReplayLastWriteWins | src/main/java/com/niko/langchain4jworkflow/workflow/core/InMemoryWorkflowRegistry.java:13-25 | after a sequence of calls, a name is present exactly when its last call registered it, and holds that definition; untouched names keep their entry |
| Registry.ReplayKeepsNames | src/main/java/com/niko/langchain4jworkflow/workflow/core/InMemoryWorkflowRegistry.java:13-15 | every definition stays stored under its own name through any sequence of calls |
| Requests.NameSet | src/main/java/com/niko/langchain4jworkflow/workflow/model/WorkflowValidator.java:97-99 | the set of node names of a request |
| Requests.EntryKeys | src/main/java/com/niko/langchain4jworkflow/workflow/model/WorkflowValidator.java:85 | the parameter names of an input or output map, in its iteration order |
| Cycles.DependencyGraph | src/main/java/com/niko/langchain4jworkflow/workflow/model/WorkflowValidator.java:124-130 | the graph has exactly the node names as keys |
| Cycles.GraphEntryFromRequest | src/main/java/com/niko/langchain4jworkflow/workflow/model/WorkflowValidator.java:124-130 | each graph entry is the dependency set of some node of that name (the last one wins) |
| Cycles.ClosedPathStaysInside | src/main/java/com/niko/langchain4jworkflow/workflow/model/WorkflowValidator.java:145-168 | a path that starts in a set closed under edges ends in it |
| Cycles.AllFinishedMeansAcyclic | src/main/java/com/niko/langchain4jworkflow/workflow/model/WorkflowValidator.java:132-142 | once every node is finished without a cycle, the graph has only known nodes and no cycle |
| Cycles.StackRevisitIsCycle | src/main/java/com/niko/langchain4jworkflow/workflow/model/WorkflowValidator.java:150-152 | reaching a node on the recursion stack exhibits a directed cycle |
| Cycles.PushKeepsInvariant | src/main/java/com/niko/langchain4jworkflow/workflow/model/WorkflowValidator.java:154-155 | adding a node to `visited` and `recStack` keeps the search invariant, in which `recStack` is contained in `visited` |
| Cycles.PopKeepsInvariant | src/main/java/com/niko/langchain4jworkflow/workflow/model/WorkflowValidator.java:165-166 | removing a finished node from `recStack` keeps the invariant and marks the node cycle-free |
| Cycles.HasCycleFrom | src/main/java/com/niko/langchain4jworkflow/workflow/model/WorkflowValidator.java:145-168 | the recursive search reports a cycle only if one exists, an unknown node only if one is reachable, and otherwise restores `recStack` with every node it visited cycle-free |
| Cycles.SearchDependencies | src/main/java/com/niko/langchain4jworkflow/workflow/model/WorkflowValidator.java:160-164 | the loop over one node's dependencies reports a cycle only if one exists and an unknown node only if one is reachable; otherwise every dependency is finished and `recStack` is as before the loop |
| Cycles.BuildGraph | src/main/java/com/niko/langchain4jworkflow/workflow/model/WorkflowValidator.java:124-130 | the loop builds exactly `DependencyGraph` |
| Cycles.SearchAll | src/main/java/com/niko/langchain4jworkflow/workflow/model/WorkflowValidator.java:132-142 | reports a cycle iff the graph has one, when every dependency is a known node; an unknown node otherwise |
| Cycles.HasCyclicDependencies | src/main/java/com/niko/langchain4jworkflow/workflow/model/WorkflowValidator.java:122-143 | when all dependencies name nodes it cannot throw, and its answer is true exactly when the dependency graph has a directed cycle |
| Validation.ValidNameHasNoDot | src/main/java/com/niko/langchain4jworkflow/workflow/model/WorkflowValidator.java:33-36 | a name accepted by the name pattern contains no dot |
| Validation.IsValidName | src/main/java/com/niko/langchain4jworkflow/workflow/model/WorkflowValidator.java:33-36 | a non-null name of 1 to 64 characters, each a letter, digit, `_` or `-` |
| Validation.AddError | src/main/java/com/niko/langchain4jworkflow/workflow/model/WorkflowValidator.java:18-19 | `computeIfAbsent(key, ...).add(message)`; its meaning is stated by `AddErrorList` |
| Validation.AddErrorList | src/main/java/com/niko/langchain4jworkflow/workflow/model/WorkflowValidator.java:18-19 | after one error the map has the old keys and this one; this key's list gains the message at its end, a new key starting a one-message list, and every other key's list is unchanged |
| Validation.AddAllKeys | src/main/java/com/niko/langchain4jworkflow/workflow/model/WorkflowValidator.java:13-31 | the collected error map has exactly the keys of the reported errors |
| Validation.AddAllMessages | src/main/java/com/niko/langchain4jworkflow/workflow/model/WorkflowValidator.java:13-31 | each key's message list is the earlier list followed by that key's messages in report order |
| Validation.AddAllAppend | src/main/java/com/niko/langchain4jworkflow/workflow/model/WorkflowValidator.java:13-31 | reporting two batches in turn is reporting their concatenation |
| Validation.AddAllEmptyIff | src/main/java/com/niko/langchain4jworkflow/workflow/model/WorkflowValidator.java:28-30 | the error map is empty exactly when nothing was reported |
| Validation.NoDuplicatePairsIffDistinct | src/main/java/com/niko/langchain4jworkflow/workflow/model/WorkflowValidator.java:42-48 | no "Duplicate node name" error exactly when the node names are pairwise distinct |
| Validation.NoMissingPairsIffKnown | src/main/java/com/niko/langchain4jworkflow/workflow/model/WorkflowValidator.java:100-106 | no "Invalid dependency" error for a node exactly when all its dependencies are node names |
| Validation.NoDependencyPairsIffKnown | src/main/java/com/niko/langchain4jworkflow/workflow/model/WorkflowValidator.java:96-113 | no dependency error at all exactly when every dependency of every node is a node name |
| Validation.NoDependencyPairsMeansAllKnown | src/main/java/com/niko/langchain4jworkflow/workflow/model/WorkflowValidator.java:96-116 | with no dependency error, every node the cycle search can reach is in its graph |
| Validation.NoErrorsIffNoPairs | src/main/java/com/niko/langchain4jworkflow/workflow/model/WorkflowValidator.java:28-30 | the request is accepted exactly when no check reported anything |
| Validation.AcceptedIffEveryCheckPasses | src/main/java/com/niko/langchain4jworkflow/workflow/model/WorkflowValidator.java:13-31 | accepted exactly when the name is valid, the names are distinct, every AI node has a system prompt, every parameter name is valid, every dependency is known and there is no cycle |
| Validation.NoErrorsHasName | src/main/java/com/niko/langchain4jworkflow/workflow/model/WorkflowValidator.java:13-31 | a request that earns no error has a name and no unknown dependency, so validating it returns normally |
| Validation.ValidateIOConfig | src/main/java/com/niko/langchain4jworkflow/workflow/model/WorkflowValidator.java:81-91 | adds "Invalid parameter name: <key>" under the prefix for each invalid parameter name, in order |
| Validation.ValidateNodeConfig | src/main/java/com/niko/langchain4jworkflow/workflow/model/WorkflowValidator.java:56-79 | adds the AI system-prompt error (an empty prompt passes) and the input and output parameter errors |
| Validation.CheckDuplicates | src/main/java/com/niko/langchain4jworkflow/workflow/model/WorkflowValidator.java:42-48 | adds one "Duplicate node name" error per repeated occurrence |
| Validation.ValidateNodes | src/main/java/com/niko/langchain4jworkflow/workflow/model/WorkflowValidator.java:38-54 | adds the duplicate errors and then each node's configuration errors |
| Validation.CheckNodeDependencies | src/main/java/com/niko/langchain4jworkflow/workflow/model/WorkflowValidator.java:100-112 | adds "Invalid dependency: <dep>" for each unknown dependency of one node |
| Validation.ValidateDependencies | src/main/java/com/niko/langchain4jworkflow/workflow/model/WorkflowValidator.java:93-120 | adds the dependency errors and then the cycle error; it throws only when some dependency is unknown, and never when all are known |
| Validation.ValidateNodeList | src/main/java/com/niko/langchain4jworkflow/workflow/model/WorkflowValidator.java:22-27 | the node checks followed by the dependency checks |
| Validation.ValidateCreateRequest | src/main/java/com/niko/langchain4jworkflow/workflow/model/WorkflowValidator.java:13-31 | a null node list throws; otherwise it rejects with the collected map exactly when that map is non-empty, and throws only through an unknown dependency |
| Executors.ResolveParameter | src/main/java/com/niko/langchain4jworkflow/workflow/core/DefaultNodeExecutor.java:78-112 | the state and context parameters receive the state and the context; a state variable reads its annotation key, or the parameter name if that is empty; a missing required one fails naming that key; everything else is null |
| Executors.ResolveAllMeaning | src/main/java/com/niko/langchain4jworkflow/workflow/core/DefaultNodeExecutor.java:60-76 | arguments resolve exactly when no parameter is a missing required variable; then each argument is its parameter's resolution, and otherwise the first missing key is reported |
| Executors.ResolveAllResolved | src/main/java/com/niko/langchain4jworkflow/workflow/core/DefaultNodeExecutor.java:60-76 | resolution succeeds exactly when every parameter resolves, with one argument per parameter in order |
| Executors.ResolveAllFirstMissing | src/main/java/com/niko/langchain4jworkflow/workflow/core/DefaultNodeExecutor.java:60-76 | a failed resolution names the key of the first parameter that does not resolve |
| Executors.ResolveArguments | src/main/java/com/niko/langchain4jworkflow/workflow/core/DefaultNodeExecutor.java:60-76 | the loop computes exactly `ResolveAll` |
| Executors.ResolveAllStopsAtMissing | src/main/java/com/niko/langchain4jworkflow/workflow/core/DefaultNodeExecutor.java:66-74 | resolution stops at the first missing required variable; later parameters do not matter |
| Executors.HandledError | src/main/java/com/niko/langchain4jworkflow/workflow/core/DefaultNodeExecutor.java:139-151 | a runtime exception is rethrown as is, any other becomes NodeExecutionException "Execution failed", and a null message makes the error recording throw a NullPointerException |
| Executors.ProcessResult | src/main/java/com/niko/langchain4jworkflow/workflow/core/DefaultNodeExecutor.java:128-137 | a non-null result is stored under `<name>_result`, a null one leaves the variables alone; completion is recorded under `<name>.end` |
| Executors.DefaultExecute | src/main/java/com/niko/langchain4jworkflow/workflow/core/DefaultNodeExecutor.java:26-58 | the start is recorded first; the outcome, variables and history are those of the step function over the resolved arguments |
| Executors.DefaultFailsLateOnlyWhenAsync | src/main/java/com/niko/langchain4jworkflow/workflow/core/DefaultNodeExecutor.java:40-56 | the executor returns a failed future only for an asynchronous node whose call failed; synchronous failures are thrown |
| Executors.MissingRequiredVariableThrows | src/main/java/com/niko/langchain4jworkflow/workflow/core/DefaultNodeExecutor.java:95-100 | a missing required variable throws IllegalArgumentException "Required state variable not found: <key>" and records that error |
| Executors.SyncTargetFailureBecomesNullPointer | src/main/java/com/niko/langchain4jworkflow/workflow/core/DefaultNodeExecutor.java:52-56 | a synchronous target failure, whose reflective wrapper has a null message, throws a NullPointerException and records nothing |
| Executors.PromptLinesAppend | src/main/java/com/niko/langchain4jworkflow/workflow/core/AINodeExecutor.java:60-68 | the prompt lines of two input lists in turn are the two line blocks concatenated |
| Executors.PromptSkipsMissing | src/main/java/com/niko/langchain4jworkflow/workflow/core/AINodeExecutor.java:60-68 | an input key with no variable adds nothing to the prompt |
| Executors.PromptStartsWithSystemPrompt | src/main/java/com/niko/langchain4jworkflow/workflow/core/AINodeExecutor.java:54-57 | the prompt starts with the system prompt and a blank line when there is one, and otherwise is only the input lines |
| Executors.PromptWithoutVariables | src/main/java/com/niko/langchain4jworkflow/workflow/core/AINodeExecutor.java:50-71 | with none of the inputs set, the prompt is only the header |
| Executors.BuildPrompt | src/main/java/com/niko/langchain4jworkflow/workflow/core/AINodeExecutor.java:50-71 | a null config or input map throws; otherwise the prompt is exactly the header followed by one `key: value` line per input that is set |
| Executors.AiFailsOnlyLate | src/main/java/com/niko/langchain4jworkflow/workflow/core/AINodeExecutor.java:25-47 | the AI executor never throws; it succeeds exactly when a "response" output is produced, and a chat failure, raised inside `supplyAsync`, leaves only the start recorded |
| Executors.AiExecute | src/main/java/com/niko/langchain4jworkflow/workflow/core/AINodeExecutor.java:18-48 | a non-AI node runs as the default executor runs it; an AI node gives the outcome, outputs and history of `AiOutcome`, `AiOutputs` and `AiHistory` and leaves the variables untouched |
| Executors.ConditionalExecute | src/main/java/com/niko/langchain4jworkflow/workflow/core/ConditionalNodeExecutor.java:16-48 | a conditional node records its start and runs on the default executor; what that throws with a message is recorded under `<name>.error` and returned as a failed future, a null message escapes as a NullPointerException; other types go straight to the default executor |
| Executors.ConditionalThrowsOnlyNullPointer | src/main/java/com/niko/langchain4jworkflow/workflow/core/ConditionalNodeExecutor.java:25-47 | on a conditional node the executor throws exactly when the default executor throws with a null message, and then only a NullPointerException; a throw with a message becomes a failed future with that exception |
| Executors.ConditionalMissingMethodFails | src/main/java/com/niko/langchain4jworkflow/workflow/core/ConditionalNodeExecutor.java:40-46 | a conditional node without a method fails its future with the NullPointerException and records its message under `<name>.error` |
| Executors.ConditionalMissingVariableFails | src/main/java/com/niko/langchain4jworkflow/workflow/core/ConditionalNodeExecutor.java:40-46 | a conditional node whose required variable is missing fails its future with IllegalArgumentException "Required state variable not found: <key>" |
| Executors.ParallelExecute | src/main/java/com/niko/langchain4jworkflow/workflow/core/ParallelNodeExecutor.java:19-72 | a non-parallel node runs as the default executor runs it; a parallel node has no branches, records `<name>.start`, and records its completion under `<workflowId>.end`, never under `<name>.end` |
| Executors.Route | src/main/java/com/niko/langchain4jworkflow/workflow/core/CompositeNodeExecutor.java:15-37 | AI, CONDITIONAL and PARALLEL go to their executors, and FUNCTION and JOIN fall back to the default one, each in both directions |
| Executors.RoutedExecutorHandlesItsType | src/main/java/com/niko/langchain4jworkflow/workflow/core/CompositeNodeExecutor.java:23-25 | each specialised executor receives only nodes of its own type |
| Executors.OnlyDefaultRouteThrows | src/main/java/com/niko/langchain4jworkflow/workflow/core/CompositeNodeExecutor.java:29-37 | the AI and parallel routes never throw, and the conditional route throws only a NullPointerException; every other throw comes from the default route |
| Executors.CompositeExecute | src/main/java/com/niko/langchain4jworkflow/workflow/core/CompositeNodeExecutor.java:29-37 | the outcome is that of the executor the type routes to; per route, the variables, the history and the AI outputs are those that executor leaves |
| Execution.FirstMissing | src/main/java/com/niko/langchain4jworkflow/workflow/core/WorkflowExecutor.java:87-104 | none exactly when every dependency is a node key; otherwise a dependency that is not one |
| Execution.FirstMissingIsFirst | src/main/java/com/niko/langchain4jworkflow/workflow/core/WorkflowExecutor.java:91-99 | the reported dependency is the first missing one in list order |
| Execution.WellFormedMeaning | src/main/java/com/niko/langchain4jworkflow/workflow/core/WorkflowExecutor.java:80-120 | in a well-formed workflow every dependency is a node and every AI node with a config has a non-empty system prompt |
| Execution.CheckNode | src/main/java/com/niko/langchain4jworkflow/workflow/core/WorkflowExecutor.java:91-119 | the loop over one node's dependencies finds what `NodeCheck` specifies |
| Execution.ValidateWorkflow | src/main/java/com/niko/langchain4jworkflow/workflow/core/WorkflowExecutor.java:80-120 | null or empty start nodes give "No start nodes defined"; it fails exactly when the workflow is not well formed, and always with InvalidWorkflowException |
| Execution.FindNextNodes | src/main/java/com/niko/langchain4jworkflow/workflow/core/WorkflowExecutor.java:177-186 | exactly the nodes whose dependency list names the current node |
| Execution.RunNode | src/main/java/com/niko/langchain4jworkflow/workflow/core/WorkflowExecutor.java:135-148 | a node that is not ready leaves the state unchanged and is not run; failures reach the caller as CompletionException |
| Execution.RunNextNodes | src/main/java/com/niko/langchain4jworkflow/workflow/core/WorkflowExecutor.java:150-175 | runs each next node; status and error message are untouched |
| Execution.WorkflowExecutor.Execute | src/main/java/com/niko/langchain4jworkflow/workflow/core/WorkflowExecutor.java:24-78 | an unknown name throws WorkflowNotFoundException before any state exists; a validation failure marks the state FAILED and returns a failed future; a completed walk marks it COMPLETED and a failed one FAILED; only a StackOverflowError, which the catch block does not catch, escapes and leaves the state RUNNING |
| DefaultEngine.CanExecuteNode | src/main/java/com/niko/langchain4jworkflow/workflow/core/DefaultWorkflowEngine.java:181-188 | agrees with `Node.canExecute` on every node and state |
| DefaultEngine.MergeAllKeys | src/main/java/com/niko/langchain4jworkflow/workflow/core/DefaultWorkflowEngine.java:219-229 | the merged map has exactly the keys of the base and of every branch |
| DefaultEngine.MergeAllLastWriterWins | src/main/java/com/niko/langchain4jworkflow/workflow/core/DefaultWorkflowEngine.java:222-227 | a shared key takes the value of the last branch that holds it |
| DefaultEngine.MergeAllBaseSurvives | src/main/java/com/niko/langchain4jworkflow/workflow/core/DefaultWorkflowEngine.java:222-227 | a base key that no branch holds keeps its value |
| DefaultEngine.MergeAllSelf | src/main/java/com/niko/langchain4jworkflow/workflow/core/DefaultWorkflowEngine.java:219-229 | merging a map into itself any number of times changes nothing |
| DefaultEngine.MergeStates | src/main/java/com/niko/langchain4jworkflow/workflow/core/DefaultWorkflowEngine.java:219-229 | the base's variables and history become the merge of the branches in list order; if every branch is the base itself nothing changes |
| DefaultEngine.Repeat | src/main/java/com/niko/langchain4jworkflow/workflow/core/DefaultWorkflowEngine.java:202-206 | one branch per next node, each the shared state |
| DefaultEngine.RunNode | src/main/java/com/niko/langchain4jworkflow/workflow/core/DefaultWorkflowEngine.java:146-179 | a node that is not ready leaves the state unchanged; an executor that throws becomes NodeExecutionException "Node execution failed"; a failure of the node or of any later node becomes a CompletionException |
| DefaultEngine.RunNextNodes | src/main/java/com/niko/langchain4jworkflow/workflow/core/DefaultWorkflowEngine.java:190-210 | runs each next node on the shared state and merges the results; status and error message are untouched |
| DefaultEngine.RunWorkflow | src/main/java/com/niko/langchain4jworkflow/workflow/core/DefaultWorkflowEngine.java:117-144 | null or empty start nodes throw ("No start nodes defined", or a NullPointerException for null) and leave variables and history alone; any other throw is rethrown as "Workflow execution failed: ..." |
| DefaultEngine.DefaultWorkflowEngine.Execute | src/main/java/com/niko/langchain4jworkflow/workflow/core/DefaultWorkflowEngine.java:38-83 | an unknown name throws WorkflowExecutionException "Failed to start workflow: ..." with no entry; a found one gets a fresh state under the new id, which with no start nodes still holds exactly the inputs and no history when the start throws; a finished run is COMPLETED, or FAILED with a doubly wrapped error, and leaves the table; a throw while starting leaves the entry behind |
| DefaultEngine.DefaultWorkflowEngine.Launch | src/main/java/com/niko/langchain4jworkflow/workflow/core/DefaultWorkflowEngine.java:50-77 | with the definition found: a fresh state under the new id is entered in the table, and without start nodes it holds exactly the inputs when the start throws; a finished run is COMPLETED, or FAILED with the walk's error wrapped once more, and leaves the table; a throw leaves the entry RUNNING |
| DefaultEngine.DefaultWorkflowEngine.Stop | src/main/java/com/niko/langchain4jworkflow/workflow/core/DefaultWorkflowEngine.java:86-106 | an unknown id throws ExecutionNotFoundException; a known one is removed |
| DefaultEngine.DefaultWorkflowEngine.GetExecutionState | src/main/java/com/niko/langchain4jworkflow/workflow/core/DefaultWorkflowEngine.java:109-115 | the stored state for a known id, ExecutionNotFoundException otherwise |
| AnnotationEngine.DecimalText | src/main/java/com/niko/langchain4jworkflow/workflow/core/AnnotationBasedWorkflowEngine.java:71 | the decimal text of a number is a non-empty string of digits |
| AnnotationEngine.DecimalTextInjective | src/main/java/com/niko/langchain4jworkflow/workflow/core/AnnotationBasedWorkflowEngine.java:71 | different numbers have different decimal texts |
| AnnotationEngine.ArgKeyInjective | src/main/java/com/niko/langchain4jworkflow/workflow/core/AnnotationBasedWorkflowEngine.java:70-72 | the keys "arg0", "arg1", ... are pairwise distinct, so no argument overwrites another |
| AnnotationEngine.ArgInputs | src/main/java/com/niko/langchain4jworkflow/workflow/core/AnnotationBasedWorkflowEngine.java:67-76 | the map has exactly the keys `arg<i>`, each holding the i-th argument |
| AnnotationEngine.AnnotationBasedWorkflowEngine.Execute | src/main/java/com/niko/langchain4jworkflow/workflow/core/AnnotationBasedWorkflowEngine.java:31-46 | the name is ignored; a fresh RUNNING state with exactly the inputs and no history is stored under its own id and can be looked up there |
| AnnotationEngine.AnnotationBasedWorkflowEngine.Stop | src/main/java/com/niko/langchain4jworkflow/workflow/core/AnnotationBasedWorkflowEngine.java:49-54 | removes the id and marks its state FAILED with "Workflow execution stopped"; an unknown id is a silent no-op; other executions are unchanged |
| AnnotationEngine.AnnotationBasedWorkflowEngine.GetExecutionState | src/main/java/com/niko/langchain4jworkflow/workflow/core/AnnotationBasedWorkflowEngine.java:57-59 | the stored state, or none for an unknown id, without throwing |
| AnnotationEngine.AnnotationBasedWorkflowEngine.ExecuteWithArgs | src/main/java/com/niko/langchain4jworkflow/workflow/core/AnnotationBasedWorkflowEngine.java:67-76 | the state holds exactly `arg<i>` mapped to the i-th argument; a null argument throws a NullPointerException and stores nothing |
| CacheKeys.NonEmptyParts | src/main/java/com/niko/langchain4jworkflow/workflow/config/CacheKeyGenerator.java:11-12 | the kept parts are all non-empty and no more numerous than the inputs |
| CacheKeys.GenerateKey | src/main/java/com/niko/langchain4jworkflow/workflow/config/CacheKeyGenerator.java:10-15 | the digest of the non-null, non-empty parts joined with ":"; its properties are in `EmptyPartIgnored`, `NoPartsKey`, `SeparatorAmbiguity` and `JoinInjective` |
| CacheKeys.GenerateKeyFromObjects | src/main/java/com/niko/langchain4jworkflow/workflow/config/CacheKeyGenerator.java:17-21 | each part through `String.valueOf`, so a null part becomes "null", then the string form; see `NullObjectPartKept` |
| CacheKeys.NonEmptyPartsAppend | src/main/java/com/niko/langchain4jworkflow/workflow/config/CacheKeyGenerator.java:11-12 | filtering preserves order: filtering a concatenation concatenates the filtered halves |
| CacheKeys.NonEmptyPartsMembers | src/main/java/com/niko/langchain4jworkflow/workflow/config/CacheKeyGenerator.java:11-12 | a string is kept exactly when it is a non-empty, non-null input part |
| CacheKeys.EmptyPartIgnored | src/main/java/com/niko/langchain4jworkflow/workflow/config/CacheKeyGenerator.java:11-14 | inserting a null or empty part anywhere does not change the key |
| CacheKeys.NoPartsKey | src/main/java/com/niko/langchain4jworkflow/workflow/config/CacheKeyGenerator.java:11-14 | with no non-empty part the key is the hash of the empty string |
| CacheKeys.SeparatorAmbiguity | src/main/java/com/niko/langchain4jworkflow/workflow/config/CacheKeyGenerator.java:11-14 | the part "x:y" and the parts "x", "y" give the same key |
| CacheKeys.NullObjectPartKept | src/main/java/com/niko/langchain4jworkflow/workflow/config/CacheKeyGenerator.java:17-21 | in the object form a null part becomes "null" and is kept |
| CacheKeys.JoinInjective | src/main/java/com/niko/langchain4jworkflow/workflow/config/CacheKeyGenerator.java:13 | joining parts free of ':' is injective, so the ambiguity needs a separator inside a part |
| AspectMetrics.StatisticsOfAppend | src/main/java/com/niko/langchain4jworkflow/workflow/aspect/WorkflowAspect.java:142-151 | one more execution adds one to the count, adds one failure iff it failed, adds its duration, and takes the max and the min |
| AspectMetrics.FailedAtMostTotal | src/main/java/com/niko/langchain4jworkflow/workflow/aspect/WorkflowAspect.java:144-146 | failures never outnumber executions |
| AspectMetrics.MaxIsLeastUpperBound | src/main/java/com/niko/langchain4jworkflow/workflow/aspect/WorkflowAspect.java:149 | the maximum bounds every duration and is one of them, or zero |
| AspectMetrics.MinIsGreatestLowerBound | src/main/java/com/niko/langchain4jworkflow/workflow/aspect/WorkflowAspect.java:150 | the minimum is below every duration and is one of them, or 365 days |
| AspectMetrics.MinAtMostMax | src/main/java/com/niko/langchain4jworkflow/workflow/aspect/WorkflowAspect.java:149-150 | after at least one execution, the minimum does not exceed the maximum |
| AspectMetrics.TotalWithinBounds | src/main/java/com/niko/langchain4jworkflow/workflow/aspect/WorkflowAspect.java:142-151 | count times minimum is at most the total, which is at most count times maximum |
| AspectMetrics.TruncatingDiv | src/main/java/com/niko/langchain4jworkflow/workflow/aspect/WorkflowAspect.java:155 | division rounds toward zero, as `Duration.dividedBy` does, for either sign of the total |
| AspectMetrics.WorkflowMetrics.constructor | src/main/java/com/niko/langchain4jworkflow/workflow/aspect/WorkflowAspect.java:136-140 | zero counts, zero total and maximum, and a minimum of 365 days |
| AspectMetrics.WorkflowMetrics.AddExecution | src/main/java/com/niko/langchain4jworkflow/workflow/aspect/WorkflowAspect.java:142-151 | the fields stay the statistics of the recorded executions; failures stay at most the total |
| AspectMetrics.WorkflowMetrics.AverageDuration | src/main/java/com/niko/langchain4jworkflow/workflow/aspect/WorkflowAspect.java:153-157 | total divided by count, rounding toward zero, when the count is positive, else zero |
| AspectMetrics.WorkflowAspect.UpdateMetrics | src/main/java/com/niko/langchain4jworkflow/workflow/aspect/WorkflowAspect.java:121-132 | one accumulator per name, created fresh on its first update; only that name's accumulator changes |
| Service.ExecutionInputs | src/main/java/com/niko/langchain4jworkflow/workflow/service/WorkflowServiceImpl.java:124-127 | the inputs overlaid with the context, the context winning on shared keys; null inputs throw |
| Service.MapClasses | src/main/java/com/niko/langchain4jworkflow/workflow/service/WorkflowServiceImpl.java:245-259 | the parameter names when every class resolves, otherwise "Failed to map class: <name>" for the first one that does not |
| Service.MapExceptionClasses | src/main/java/com/niko/langchain4jworkflow/workflow/service/WorkflowServiceImpl.java:415-434 | null stays null; the names are kept when each is a Throwable class, otherwise the first that is not throws "Class not found: <name>" or "Class is not a Throwable: <name>" |
| Service.BuildRetryConfig | src/main/java/com/niko/langchain4jworkflow/workflow/service/WorkflowServiceImpl.java:354-364 | null stays null; fails, always with an IllegalArgumentException, exactly when some retryable exception name is not a Throwable class; otherwise keeps the names |
| Service.BuildNodeConfig | src/main/java/com/niko/langchain4jworkflow/workflow/service/WorkflowServiceImpl.java:341-364 | null stays null; the config is built exactly when its retryable exception classes all resolve, and then keeps the system prompt and async flag; otherwise it fails with that failure |
| Service.BuildConfig | src/main/java/com/niko/langchain4jworkflow/workflow/service/WorkflowServiceImpl.java:366-389 | null stays null; the config is built exactly when its retryable exception classes all resolve, and then keeps the timeout and async flag; otherwise it fails with that failure |
| Service.BuildNode | src/main/java/com/niko/langchain4jworkflow/workflow/service/WorkflowServiceImpl.java:232-243 | the node keeps the request's name, type, dependencies and built config; building fails exactly when the config or an input or output class fails, and a config failure comes first |
| Service.NodesOfBuiltIff | src/main/java/com/niko/langchain4jworkflow/workflow/service/WorkflowServiceImpl.java:224-230 | the node map is built exactly when every node builds |
| Service.NodesOfKeys | src/main/java/com/niko/langchain4jworkflow/workflow/service/WorkflowServiceImpl.java:224-230 | the built map is keyed by exactly the request's node names |
| Service.NodesOfLastWins | src/main/java/com/niko/langchain4jworkflow/workflow/service/WorkflowServiceImpl.java:224-230 | a later request with the same name replaces the earlier one |
| Service.NodesOfStopsAtFailure | src/main/java/com/niko/langchain4jworkflow/workflow/service/WorkflowServiceImpl.java:224-230 | the first node that fails to build decides the failure |
| Service.BuildWorkflowDefinition | src/main/java/com/niko/langchain4jworkflow/workflow/service/WorkflowServiceImpl.java:213-222 | the definition has the given name, the built nodes and config, and no start-node list |
| Service.BuildNodes | src/main/java/com/niko/langchain4jworkflow/workflow/service/WorkflowServiceImpl.java:224-230 | the loop computes exactly `NodesOf` |
| Service.CreatedIffEverythingBuilds | src/main/java/com/niko/langchain4jworkflow/workflow/service/WorkflowServiceImpl.java:46-63 | the definition is built exactly when every node and the config build, with the request's name, its node names as keys, the built config and no start nodes; otherwise the reply is a WorkflowCreationException |
| Service.BuildDefinition | src/main/java/com/niko/langchain4jworkflow/workflow/service/WorkflowServiceImpl.java:213-222 | the nodes are built before the config, and the result is exactly `CreatedDefinition` |
| Service.UpdatedDefinition | src/main/java/com/niko/langchain4jworkflow/workflow/service/WorkflowServiceImpl.java:452-460 | the existing name kept and each set field of the request taken over; its properties are in the three lemmas below |
| Service.EmptyUpdateDropsOnlyStartNodes | src/main/java/com/niko/langchain4jworkflow/workflow/service/WorkflowServiceImpl.java:452-460 | an update that sets nothing keeps every field except the start nodes, which the builder leaves unset |
| Service.UpdateIdempotent | src/main/java/com/niko/langchain4jworkflow/workflow/service/WorkflowServiceImpl.java:452-460 | applying the same update twice is applying it once |
| Service.UpdateTakesSetFields | src/main/java/com/niko/langchain4jworkflow/workflow/service/WorkflowServiceImpl.java:452-460 | the name is kept; description, nodes, config and metadata come from the request when set, else from the existing definition |
| Service.BuildMetrics | src/main/java/com/niko/langchain4jworkflow/workflow/service/WorkflowServiceImpl.java:325-339 | the node counts and retry total of a history; its properties are in the three lemmas below |
| Service.BuildMetricsCounts | src/main/java/com/niko/langchain4jworkflow/workflow/service/WorkflowServiceImpl.java:325-339 | total nodes is the history size, completed plus failed is the total, retries are the sum of attempts minus one |
| Service.BuildMetricsAppend | src/main/java/com/niko/langchain4jworkflow/workflow/service/WorkflowServiceImpl.java:325-339 | the metrics of two histories together are the sums of their metrics |
| Service.BuildMetricsOrderFree | src/main/java/com/niko/langchain4jworkflow/workflow/service/WorkflowServiceImpl.java:325-339 | any reordering of the history entries gives the same metrics |
| Service.StatusOf | src/main/java/com/niko/langchain4jworkflow/workflow/service/WorkflowServiceImpl.java:186-200 | RUNNING for a pending run, COMPLETED with the final variables for a finished one; a failed run makes the query throw "Failed to get execution status: ..." |
| Service.WorkflowService.CreateWorkflow | src/main/java/com/niko/langchain4jworkflow/workflow/service/WorkflowServiceImpl.java:35-64 | a null node list throws; a request with errors is rejected with exactly them, or throws through an unknown dependency; an accepted one has a name, throws WorkflowAlreadyExistsException if it is taken, and otherwise gives `CreatedDefinition`; the registry gains exactly the new definition on success and is unchanged otherwise |
| Service.WorkflowService.UpdateWorkflow | src/main/java/com/niko/langchain4jworkflow/workflow/service/WorkflowServiceImpl.java:67-93 | an unknown id throws WorkflowNotFoundException; a node list or config that does not build throws WorkflowUpdateException with its message; otherwise the update succeeds and the merged definition replaces the existing one under the same name |
| Service.WorkflowService.DeleteWorkflow | src/main/java/com/niko/langchain4jworkflow/workflow/service/WorkflowServiceImpl.java:95-113 | a NullPointerException exactly when some execution is still running, leaving the registry alone; otherwise the name is unregistered |
| Service.WorkflowService.ExecuteWorkflow | src/main/java/com/niko/langchain4jworkflow/workflow/service/WorkflowServiceImpl.java:116-154 | the engine runs on the overlaid inputs; a pending run is kept under its id and a completed one is removed; any throw becomes "Failed to start workflow execution: ..." |
| Service.WorkflowService.StopWorkflow | src/main/java/com/niko/langchain4jworkflow/workflow/service/WorkflowServiceImpl.java:157-176 | an unknown id throws ExecutionNotFoundException; a known one is removed |
| Service.WorkflowService.GetExecutionStatus | src/main/java/com/niko/langchain4jworkflow/workflow/service/WorkflowServiceImpl.java:179-201 | an unknown id throws ExecutionNotFoundException; a reported status is never FAILED |
| Service.WorkflowService.GetWorkflow | src/main/java/com/niko/langchain4jworkflow/workflow/service/WorkflowServiceImpl.java:463-470 | the stored definition, or WorkflowNotFoundException |
| Failures.Wrapped | src/main/java/com/niko/langchain4jworkflow/workflow/core/DefaultWorkflowEngine.java:71-74 | wrapping in a CompletionException never wraps one twice, and keeps the cause |
| Failures.Message | src/main/java/com/niko/langchain4jworkflow/workflow/exceptions/NodeExecutionException.java:19-33 | `getMessage()` of each exception: the text given to it, the fixed prefixes such as "Node '<n>' execution failed: ", null for the reflective wrapper, and the cause's `toString()` for a CompletionException |
| Failures.ToString | src/main/java/com/niko/langchain4jworkflow/workflow/core/DefaultWorkflowEngine.java:263 | `toString()` starts with the class name, and is exactly the class name when the message is null |
| Failures.WrappedIdempotent | src/main/java/com/niko/langchain4jworkflow/workflow/core/DefaultWorkflowEngine.java:163-165 | wrapping twice is wrapping once |
| Failures.CompletionMessageNamesCause | src/main/java/com/niko/langchain4jworkflow/workflow/core/DefaultWorkflowEngine.java:263 | a CompletionException's message starts with its cause's class name |

## Left out

- Concurrency: futures complete on return, and fan-out runs sequentially. Thread pools, `allOf`, `cancel(true)`, timeouts and the thread-safety of the maps are not modelled.
- Retry, cache and monitor configuration: no code applies them, so the node config keeps only the system prompt and the async flag, and the workflow config only the timeout and the async-enabled flag.
  The retryable exception class names are still resolved while a config is built, because a name that is not a Throwable class makes the build fail.
- Reflection: a node's method is a `Handler`, with parameters as a small datatype. Invoking it is a function parameter (`Invoker`).
  `Class.forName` in the service is a `ClassResolver` parameter, which says whether a class exists and whether it is a Throwable. The SpEL hook always yields null and is modelled that way.
- The chat model is a function parameter, and so is the MD5 digest of the cache key. Value-to-text conversion in the prompt is one as well.
- Clocks and random ids: the current time is a fixed `now` for a whole run, and execution ids are parameters.
- NullPointerException texts: the JVM's helpful messages are not modelled. Each site carries a label naming the null expression instead.
- Events, log lines and the metrics registry calls of both engines and of the aspect are not modelled: they do not change any modelled state.
- DTO mapping, `listWorkflows`, `aroundWorkflow` and the aspect's context bookkeeping are not part of this model.
- Message texts of WorkflowCreationException and WorkflowUpdateException: those classes are not part of this model, and their message is taken to be the text they are given.
- Message text of WorkflowAlreadyExistsException: that class is not part of this model either, and its message is taken to be the workflow name it is given.
- State.WorkflowState.SetVariable: a `Value` is never null, so the NullPointerException that `ConcurrentHashMap.put` throws for a null value is not modelled; its one caller, `processResult`, stores only a non-null result.
- Hash-map iteration order is an unspecified listing (`Definitions.IterationOrder`), or the order of the request's entries.
- Service.BuildNode: a node's parameter maps become the list of the request map's keys in its entry order; the HashMap the code builds has no order, and the request map has no repeated key, which the list type does not enforce.
- The two-argument `recordNodeCompletion` that the AI, conditional and parallel executors call does not exist on WorkflowState; the one-argument method is used.
- The empty `execute(name, args...)` and `register` of DefaultWorkflowEngine, and the empty `register` of AnnotationBasedWorkflowEngine, change nothing and have no member.
- AnnotationEngine.AnnotationBasedWorkflowEngine.Execute: its input map holds no null values, so the NullPointerException of copying one is modelled only in `ExecuteWithArgs`.
- DefaultEngine.DefaultWorkflowEngine.Execute: the same holds; `putAll` of an input map with a null value would throw inside the try block and become "Failed to start workflow: null", which is not modelled.
- Execution.WorkflowExecutor.Execute: the same holds; the `putAll` there is outside any try block, so a null input value would throw a NullPointerException, which is not modelled.
- Service.ExecutionInputs: the request's input and context maps are taken to hold no null values, although the HashMap copy would accept them.
- Execution.RunNode: the dependency walk takes a fuel bound. Node names such as "x.end" can make the walk recurse without end, which surfaces as `StackOverflow` when the fuel runs out.
- DefaultEngine.RunNode: the same fuel bound as the executor's walk.
- Execution.RunNextNodes: its contract says only what it preserves; the states it produces are those of the node executors it calls.
- DefaultEngine.RunNextNodes: its contract says only what it preserves and which failures it can report.
- Service.StatusOf: a completed response carries only the final variables. The start time, duration, per-node executions and metrics read accessors that WorkflowState does not have.
- Service.BuildMetrics: its input is an abstract history entry with an optional error and an attempt count, because the history values the service assumes do not exist on WorkflowState. The retry total is an unbounded sum; the `(int)` cast and the `int` additions of the code could wrap around, which is not modelled.
- AspectMetrics.WorkflowMetrics.AddExecution: `long` overflow of the nanosecond totals is not modelled; integers are unbounded.

=== FILE: annotation_engine.dfy ===
/**
 * `AnnotationBasedWorkflowEngine`, the engine the auto-configuration wires
 * in: a table of states by workflow id. Its `execute` runs nothing; it
 * stores a RUNNING state holding the inputs and returns it at once.
 */
module AnnotationEngine {
  import opened Wrappers
  import opened Values
  import opened Failures
  import opened State

  /** Decimal digits of `n`, as `"" + n` renders an int. */
  function DecimalText(n: nat): (r: string)
    ensures |r| >= 1 && forall i :: 0 <= i < |r| ==> '0' <= r[i] <= '9'
    decreases n
  {
    var digit := ['0' + (n % 10) as char];
    if n < 10 then digit else DecimalText(n / 10) + digit
  }

  /** Different numbers have different decimal texts. */
  lemma {:induction false} DecimalTextInjective(a: nat, b: nat)
    requires DecimalText(a) == DecimalText(b)
    ensures a == b
    decreases a
  {
    var ta, tb := DecimalText(a), DecimalText(b);
    assert ta[|ta| - 1] == '0' + (a % 10) as char;
    assert tb[|tb| - 1] == '0' + (b % 10) as char;
    assert a % 10 == b % 10;
    if a >= 10 && b >= 10 {
      assert DecimalText(a / 10) == ta[..|ta| - 1];
      assert DecimalText(b / 10) == tb[..|tb| - 1];
      DecimalTextInjective(a / 10, b / 10);
    }
  }

  /** The key of the `i`-th positional argument: `"arg" + i`. */
  function ArgKey(i: nat): string
  {
    "arg" + DecimalText(i)
  }

  /** Distinct positions have distinct keys. */
  lemma ArgKeyInjective(i: nat, j: nat)
    requires ArgKey(i) == ArgKey(j)
    ensures i == j
  {
    assert DecimalText(i) == ArgKey(i)[3..];
    assert DecimalText(j) == ArgKey(j)[3..];
    DecimalTextInjective(i, j);
  }

  /**
   * The `HashMap` the varargs `execute` fills: `"arg" + i` maps to the
   * `i`-th argument, a null argument being a null value (None).
   */
  method ArgInputs(args: seq<Option<Value>>) returns (inputs: map<string, Option<Value>>)
    ensures inputs.Keys == set i | 0 <= i < |args| :: ArgKey(i)
    ensures forall i :: 0 <= i < |args| ==> inputs[ArgKey(i)] == args[i]
  {
    inputs := map[];
    var i := 0;
    while i < |args|
      invariant 0 <= i <= |args|
      invariant inputs.Keys == set j | 0 <= j < i :: ArgKey(j)
      invariant forall j :: 0 <= j < i ==> inputs[ArgKey(j)] == args[j]
    {
      forall j | 0 <= j < i
        ensures ArgKey(j) != ArgKey(i)
      {
        if ArgKey(j) == ArgKey(i) {
          ArgKeyInjective(j, i);
        }
      }
      inputs := inputs[ArgKey(i) := args[i]];
      i := i + 1;
    }
  }

  class AnnotationBasedWorkflowEngine {
    var activeExecutions: map<string, WorkflowState>

    constructor()
      ensures activeExecutions == map[]
    {
      activeExecutions := map[];
    }

    /**
     * `execute(name, inputs)`: the name is ignored; a fresh RUNNING state with
     * exactly the inputs and no history is stored under its id and returned
     * as an already completed future. `newId` is the random UUID of
     * `new WorkflowState()`.
     */
    method Execute(workflowName: string, inputs: map<string, Value>, newId: string) returns (state: WorkflowState)
      modifies this
      ensures fresh(state) && state.workflowId == newId
      ensures state.status == Running && state.errorMessage == None
      ensures state.variables == inputs && state.executionHistory == map[]
      ensures activeExecutions == old(activeExecutions)[newId := state]
      ensures GetExecutionState(newId) == Some(state)
    {
      state := new WorkflowState(newId);
      state.variables := state.variables + inputs;
      activeExecutions := activeExecutions[state.workflowId := state];
    }

    /**
     * `stop`: removes the entry and marks its state FAILED with
     * "Workflow execution stopped"; an unknown id is a silent no-op.
     * No other state is touched.
     */
    method Stop(executionId: string)
      modifies this, if executionId in activeExecutions then {activeExecutions[executionId]} else {}
      ensures activeExecutions == old(activeExecutions) - {executionId}
      ensures GetExecutionState(executionId) == None
      ensures executionId in old(activeExecutions) ==>
        var s := old(activeExecutions)[executionId];
        && s.status == Failed && s.errorMessage == Some("Workflow execution stopped")
        && s.variables == old(s.variables) && s.executionHistory == old(s.executionHistory)
      ensures forall id :: id in activeExecutions ==> GetExecutionState(id) == old(GetExecutionState(id))
    {
      if executionId in activeExecutions {
        var state := activeExecutions[executionId];
        activeExecutions := activeExecutions - {executionId};
        state.MarkAsFailed(Some("Workflow execution stopped"));
      }
    }

    /** `getExecutionState`: the stored state, or null (None) for an unknown id; it never throws. */
    function GetExecutionState(executionId: string): (r: Option<WorkflowState>)
      reads this
      ensures r.Some? <==> executionId in activeExecutions
      ensures r.Some? ==> r.value == activeExecutions[executionId]
    {
      if executionId in activeExecutions then Some(activeExecutions[executionId]) else None
    }

    /**
     * `execute(name, args...)`: the arguments become "arg0", "arg1", ... in
     * order and the map form runs on them. Copying a null argument into the
     * state's ConcurrentHashMap throws a NullPointerException before anything
     * is stored.
     */
    method ExecuteWithArgs(workflowName: string, args: seq<Option<Value>>, newId: string)
      returns (failure: Option<Failure>, state: WorkflowState?)
      modifies this
      ensures (exists i :: 0 <= i < |args| && args[i].None?) ==>
        failure == Some(NullPointer(None)) && state == null && activeExecutions == old(activeExecutions)
      ensures (forall i :: 0 <= i < |args| ==> args[i].Some?) ==>
        && failure == None && state != null && fresh(state)
        && state.variables.Keys == (set i | 0 <= i < |args| :: ArgKey(i))
        && (forall i :: 0 <= i < |args| ==> state.variables[ArgKey(i)] == args[i].value)
        && activeExecutions == old(activeExecutions)[newId := state]
    {
      var inputs := ArgInputs(args);
      if exists i :: 0 <= i < |args| && args[i].None? {
        return Some(NullPointer(None)), null;
      }
      var values := map k | k in inputs :: inputs[k].value;
      state := Execute(workflowName, values, newId);
      failure := None;
    }
  }
}

=== FILE: aspect_metrics.dfy ===
/**
 * The per-workflow execution statistics `WorkflowAspect` keeps: one
 * `WorkflowMetrics` accumulator per workflow name. Durations are whole
 * nanoseconds; the clock that measures them is outside the model.
 */
module AspectMetrics {
  import opened Wrappers
  import opened Failures

  /** `Duration.ofDays(365)` in nanoseconds, the initial minimum. */
  const YearNanos: int := 365 * 24 * 3600 * 1_000_000_000

  /** One recorded execution: its duration and whether an exception was passed. */
  datatype Execution = Execution(duration: int, failed: bool)

  function FailedCount(runs: seq<Execution>): nat
    decreases |runs|
  {
    if runs == [] then 0
    else FailedCount(runs[..|runs| - 1]) + (if runs[|runs| - 1].failed then 1 else 0)
  }

  function TotalOf(runs: seq<Execution>): int
    decreases |runs|
  {
    if runs == [] then 0 else TotalOf(runs[..|runs| - 1]) + runs[|runs| - 1].duration
  }

  /** The running maximum, starting from `Duration.ZERO`. */
  function MaxOf(runs: seq<Execution>): int
    decreases |runs|
  {
    if runs == [] then 0
    else
      var m := MaxOf(runs[..|runs| - 1]);
      var d := runs[|runs| - 1].duration;
      if d > m then d else m
  }

  /** The running minimum, starting from 365 days. */
  function MinOf(runs: seq<Execution>): int
    decreases |runs|
  {
    if runs == [] then YearNanos
    else
      var m := MinOf(runs[..|runs| - 1]);
      var d := runs[|runs| - 1].duration;
      if d < m then d else m
  }

  /** What one more execution does to each statistic. */
  lemma StatisticsOfAppend(runs: seq<Execution>, e: Execution)
    ensures FailedCount(runs + [e]) == FailedCount(runs) + (if e.failed then 1 else 0)
    ensures TotalOf(runs + [e]) == TotalOf(runs) + e.duration
    ensures MaxOf(runs + [e]) == (if e.duration > MaxOf(runs) then e.duration else MaxOf(runs))
    ensures MinOf(runs + [e]) == (if e.duration < MinOf(runs) then e.duration else MinOf(runs))
  {
    assert (runs + [e])[..|runs|] == runs;
  }

  /** Failures never outnumber executions. */
  lemma {:induction false} FailedAtMostTotal(runs: seq<Execution>)
    ensures FailedCount(runs) <= |runs|
    decreases |runs|
  {
    if runs != [] {
      FailedAtMostTotal(runs[..|runs| - 1]);
    }
  }

  /** The maximum bounds every duration and is zero or one of them. */
  lemma {:induction false} MaxIsLeastUpperBound(runs: seq<Execution>)
    ensures MaxOf(runs) >= 0
    ensures forall i :: 0 <= i < |runs| ==> runs[i].duration <= MaxOf(runs)
    ensures MaxOf(runs) == 0 || exists i :: 0 <= i < |runs| && runs[i].duration == MaxOf(runs)
    decreases |runs|
  {
    if runs != [] {
      var prefix := runs[..|runs| - 1];
      MaxIsLeastUpperBound(prefix);
      assert forall i :: 0 <= i < |prefix| ==> prefix[i] == runs[i];
    }
  }

  /** The minimum bounds every duration from below and is 365 days or one of them. */
  lemma {:induction false} MinIsGreatestLowerBound(runs: seq<Execution>)
    ensures MinOf(runs) <= YearNanos
    ensures forall i :: 0 <= i < |runs| ==> MinOf(runs) <= runs[i].duration
    ensures MinOf(runs) == YearNanos || exists i :: 0 <= i < |runs| && runs[i].duration == MinOf(runs)
    decreases |runs|
  {
    if runs != [] {
      var prefix := runs[..|runs| - 1];
      MinIsGreatestLowerBound(prefix);
      assert forall i :: 0 <= i < |prefix| ==> prefix[i] == runs[i];
    }
  }

  /** Once something is recorded, the minimum is at most the maximum. */
  lemma MinAtMostMax(runs: seq<Execution>)
    requires runs != []
    ensures MinOf(runs) <= MaxOf(runs)
  {
    MinIsGreatestLowerBound(runs);
    MaxIsLeastUpperBound(runs);
    assert MinOf(runs) <= runs[0].duration <= MaxOf(runs);
  }

  /** The total lies between count × minimum and count × maximum. */
  lemma {:induction false} TotalWithinBounds(runs: seq<Execution>)
    ensures MinOf(runs) * |runs| <= TotalOf(runs) <= MaxOf(runs) * |runs|
    decreases |runs|
  {
    if runs != [] {
      var prefix := runs[..|runs| - 1];
      TotalWithinBounds(prefix);
      BoundsStep(MinOf(prefix), MinOf(runs), MaxOf(prefix), MaxOf(runs),
                 TotalOf(prefix), runs[|runs| - 1].duration, |prefix|);
    }
  }

  /** One more value between the new bounds keeps the total between count × bounds. */
  lemma BoundsStep(lo: int, lo': int, hi: int, hi': int, total: int, d: int, n: nat)
    requires lo' <= lo && lo' <= d && hi <= hi' && d <= hi'
    requires lo * n <= total <= hi * n
    ensures lo' * (n + 1) <= total + d <= hi' * (n + 1)
  {
    MulMonotone(lo', lo, n);
    MulMonotone(hi, hi', n);
    assert lo' * (n + 1) == lo' * n + lo';
    assert hi' * (n + 1) == hi' * n + hi';
  }

  lemma MulMonotone(a: int, b: int, n: nat)
    requires a <= b
    ensures a * n <= b * n
  {
  }

  /** `Duration.dividedBy(long)`: the quotient truncated toward zero. */
  function TruncatingDiv(a: int, b: int): (r: int)
    requires b > 0
    ensures a >= 0 ==> 0 <= r && r * b <= a < (r + 1) * b
    ensures a < 0 ==> r <= 0 && (r - 1) * b < a <= r * b
  {
    if a >= 0 then
      DivBounds(a, b);
      a / b
    else
      DivBounds(-a, b);
      NegatedBounds(-a, b, (-a) / b);
      -((-a) / b)
  }

  /** Euclidean division of a non-negative number by a positive one brackets it. */
  lemma DivBounds(a: int, b: int)
    requires a >= 0 && b > 0
    ensures 0 <= a / b
    ensures (a / b) * b <= a < (a / b + 1) * b
  {
    var q := a / b;
    assert a == b * q + a % b;
    assert q * b == b * q;
    assert (q + 1) * b == q * b + b;
  }

  /** Negating a bracketed quotient brackets the negated dividend. */
  lemma NegatedBounds(a: int, b: int, q: int)
    requires b > 0 && 0 <= q && q * b <= a < (q + 1) * b
    ensures (-q - 1) * b < -a <= (-q) * b
  {
    assert (-q) * b == -(q * b);
    assert (-q - 1) * b == -((q + 1) * b);
  }

  class WorkflowMetrics {
    var totalExecutions: int
    var failedExecutions: int
    var totalDuration: int
    var maxDuration: int
    var minDuration: int
    /** Every execution recorded so far, in order. */
    ghost var recorded: seq<Execution>
    /** The workflow name the aspect keeps this accumulator under. */
    ghost const owner: string

    /** The fields are the statistics of what was recorded. */
    ghost predicate Valid()
      reads this
    {
      && totalExecutions == |recorded|
      && failedExecutions == FailedCount(recorded)
      && totalDuration == TotalOf(recorded)
      && maxDuration == MaxOf(recorded)
      && minDuration == MinOf(recorded)
    }

    constructor(ghost owner: string)
      ensures Valid() && recorded == [] && this.owner == owner
      ensures totalExecutions == 0 && failedExecutions == 0
      ensures totalDuration == 0 && maxDuration == 0 && minDuration == YearNanos
    {
      totalExecutions := 0;
      failedExecutions := 0;
      totalDuration := 0;
      maxDuration := 0;
      minDuration := YearNanos;
      recorded := [];
      this.owner := owner;
    }

    /**
     * `addExecution`: one more execution, a failed one exactly when an
     * exception is passed; the duration adds to the total and moves the
     * maximum and minimum.
     */
    method AddExecution(duration: int, error: Option<Failure>)
      requires Valid()
      modifies this
      ensures Valid() && recorded == old(recorded) + [Execution(duration, error.Some?)]
      ensures totalExecutions == old(totalExecutions) + 1
      ensures failedExecutions == old(failedExecutions) + (if error.Some? then 1 else 0)
      ensures totalDuration == old(totalDuration) + duration
      ensures maxDuration == (if duration > old(maxDuration) then duration else old(maxDuration))
      ensures minDuration == (if duration < old(minDuration) then duration else old(minDuration))
      ensures failedExecutions <= totalExecutions
    {
      StatisticsOfAppend(recorded, Execution(duration, error.Some?));
      FailedAtMostTotal(recorded + [Execution(duration, error.Some?)]);
      recorded := recorded + [Execution(duration, error.Some?)];
      totalExecutions := totalExecutions + 1;
      if error.Some? {
        failedExecutions := failedExecutions + 1;
      }
      totalDuration := totalDuration + duration;
      maxDuration := if duration > maxDuration then duration else maxDuration;
      minDuration := if duration < minDuration then duration else minDuration;
    }

    /** `getAverageDuration`: the total over the count, truncated, or zero before any execution. */
    function AverageDuration(): (r: int)
      reads this
      ensures totalExecutions <= 0 ==> r == 0
      ensures totalExecutions > 0 && totalDuration >= 0 ==>
        r >= 0 && r * totalExecutions <= totalDuration < (r + 1) * totalExecutions
      ensures totalExecutions > 0 && totalDuration < 0 ==>
        r <= 0 && (r - 1) * totalExecutions < totalDuration <= r * totalExecutions
    {
      if totalExecutions > 0 then TruncatingDiv(totalDuration, totalExecutions) else 0
    }
  }

  /** The aspect's `metricsMap`: one accumulator per workflow name. */
  class WorkflowAspect {
    var metricsMap: map<string, WorkflowMetrics>

    /** Every accumulator is consistent and kept under its own name, so no two names share one. */
    ghost predicate Valid()
      reads this, metricsMap.Values
    {
      forall n :: n in metricsMap ==> metricsMap[n].owner == n && metricsMap[n].Valid()
    }

    constructor()
      ensures Valid() && metricsMap == map[]
    {
      metricsMap := map[];
    }

    /**
     * `updateMetrics`: the name's accumulator, created empty on its first
     * update (`computeIfAbsent`), records the execution; every other name's
     * accumulator is untouched.
     */
    method UpdateMetrics(workflowName: string, duration: int, error: Option<Failure>)
      requires Valid()
      modifies this, metricsMap.Values
      ensures Valid()
      ensures metricsMap.Keys == old(metricsMap.Keys) + {workflowName}
      ensures forall n :: n in old(metricsMap) ==> metricsMap[n] == old(metricsMap[n])
      ensures workflowName !in old(metricsMap) ==>
        fresh(metricsMap[workflowName]) && metricsMap[workflowName].recorded == [Execution(duration, error.Some?)]
      ensures workflowName in old(metricsMap) ==>
        metricsMap[workflowName].recorded == old(metricsMap[workflowName].recorded) + [Execution(duration, error.Some?)]
      ensures forall n :: n in old(metricsMap) && n != workflowName ==>
        metricsMap[n].recorded == old(metricsMap[n].recorded)
    {
      var metrics: WorkflowMetrics;
      if workflowName in metricsMap {
        metrics := metricsMap[workflowName];
      } else {
        metrics := new WorkflowMetrics(workflowName);
        metricsMap := metricsMap[workflowName := metrics];
      }
      metrics.AddExecution(duration, error);
    }
  }
}

=== FILE: cache_key.dfy ===
/**
 * `CacheKeyGenerator`: the null and empty parts are dropped, the rest are
 * joined with ":" in order, and the digest of that text is the key. The MD5
 * digest is a parameter: nothing here depends on how it is computed.
 */
module CacheKeys {
  import opened Wrappers

  type Digest = string -> string

  const Separator: char := ':'

  /** The parts that survive the filter, in their original order. */
  function NonEmptyParts(parts: seq<Option<string>>): (r: seq<string>)
    ensures |r| <= |parts|
    ensures forall i :: 0 <= i < |r| ==> r[i] != ""
    decreases |parts|
  {
    if parts == [] then []
    else
      var last := parts[|parts| - 1];
      NonEmptyParts(parts[..|parts| - 1]) + (if last.Some? && last.value != "" then [last.value] else [])
  }

  /** `Collectors.joining(":")`. */
  function Join(xs: seq<string>): string
    decreases |xs|
  {
    if xs == [] then ""
    else if |xs| == 1 then xs[0]
    else xs[0] + [Separator] + Join(xs[1..])
  }

  /** `generateKey(String...)`. */
  function GenerateKey(parts: seq<Option<string>>, md5: Digest): string
  {
    md5(Join(NonEmptyParts(parts)))
  }

  /** `String.valueOf(Object)`: a null part becomes the text "null". */
  function ValueOf(part: Option<string>): string
  {
    match part
    case Some(s) => s
    case None => "null"
  }

  /** `generateKey(Object...)`: each part through `String.valueOf`, then the string form. */
  function GenerateKeyFromObjects(parts: seq<Option<string>>, md5: Digest): string
  {
    GenerateKey(seq(|parts|, i requires 0 <= i < |parts| => Some(ValueOf(parts[i]))), md5)
  }

  /** Filtering distributes over concatenation, so the kept parts keep their relative order. */
  lemma {:induction false} NonEmptyPartsAppend(a: seq<Option<string>>, b: seq<Option<string>>)
    ensures NonEmptyParts(a + b) == NonEmptyParts(a) + NonEmptyParts(b)
    decreases |b|
  {
    if b != [] {
      var b' := b[..|b| - 1];
      assert (a + b)[..|a + b| - 1] == a + b';
      NonEmptyPartsAppend(a, b');
    } else {
      assert a + b == a;
    }
  }

  /** A text is kept exactly when it is non-empty and one of the parts. */
  lemma {:induction false} NonEmptyPartsMembers(parts: seq<Option<string>>, s: string)
    ensures s in NonEmptyParts(parts) <==> s != "" && Some(s) in parts
    decreases |parts|
  {
    if parts != [] {
      var prefix := parts[..|parts| - 1];
      NonEmptyPartsMembers(prefix, s);
      assert parts == prefix + [parts[|parts| - 1]];
    }
  }

  /** Inserting a null or empty part anywhere does not change the key. */
  lemma EmptyPartIgnored(a: seq<Option<string>>, p: Option<string>, b: seq<Option<string>>, md5: Digest)
    requires p == None || p == Some("")
    ensures GenerateKey(a + [p] + b, md5) == GenerateKey(a + b, md5)
  {
    NonEmptyPartsAppend(a + [p], b);
    NonEmptyPartsAppend(a, [p]);
    assert NonEmptyParts([p]) == [] by {
      assert [p][..0] == [];
    }
    NonEmptyPartsAppend(a, b);
    assert NonEmptyParts(a + [p] + b) == NonEmptyParts(a + b);
  }

  /** With no non-empty part the key is the digest of the empty text. */
  lemma {:induction false} NoPartsKey(parts: seq<Option<string>>, md5: Digest)
    requires forall i :: 0 <= i < |parts| ==> parts[i] == None || parts[i] == Some("")
    ensures GenerateKey(parts, md5) == md5("")
  {
    forall s | s in NonEmptyParts(parts)
      ensures false
    {
      NonEmptyPartsMembers(parts, s);
    }
    if NonEmptyParts(parts) != [] {
      assert NonEmptyParts(parts)[0] in NonEmptyParts(parts);
    }
  }

  /** The separator is not escaped: one part "x:y" and the two parts "x", "y" share a key. */
  lemma SeparatorAmbiguity(x: string, y: string, md5: Digest)
    requires x != "" && y != ""
    ensures GenerateKey([Some(x + [Separator] + y)], md5) == GenerateKey([Some(x), Some(y)], md5)
  {
    assert [Some(x), Some(y)][..1] == [Some(x)];
    assert [Some(x)][..0] == [];
    assert [Some(x + [Separator] + y)][..0] == [];
    assert NonEmptyParts([Some(x)]) == [x];
    assert NonEmptyParts([Some(x), Some(y)]) == [x, y];
    assert NonEmptyParts([Some(x + [Separator] + y)]) == [x + [Separator] + y];
    assert [x, y][1..] == [y];
    assert Join([x, y]) == x + [Separator] + y;
  }

  /** The Object form keeps a null part, as the text "null". */
  lemma {:induction false} NullObjectPartKept(parts: seq<Option<string>>, i: nat, md5: Digest)
    requires i < |parts| && parts[i] == None
    ensures "null" in NonEmptyParts(seq(|parts|, j requires 0 <= j < |parts| => Some(ValueOf(parts[j]))))
  {
    var texts := seq(|parts|, j requires 0 <= j < |parts| => Some(ValueOf(parts[j])));
    assert texts[i] == Some("null");
    NonEmptyPartsMembers(texts, "null");
  }

  /** The joined text starts with the first part, followed by the separator when more parts come. */
  lemma JoinStartsWithFirst(xs: seq<string>)
    ensures xs != [] ==> xs[0] <= Join(xs)
    ensures |xs| == 1 ==> Join(xs) == xs[0]
    ensures |xs| > 1 ==> Join(xs) == xs[0] + [Separator] + Join(xs[1..])
    ensures |xs| > 1 ==> |Join(xs)| > |xs[0]| && Join(xs)[|xs[0]|] == Separator
  {
  }

  lemma CharOfPrefix(p: string, s: string, k: nat)
    ensures p <= s && k < |p| ==> s[k] == p[k] && s[k] in p
  {
  }

  predicate ColonFree(xs: seq<string>)
  {
    forall i :: 0 <= i < |xs| ==> xs[i] != "" && Separator !in xs[i]
  }

  /** Two joins of colon-free parts that agree start with the same part. */
  lemma FirstPartsAgree(xs: seq<string>, ys: seq<string>)
    requires ColonFree(xs) && ColonFree(ys) && xs != [] && ys != []
    requires Join(xs) == Join(ys)
    ensures xs[0] == ys[0]
  {
    var s := Join(xs);
    var x, y := xs[0], ys[0];
    JoinStartsWithFirst(xs);
    JoinStartsWithFirst(ys);
    CharOfPrefix(y, s, |x|);
    CharOfPrefix(x, s, |y|);
    assert x == s[..|x|] == y;
  }

  /**
   * Joining is injective on non-empty parts without a ':', so keys of such
   * parts can only collide through the digest.
   */
  lemma {:induction false} JoinInjective(xs: seq<string>, ys: seq<string>)
    requires ColonFree(xs) && ColonFree(ys)
    requires Join(xs) == Join(ys)
    ensures xs == ys
    decreases |xs|
  {
    JoinStartsWithFirst(xs);
    JoinStartsWithFirst(ys);
    if xs != [] && ys != [] {
      FirstPartsAgree(xs, ys);
      if |xs| > 1 && |ys| > 1 {
        var s := Join(xs);
        assert Join(xs[1..]) == s[|xs[0]| + 1..] == Join(ys[1..]);
        JoinInjective(xs[1..], ys[1..]);
        assert xs == [xs[0]] + xs[1..];
        assert ys == [ys[0]] + ys[1..];
      }
    }
  }
}

=== FILE: cycles.dfy ===
/**
 * `hasCyclicDependencies` / `hasCycle`: a depth-first search with a shared
 * `visited` set and a recursion stack `recStack` over the graph that maps
 * each node name to the set of its dependencies. The sets Java passes by
 * reference are passed in and handed back; `stack` is a ghost record of the
 * order in which `recStack` was filled.
 */
module Cycles {
  import opened Requests
  import opened Definitions

  type Graph = map<string, set<string>>

  /** What the search ends in: a cycle, none, or the NullPointerException of `graph.get(node)` on an unknown node. */
  datatype Verdict = CycleFound | NoCycle | UnknownNodeReached

  /** The dependencies of one node request, as the HashSet `addAll` fills. */
  function DependencySet(node: CreateNodeRequest): set<string>
  {
    match node.dependencies
    case None => {}
    case Some(deps) => set d | d in deps
  }

  /** The graph built from the requests in order; a later node of the same name replaces an earlier one. */
  function DependencyGraph(nodes: seq<CreateNodeRequest>): (g: Graph)
    ensures g.Keys == NameSet(nodes)
    decreases |nodes|
  {
    if nodes == [] then map[]
    else DependencyGraph(nodes[..|nodes| - 1])[nodes[|nodes| - 1].name := DependencySet(nodes[|nodes| - 1])]
  }

  /** Each entry of the graph is the dependency set of some request of that name. */
  lemma {:induction false} GraphEntryFromRequest(nodes: seq<CreateNodeRequest>, n: string)
    requires n in DependencyGraph(nodes)
    ensures exists i :: 0 <= i < |nodes| && nodes[i].name == n && DependencyGraph(nodes)[n] == DependencySet(nodes[i])
    decreases |nodes|
  {
    var prefix := nodes[..|nodes| - 1];
    var last := nodes[|nodes| - 1];
    if last.name != n {
      GraphEntryFromRequest(prefix, n);
      var i :| 0 <= i < |prefix| && prefix[i].name == n && DependencyGraph(prefix)[n] == DependencySet(prefix[i]);
      assert nodes[i] == prefix[i];
    }
  }

  /** A walk along dependency edges: each node but the last is a key, and the next is among its dependencies. */
  ghost predicate IsPath(g: Graph, p: seq<string>)
  {
    |p| >= 1 && forall i :: 0 <= i < |p| - 1 ==> p[i] in g && p[i + 1] in g[p[i]]
  }

  ghost predicate IsCycle(g: Graph, p: seq<string>)
  {
    IsPath(g, p) && |p| >= 2 && p[0] == p[|p| - 1]
  }

  /** The graph has a directed cycle; a node depending on itself is one. */
  ghost predicate HasCycle(g: Graph)
  {
    exists p :: IsCycle(g, p)
  }

  /** Every dependency names a node of the graph. */
  ghost predicate AllKnown(g: Graph)
  {
    forall n, d :: n in g && d in g[n] ==> d in g
  }

  /** Every element of `s` is a key whose dependencies all lie in `s`. */
  ghost predicate Closed(g: Graph, s: set<string>)
  {
    forall x :: x in s ==> x in g && g[x] <= s
  }

  /** No cycle starts in `s`. */
  ghost predicate NoCycleFrom(g: Graph, s: set<string>)
  {
    forall p :: IsCycle(g, p) ==> p[0] !in s
  }

  /**
   * The search's invariant: `recStack` holds exactly the nodes of `stack`,
   * which is a walk; the finished nodes (visited, no longer on the stack)
   * are closed under dependencies and start no cycle.
   */
  ghost predicate SearchInvariant(g: Graph, visited: set<string>, recStack: set<string>, stack: seq<string>)
  {
    (forall x :: x in recStack <==> x in stack)
    && (forall i :: 0 <= i < |stack| ==> stack[i] in g)
    && (forall i :: 0 <= i < |stack| - 1 ==> stack[i + 1] in g[stack[i]])
    && recStack <= visited
    && Closed(g, visited - recStack)
    && NoCycleFrom(g, visited - recStack)
  }

  /** A walk that starts in a closed set stays in it. */
  lemma {:induction false} ClosedPathStaysInside(g: Graph, s: set<string>, p: seq<string>)
    requires Closed(g, s) && IsPath(g, p) && p[0] in s
    ensures p[|p| - 1] in s
    decreases |p|
  {
    if |p| > 1 {
      var q := p[..|p| - 1];
      assert IsPath(g, q) by {
        forall i | 0 <= i < |q| - 1
          ensures q[i] in g && q[i + 1] in g[q[i]]
        {
          assert q[i] == p[i] && q[i + 1] == p[i + 1];
        }
      }
      ClosedPathStaysInside(g, s, q);
      assert p[|p| - 2] == q[|q| - 1];
    }
  }

  lemma StrictSubsetSmaller(a: set<string>, b: set<string>, x: string)
    requires a <= b && x in b && x !in a
    ensures |a| < |b|
  {
    assert a <= b - {x};
    SubsetNotLarger(a, b - {x});
  }

  lemma {:induction false} SubsetNotLarger(a: set<string>, b: set<string>)
    requires a <= b
    ensures |a| <= |b|
    decreases |b|
  {
    if a != {} {
      var x :| x in a;
      SubsetNotLarger(a - {x}, b - {x});
    }
  }

  /** Once every key is finished, there is no cycle and no unknown dependency. */
  lemma AllFinishedMeansAcyclic(g: Graph, visited: set<string>)
    requires g.Keys <= visited
    requires Closed(g, visited) && NoCycleFrom(g, visited)
    ensures AllKnown(g) && !HasCycle(g)
  {
  }

  /** Meeting a node already on the stack closes a cycle. */
  lemma StackRevisitIsCycle(g: Graph, recStack: set<string>, stack: seq<string>, node: string)
    requires forall x :: x in recStack <==> x in stack
    requires forall i :: 0 <= i < |stack| ==> stack[i] in g
    requires forall i :: 0 <= i < |stack| - 1 ==> stack[i + 1] in g[stack[i]]
    requires stack != [] ==> node in g[stack[|stack| - 1]]
    requires node in recStack
    ensures HasCycle(g)
  {
    var i :| 0 <= i < |stack| && stack[i] == node;
    var cycle := stack[i..] + [node];
    forall j | 0 <= j < |cycle| - 1
      ensures cycle[j] in g && cycle[j + 1] in g[cycle[j]]
    {
      if j < |cycle| - 2 {
        assert cycle[j] == stack[i + j] && cycle[j + 1] == stack[i + j + 1];
      } else {
        assert cycle[j] == stack[|stack| - 1];
      }
    }
    assert IsCycle(g, cycle);
  }

  /** Entering an unvisited key keeps the invariant. */
  lemma PushKeepsInvariant(g: Graph, visited: set<string>, recStack: set<string>, stack: seq<string>, node: string)
    requires SearchInvariant(g, visited, recStack, stack)
    requires node in g && node !in visited
    requires stack != [] ==> node in g[stack[|stack| - 1]]
    ensures SearchInvariant(g, visited + {node}, recStack + {node}, stack + [node])
  {
    assert (visited + {node}) - (recStack + {node}) == visited - recStack;
    var st := stack + [node];
    forall i | 0 <= i < |st| - 1
      ensures st[i + 1] in g[st[i]]
    {
      if i < |stack| - 1 {
        assert st[i] == stack[i] && st[i + 1] == stack[i + 1];
      }
    }
  }

  /** Leaving a node whose dependencies are all finished makes it finished too. */
  lemma PopKeepsInvariant(g: Graph, v: set<string>, recStack: set<string>, stack: seq<string>, node: string)
    requires SearchInvariant(g, v, recStack + {node}, stack + [node])
    requires node !in recStack && node !in stack && node in g
    requires g[node] <= v - (recStack + {node})
    ensures SearchInvariant(g, v, recStack, stack)
    ensures node in v - recStack
  {
    var finished := v - (recStack + {node});
    assert v - recStack == finished + {node};
    var st := stack + [node];
    forall i | 0 <= i < |stack| - 1
      ensures stack[i + 1] in g[stack[i]]
    {
      assert st[i] == stack[i] && st[i + 1] == stack[i + 1];
    }
    forall x | x in recStack
      ensures x in stack
    {
      assert x in st && x != node;
    }
    forall p | IsCycle(g, p)
      ensures p[0] !in v - recStack
    {
      if p[0] == node {
        var q := p[1..];
        forall i | 0 <= i < |q| - 1
          ensures q[i] in g && q[i + 1] in g[q[i]]
        {
          assert q[i] == p[i + 1] && q[i + 1] == p[i + 2];
        }
        assert IsPath(g, q);
        assert q[0] in g[node];
        ClosedPathStaysInside(g, finished, q);
      }
    }
  }

  /** Once `dep` is finished too, every dependency taken from `remaining` so far is finished. */
  lemma FinishedGrows(deps: set<string>, remaining: set<string>, dep: string, before: set<string>, after: set<string>)
    requires forall d :: d in deps - remaining ==> d in before
    requires before <= after && dep in after
    ensures forall d :: d in deps - (remaining - {dep}) ==> d in after
  {
  }

  /**
   * `hasCycle(node, graph, visited, recStack)`. `node` is a key (a call from
   * the top) or a dependency of the node on top of the stack.
   */
  method HasCycleFrom(node: string, g: Graph, visited: set<string>, recStack: set<string>, ghost stack: seq<string>)
    returns (r: Verdict, visited': set<string>, recStack': set<string>)
    requires SearchInvariant(g, visited, recStack, stack)
    requires stack == [] ==> node in g
    requires stack != [] ==> node in g[stack[|stack| - 1]]
    ensures r == CycleFound ==> HasCycle(g)
    ensures r == UnknownNodeReached ==> !AllKnown(g)
    ensures r == NoCycle ==>
      SearchInvariant(g, visited', recStack', stack) && recStack' == recStack
      && visited <= visited' && node in visited' - recStack'
    decreases |g.Keys - visited|, 1
  {
    if node in recStack {
      StackRevisitIsCycle(g, recStack, stack, node);
      return CycleFound, visited, recStack;
    }
    if node in visited {
      return NoCycle, visited, recStack;
    }
    var v := visited + {node};
    var rs := recStack + {node};
    if node !in g {
      // graph.get(node) is null, and iterating over it throws
      return UnknownNodeReached, v, rs;
    }
    PushKeepsInvariant(g, visited, recStack, stack, node);
    r, v, rs := SearchDependencies(node, g, v, rs, stack, visited, recStack);
    if r != NoCycle {
      return r, v, rs;
    }
    assert node !in stack;
    PopKeepsInvariant(g, v, recStack, stack, node);
    return NoCycle, v, recStack;
  }

  /**
   * The loop of `hasCycle` over the dependencies of `node`, which has just
   * been added to `visited` and `recStack`.
   */
  method SearchDependencies(node: string, g: Graph, visited: set<string>, recStack: set<string>, ghost stack: seq<string>,
                            ghost visitedBefore: set<string>, ghost recStackBefore: set<string>)
    returns (r: Verdict, visited': set<string>, recStack': set<string>)
    requires node in g && node !in visitedBefore
    requires visited == visitedBefore + {node} && recStack == recStackBefore + {node}
    requires SearchInvariant(g, visited, recStack, stack + [node])
    ensures r == CycleFound ==> HasCycle(g)
    ensures r == UnknownNodeReached ==> !AllKnown(g)
    ensures r == NoCycle ==>
      SearchInvariant(g, visited', recStack', stack + [node]) && recStack' == recStack
      && visited <= visited' && g[node] <= visited' - recStack'
    decreases |g.Keys - visitedBefore|, 0
  {
    ghost var st := stack + [node];
    var v, rs := visited, recStack;
    var remaining := g[node];
    while remaining != {}
      invariant SearchInvariant(g, v, rs, st)
      invariant rs == recStack
      invariant visited <= v
      invariant remaining <= g[node]
      invariant forall d :: d in g[node] - remaining ==> d in v - rs
      decreases |remaining|
    {
      var dep :| dep in remaining;
      StrictSubsetSmaller(g.Keys - v, g.Keys - visitedBefore, node);
      ghost var before := v - rs;
      var found;
      found, v, rs := HasCycleFrom(dep, g, v, rs, st);
      if found != NoCycle {
        return found, v, rs;
      }
      FinishedGrows(g[node], remaining, dep, before, v - rs);
      remaining := remaining - {dep};
    }
    return NoCycle, v, rs;
  }

  /** One more request puts its dependency set under its name. */
  lemma GraphStep(nodes: seq<CreateNodeRequest>, i: nat)
    requires i < |nodes|
    ensures DependencyGraph(nodes[..i + 1]) == DependencyGraph(nodes[..i])[nodes[i].name := DependencySet(nodes[i])]
  {
    assert nodes[..i + 1][..i] == nodes[..i];
  }

  /** The graph-building loop of `hasCyclicDependencies`. */
  method BuildGraph(nodes: seq<CreateNodeRequest>) returns (g: Graph)
    ensures g == DependencyGraph(nodes)
  {
    g := map[];
    var i := 0;
    while i < |nodes|
      invariant 0 <= i <= |nodes|
      invariant g == DependencyGraph(nodes[..i])
    {
      GraphStep(nodes, i);
      g := g[nodes[i].name := DependencySet(nodes[i])];
      i := i + 1;
    }
    assert nodes[..|nodes|] == nodes;
  }

  /** The search loop of `hasCyclicDependencies`: `hasCycle` from every key, in the key set's iteration order. */
  method SearchAll(g: Graph) returns (r: Verdict)
    ensures r == CycleFound ==> HasCycle(g)
    ensures r == NoCycle ==> AllKnown(g) && !HasCycle(g)
    ensures r == UnknownNodeReached ==> !AllKnown(g)
  {
    var order := IterationOrder(g.Keys);
    var visited: set<string> := {};
    var recStack: set<string> := {};
    var k := 0;
    while k < |order|
      invariant 0 <= k <= |order|
      invariant SearchInvariant(g, visited, recStack, [])
      invariant recStack == {}
      invariant forall j :: 0 <= j < k ==> order[j] in visited
    {
      ghost var before := visited;
      r, visited, recStack := HasCycleFrom(order[k], g, visited, recStack, []);
      if r != NoCycle {
        return;
      }
      forall j | 0 <= j < k + 1
        ensures order[j] in visited
      {
        if j < k {
          assert order[j] in before;
        }
      }
      k := k + 1;
    }
    AllFinishedMeansAcyclic(g, visited);
    r := NoCycle;
  }

  /**
   * `hasCyclicDependencies`: builds the graph, then searches it. With every
   * dependency known it reports a cycle exactly when there is one;
   * otherwise it may reach an unknown node and throw before finding a cycle.
   */
  method HasCyclicDependencies(nodes: seq<CreateNodeRequest>) returns (r: Verdict)
    ensures r == CycleFound ==> HasCycle(DependencyGraph(nodes))
    ensures r == NoCycle ==> AllKnown(DependencyGraph(nodes)) && !HasCycle(DependencyGraph(nodes))
    ensures r == UnknownNodeReached ==> !AllKnown(DependencyGraph(nodes))
    ensures AllKnown(DependencyGraph(nodes)) ==>
      r != UnknownNodeReached && (r == CycleFound <==> HasCycle(DependencyGraph(nodes)))
  {
    var g := BuildGraph(nodes);
    r := SearchAll(g);
  }
}

=== FILE: default_engine.dfy ===
/**
 * `DefaultWorkflowEngine`: the table of active executions and its own
 * dependency walk. The walk differs from WorkflowExecutor's: a node
 * executor that throws is rethrown as a NodeExecutionException, and the
 * branches' states are merged back into the base state.
 */
module DefaultEngine {
  import opened Wrappers
  import opened Values
  import opened Failures
  import opened State
  import opened Nodes
  import opened Definitions
  import opened Registry
  import opened Executors
  import opened Execution

  /** `canExecuteNode`: a null dependency list is ready, otherwise every dependency must be completed. */
  function CanExecuteNode(node: Node, state: WorkflowState): (r: bool)
    reads state
    ensures r == CanExecute(node, state)
  {
    match node.dependencies
    case None => true
    case Some(deps) => AllCompleted(deps, state.executionHistory)
  }

  /* mergeStates */

  /** Each branch's map copied over the base in list order. */
  function MergeAll<V>(base: map<string, V>, branches: seq<map<string, V>>): map<string, V>
    decreases |branches|
  {
    if branches == [] then base
    else MergeAll(base, branches[..|branches| - 1]) + branches[|branches| - 1]
  }

  /** The merged keys are the base's and every branch's. */
  lemma {:induction false} MergeAllKeys<V>(base: map<string, V>, branches: seq<map<string, V>>, k: string)
    ensures k in MergeAll(base, branches) <==> k in base || exists j :: 0 <= j < |branches| && k in branches[j]
    decreases |branches|
  {
    if branches != [] {
      var prefix := branches[..|branches| - 1];
      MergeAllKeys(base, prefix, k);
      if exists j :: 0 <= j < |branches| && k in branches[j] {
        var j :| 0 <= j < |branches| && k in branches[j];
        if j < |prefix| {
          assert k in prefix[j];
        }
      }
    }
  }

  /** On a shared key the last branch holding it wins. */
  lemma {:induction false} MergeAllLastWriterWins<V>(base: map<string, V>, branches: seq<map<string, V>>, k: string, j: nat)
    requires j < |branches| && k in branches[j]
    requires forall i :: j < i < |branches| ==> k !in branches[i]
    ensures k in MergeAll(base, branches) && MergeAll(base, branches)[k] == branches[j][k]
    decreases |branches|
  {
    if j < |branches| - 1 {
      var prefix := branches[..|branches| - 1];
      assert prefix[j] == branches[j];
      MergeAllLastWriterWins(base, prefix, k, j);
    }
  }

  /** Merging one more branch puts its entries over the merge so far. */
  lemma MergeAllStep<V>(base: map<string, V>, branches: seq<map<string, V>>, i: nat)
    requires i < |branches|
    ensures MergeAll(base, branches[..i + 1]) == MergeAll(base, branches[..i]) + branches[i]
  {
    assert branches[..i + 1][..i] == branches[..i];
  }

  /** A key no branch holds keeps the base's value. */
  lemma {:induction false} MergeAllBaseSurvives<V>(base: map<string, V>, branches: seq<map<string, V>>, k: string)
    requires k in base
    requires forall i :: 0 <= i < |branches| ==> k !in branches[i]
    ensures k in MergeAll(base, branches) && MergeAll(base, branches)[k] == base[k]
    decreases |branches|
  {
    if branches != [] {
      var prefix := branches[..|branches| - 1];
      assert forall i :: 0 <= i < |prefix| ==> prefix[i] == branches[i];
      MergeAllBaseSurvives(base, prefix, k);
    }
  }

  /** Merging a map with copies of itself changes nothing. */
  lemma {:induction false} MergeAllSelf<V>(base: map<string, V>, branches: seq<map<string, V>>)
    requires forall i :: 0 <= i < |branches| ==> branches[i] == base
    ensures MergeAll(base, branches) == base
    decreases |branches|
  {
    if branches != [] {
      var prefix := branches[..|branches| - 1];
      assert forall i :: 0 <= i < |prefix| ==> prefix[i] == branches[i];
      MergeAllSelf(base, prefix);
    }
  }

  function VariablesOf(states: seq<WorkflowState>): (r: seq<map<string, Value>>)
    reads set s | s in states
    ensures |r| == |states| && forall i :: 0 <= i < |states| ==> r[i] == states[i].variables
  {
    seq(|states|, i reads set s | s in states requires 0 <= i < |states| => states[i].variables)
  }

  function HistoriesOf(states: seq<WorkflowState>): (r: seq<map<string, HistoryEntry>>)
    reads set s | s in states
    ensures |r| == |states| && forall i :: 0 <= i < |states| ==> r[i] == states[i].executionHistory
  {
    seq(|states|, i reads set s | s in states requires 0 <= i < |states| => states[i].executionHistory)
  }

  /**
   * `mergeStates`: every branch's variables and history are put into the
   * base in list order. A branch that is the base object itself adds
   * nothing, so when every branch is the base the state is unchanged.
   */
  method MergeStates(base: WorkflowState, branches: seq<WorkflowState>)
    modifies base
    ensures (forall i :: 0 <= i < |branches| ==> branches[i] != base) ==>
      && base.variables == MergeAll(old(base.variables), old(VariablesOf(branches)))
      && base.executionHistory == MergeAll(old(base.executionHistory), old(HistoriesOf(branches)))
    ensures (forall i :: 0 <= i < |branches| ==> branches[i] == base) ==>
      base.variables == old(base.variables) && base.executionHistory == old(base.executionHistory)
    ensures base.status == old(base.status) && base.errorMessage == old(base.errorMessage)
  {
    ghost var vars0 := VariablesOf(branches);
    ghost var hist0 := HistoriesOf(branches);
    ghost var apart := forall j :: 0 <= j < |branches| ==> branches[j] != base;
    ghost var same := forall j :: 0 <= j < |branches| ==> branches[j] == base;
    var i := 0;
    while i < |branches|
      invariant 0 <= i <= |branches|
      invariant base.status == old(base.status) && base.errorMessage == old(base.errorMessage)
      invariant apart ==> base.variables == MergeAll(old(base.variables), vars0[..i])
      invariant apart ==> base.executionHistory == MergeAll(old(base.executionHistory), hist0[..i])
      invariant same ==> base.variables == old(base.variables) && base.executionHistory == old(base.executionHistory)
    {
      if apart {
        assert branches[i] != base;
        assert branches[i].variables == vars0[i] && branches[i].executionHistory == hist0[i];
        MergeAllStep(old(base.variables), vars0, i);
        MergeAllStep(old(base.executionHistory), hist0, i);
      }
      base.variables := base.variables + branches[i].variables;
      base.executionHistory := base.executionHistory + branches[i].executionHistory;
      i := i + 1;
    }
    assert vars0[..|branches|] == vars0;
    assert hist0[..|branches|] == hist0;
  }

  /* The walk */

  /**
   * `executeNode`: a node that is not ready completes at once with the state
   * unchanged; a node executor that throws is rethrown as
   * `NodeExecutionException(name, "Node execution failed")`; the following
   * nodes run inside `thenCompose`, so what they throw fails the future.
   */
  method RunNode(workflow: WorkflowDefinition, node: Node, state: WorkflowState, env: Env, fuel: nat)
    returns (outcome: Outcome)
    modifies state
    ensures !old(CanExecuteNode(node, state)) ==>
      outcome == Done && state.variables == old(state.variables) && state.executionHistory == old(state.executionHistory)
    ensures outcome.Threw? ==> outcome.failure == StackOverflow || outcome.failure == NodeExecution(node.name, Some("Node execution failed"))
    ensures old(CanExecuteNode(node, state)) && fuel > 0 ==>
      var executed := ExecutorOutcome(node, old(state.variables), env.invoke, env.chat, env.show);
      && (executed.Threw? ==> outcome == Threw(NodeExecution(node.name, Some("Node execution failed"))))
      && (executed.FailedWith? ==> outcome == FailedWith(Wrapped(executed.failure)))
    ensures outcome.FailedWith? ==> outcome.failure.Completion?
    ensures state.status == old(state.status) && state.errorMessage == old(state.errorMessage)
    decreases fuel, 1
  {
    if !CanExecuteNode(node, state) {
      return Done;
    }
    if fuel == 0 {
      return Threw(StackOverflow);
    }
    var result, _ := CompositeExecute(node, state, env.invoke, env.chat, env.show, env.now, env.now, env.now);
    match result
    case Threw(_) =>
      outcome := Threw(NodeExecution(node.name, Some("Node execution failed")));
    case FailedWith(f) =>
      outcome := FailedWith(Wrapped(f));
    case Done =>
      var after := RunNextNodes(workflow, node, state, env, fuel - 1);
      outcome := if after.Done? then Done else FailedWith(Wrapped(after.failure));
  }

  /** Copies of the one shared state, one per future of a fan-out. */
  function Repeat(state: WorkflowState, n: nat): (r: seq<WorkflowState>)
    ensures |r| == n && forall i :: 0 <= i < n ==> r[i] == state
  {
    seq(n, _ => state)
  }

  /**
   * `executeNextNodes`: the following nodes run in order and a throw
   * propagates; the combined future fails with the first failure in list
   * order, and otherwise every branch, being the same state, is merged into it.
   */
  method RunNextNodes(workflow: WorkflowDefinition, current: Node, state: WorkflowState, env: Env, fuel: nat)
    returns (outcome: Outcome)
    modifies state
    ensures outcome.Threw? ==> outcome.failure == StackOverflow || outcome.failure.NodeExecution?
    ensures outcome.FailedWith? ==> outcome.failure.Completion?
    ensures state.status == old(state.status) && state.errorMessage == old(state.errorMessage)
    decreases fuel, 2
  {
    var next := FindNextNodes(current, workflow.nodes);
    if next == [] {
      return Done;
    }
    var firstFailure: Option<Failure> := None;
    var i := 0;
    while i < |next|
      invariant state.status == old(state.status) && state.errorMessage == old(state.errorMessage)
    {
      var r := RunNode(workflow, next[i], state, env, fuel);
      if r.Threw? {
        return r;
      }
      if r.FailedWith? && firstFailure.None? {
        firstFailure := Some(r.failure);
      }
      i := i + 1;
    }
    if firstFailure.Some? {
      return FailedWith(Wrapped(firstFailure.value));
    }
    MergeStates(state, Repeat(state, |next|));
    outcome := Done;
  }

  /** `new WorkflowExecutionException(prefix + e.getMessage(), e)`, as the walk and the start rethrow. */
  function ExecutionFailure(prefix: string, e: Failure): (r: Failure)
    ensures r.WorkflowExecution? && prefix <= r.detail
  {
    WorkflowExecution(prefix + JavaText(Message(e)))
  }

  const WalkPrefix := "Workflow execution failed: "
  const StartPrefix := "Failed to start workflow: "

  /** The failure `executeWorkflow` throws when the start-node list is null or empty. */
  function NoStartFailure(workflow: WorkflowDefinition): Failure
  {
    if workflow.startNodes.None? then ExecutionFailure(WalkPrefix, NullPointer(Some("startNodes")))
    else ExecutionFailure(WalkPrefix, InvalidWorkflow("No start nodes defined"))
  }

  /**
   * `executeWorkflow`: the start nodes in order, then the merge of their
   * states. A null or empty start list, a start name with no node, and a
   * start node that throws are all rethrown as a WorkflowExecutionException;
   * the StackOverflowError is not an Exception and passes through.
   */
  method RunWorkflow(workflow: WorkflowDefinition, state: WorkflowState, env: Env, fuel: nat)
    returns (outcome: Outcome)
    modifies state
    ensures !HasStartNodes(workflow) ==> outcome == Threw(NoStartFailure(workflow))
    ensures !HasStartNodes(workflow) ==>
      state.variables == old(state.variables) && state.executionHistory == old(state.executionHistory)
    ensures outcome.Threw? ==>
      || outcome.failure == StackOverflow
      || (outcome.failure.WorkflowExecution? && WalkPrefix <= outcome.failure.detail)
    ensures outcome.FailedWith? ==> outcome.failure.Completion?
    ensures state.status == old(state.status) && state.errorMessage == old(state.errorMessage)
  {
    if !HasStartNodes(workflow) {
      return Threw(NoStartFailure(workflow));
    }
    var startNodes := workflow.startNodes.value;
    var firstFailure: Option<Failure> := None;
    var i := 0;
    while i < |startNodes|
      invariant state.status == old(state.status) && state.errorMessage == old(state.errorMessage)
    {
      var name := startNodes[i];
      if name !in workflow.nodes {
        return Threw(ExecutionFailure(WalkPrefix, NullPointer(Some("node"))));
      }
      var r := RunNode(workflow, workflow.nodes[name], state, env, fuel);
      if r.Threw? {
        if r.failure == StackOverflow {
          return r;
        }
        return Threw(ExecutionFailure(WalkPrefix, r.failure));
      }
      if r.FailedWith? && firstFailure.None? {
        firstFailure := Some(r.failure);
      }
      i := i + 1;
    }
    if firstFailure.Some? {
      return FailedWith(Wrapped(firstFailure.value));
    }
    MergeStates(state, Repeat(state, |startNodes|));
    outcome := Done;
  }

  /** An active execution: its definition and its state. Its cancellation future is never set. */
  datatype ExecutionContext = ExecutionContext(workflow: WorkflowDefinition, state: WorkflowState)

  datatype StateLookup = Found(state: WorkflowState) | Missing(failure: Failure)

  class DefaultWorkflowEngine {
    const registry: InMemoryWorkflowRegistry
    var activeExecutions: map<string, ExecutionContext>

    constructor(registry: InMemoryWorkflowRegistry)
      ensures this.registry == registry && activeExecutions == map[]
    {
      this.registry := registry;
      activeExecutions := map[];
    }

    /**
     * `execute(name, inputs)`. The new state, RUNNING with exactly the inputs,
     * is entered under its id before the walk starts. A run that returns a
     * future leaves the table as it was, after marking the state COMPLETED or
     * FAILED; a failed future carries the walk's CompletionException wrapped
     * once more. Anything thrown while starting is rethrown as
     * "Failed to start workflow: ..." and leaves the entry in the table.
     */
    method Execute(workflowName: string, inputs: map<string, Value>, newId: string, env: Env, fuel: nat)
      returns (outcome: Outcome, state: WorkflowState?)
      modifies this
      ensures registry.Get(workflowName).None? ==>
        && outcome == Threw(ExecutionFailure(StartPrefix, WorkflowNotFound(workflowName))) && state == null
        && activeExecutions == old(activeExecutions)
      ensures registry.Get(workflowName).Some? ==> state != null && fresh(state) && state.workflowId == newId
      ensures registry.Get(workflowName).Some? && !HasStartNodes(registry.Get(workflowName).value) ==>
        && outcome == Threw(ExecutionFailure(StartPrefix, NoStartFailure(registry.Get(workflowName).value)))
        && state.variables == inputs && state.executionHistory == map[]
      ensures outcome == Done ==>
        state != null && state.status == Completed && activeExecutions == old(activeExecutions) - {newId}
      ensures outcome.FailedWith? ==>
        && state != null && state.status == Failed
        && outcome.failure.Completion? && outcome.failure.cause.Completion?
        && state.errorMessage == Message(outcome.failure.cause)
        && activeExecutions == old(activeExecutions) - {newId}
      ensures outcome.Threw? && state != null ==>
        && state.status == Running
        && activeExecutions == old(activeExecutions)[newId := ExecutionContext(registry.Get(workflowName).value, state)]
        && (outcome.failure == StackOverflow
            || (outcome.failure.WorkflowExecution? && StartPrefix <= outcome.failure.detail))
    {
      var found := registry.Get(workflowName);
      if found.None? {
        return Threw(ExecutionFailure(StartPrefix, WorkflowNotFound(workflowName))), null;
      }
      state, outcome := Launch(found.value, inputs, newId, env, fuel);
    }

    /** The part of `execute` after the definition is found. */
    method Launch(workflow: WorkflowDefinition, inputs: map<string, Value>, newId: string, env: Env, fuel: nat)
      returns (state: WorkflowState, outcome: Outcome)
      modifies this
      ensures fresh(state) && state.workflowId == newId
      ensures !HasStartNodes(workflow) ==> outcome == Threw(ExecutionFailure(StartPrefix, NoStartFailure(workflow)))
      ensures !HasStartNodes(workflow) ==> state.variables == inputs && state.executionHistory == map[]
      ensures outcome == Done ==>
        state.status == Completed && activeExecutions == old(activeExecutions) - {newId}
      ensures outcome.FailedWith? ==>
        && state.status == Failed
        && outcome.failure.Completion? && outcome.failure.cause.Completion?
        && state.errorMessage == Message(outcome.failure.cause)
        && activeExecutions == old(activeExecutions) - {newId}
      ensures outcome.Threw? ==>
        && state.status == Running
        && activeExecutions == old(activeExecutions)[newId := ExecutionContext(workflow, state)]
        && (outcome.failure == StackOverflow
            || (outcome.failure.WorkflowExecution? && StartPrefix <= outcome.failure.detail))
    {
      state := new WorkflowState(newId);
      state.variables := state.variables + inputs;
      assert state.variables == inputs;
      var context := ExecutionContext(workflow, state);
      activeExecutions := activeExecutions[newId := context];
      var r := RunWorkflow(workflow, state, env, fuel);
      match r
      case Threw(f) =>
        outcome := if f == StackOverflow then r else Threw(ExecutionFailure(StartPrefix, f));
      case Done =>
        state.MarkAsCompleted();
        activeExecutions := activeExecutions - {newId};
        outcome := Done;
      case FailedWith(f) =>
        state.MarkAsFailed(Message(f));
        activeExecutions := activeExecutions - {newId};
        outcome := FailedWith(Completion(f));
    }

    /** `stop`: an unknown id throws; a known one is removed (its cancel does nothing). */
    method Stop(executionId: string) returns (failure: Option<Failure>)
      modifies this
      ensures executionId !in old(activeExecutions) ==>
        failure == Some(ExecutionNotFound(executionId)) && activeExecutions == old(activeExecutions)
      ensures executionId in old(activeExecutions) ==>
        failure == None && activeExecutions == old(activeExecutions) - {executionId}
    {
      if executionId !in activeExecutions {
        return Some(ExecutionNotFound(executionId));
      }
      activeExecutions := activeExecutions - {executionId};
      failure := None;
    }

    /** `getExecutionState`: the registered state, or ExecutionNotFoundException. */
    function GetExecutionState(executionId: string): (r: StateLookup)
      reads this
      ensures r.Found? <==> executionId in activeExecutions
      ensures r.Found? ==> r.state == activeExecutions[executionId].state
      ensures r.Missing? ==> r.failure == ExecutionNotFound(executionId)
    {
      if executionId in activeExecutions then Found(activeExecutions[executionId].state)
      else Missing(ExecutionNotFound(executionId))
    }
  }
}

=== FILE: failures.dfy ===
/**
 * The exceptions the core throws or records, with the text Java's
 * `getMessage()` and `toString()` give for them. Only what the core reads
 * of an exception is kept: its class, its message and, for the exception a
 * future stage wraps failures in, its cause.
 */
module Failures {
  import opened Wrappers

  const ExceptionsPackage := "com.niko.langchain4jworkflow.workflow.exceptions."

  datatype Failure =
    | WorkflowNotFound(workflowName: string)
    | ExecutionNotFound(executionId: string)
    | InvalidWorkflow(detail: string)
    | WorkflowExecution(detail: string)
      /** `new NodeExecutionException(nodeName, message)`; the message may be null. */
    | NodeExecution(nodeName: string, reason: Option<string>)
    | WorkflowAlreadyExists(workflowName: string)
    | WorkflowCreation(detail: string)
    | WorkflowUpdate(detail: string)
    | IllegalArgument(detail: string)
      /**
       * A NullPointerException. `site` is None for one built with
       * `new NullPointerException()` (as ConcurrentHashMap does for a null
       * value); the JDK's computed text for one the JVM raises is
       * represented by a short label of the failing site.
       */
    | NullPointer(site: Option<string>)
      /** What `Method.invoke` throws when the target throws; its message is null. */
    | InvocationTarget
      /** An exception raised by code outside the model (the chat model). */
    | Foreign(className: string, foreignMessage: Option<string>)
      /** `java.util.concurrent.CompletionException` wrapping `cause`. */
    | Completion(cause: Failure)
      /** The StackOverflowError an unbounded dependency walk ends in. */
    | StackOverflow

  /** The fully qualified class name, as `getClass().getName()` gives it. */
  function ClassName(f: Failure): string
  {
    match f
    case WorkflowNotFound(_) => ExceptionsPackage + "WorkflowNotFoundException"
    case ExecutionNotFound(_) => ExceptionsPackage + "ExecutionNotFoundException"
    case InvalidWorkflow(_) => ExceptionsPackage + "InvalidWorkflowException"
    case WorkflowExecution(_) => ExceptionsPackage + "WorkflowExecutionException"
    case NodeExecution(_, _) => ExceptionsPackage + "NodeExecutionException"
    case WorkflowAlreadyExists(_) => ExceptionsPackage + "WorkflowAlreadyExistsException"
    case WorkflowCreation(_) => ExceptionsPackage + "WorkflowCreationException"
    case WorkflowUpdate(_) => ExceptionsPackage + "WorkflowUpdateException"
    case IllegalArgument(_) => "java.lang.IllegalArgumentException"
    case NullPointer(_) => "java.lang.NullPointerException"
    case InvocationTarget => "java.lang.reflect.InvocationTargetException"
    case Foreign(name, _) => name
    case Completion(_) => "java.util.concurrent.CompletionException"
    case StackOverflow => "java.lang.StackOverflowError"
  }

  /** `String.valueOf` of a nullable string, as `+` concatenation uses it. */
  function JavaText(s: Option<string>): string
  {
    match s
    case Some(t) => t
    case None => "null"
  }

  /** `getMessage()`: None stands for null. */
  function Message(f: Failure): Option<string>
    decreases f, 0
  {
    match f
    case WorkflowNotFound(name) => Some("Workflow not found: " + name)
    case ExecutionNotFound(id) => Some("Execution not found: " + id)
    case InvalidWorkflow(m) => Some(m)
    case WorkflowExecution(m) => Some(m)
    case NodeExecution(name, m) => Some("Node '" + name + "' execution failed: " + JavaText(m))
    case WorkflowAlreadyExists(name) => Some(name)
    case WorkflowCreation(m) => Some(m)
    case WorkflowUpdate(m) => Some(m)
    case IllegalArgument(m) => Some(m)
    case NullPointer(site) => site
    case InvocationTarget => None
    case Foreign(_, m) => m
    case Completion(cause) => Some(ToString(cause))
    case StackOverflow => None
  }

  /** `Throwable.toString()`: the class name, then ": " and the message when there is one. */
  function ToString(f: Failure): (r: string)
    ensures ClassName(f) <= r
    ensures Message(f).None? <==> r == ClassName(f)
    decreases f, 1
  {
    match Message(f)
    case Some(m) => ClassName(f) + ": " + m
    case None => ClassName(f)
  }

  /** Whether the exception is a `RuntimeException` (the Error and the checked one are not). */
  predicate IsRuntime(f: Failure)
  {
    !(f.InvocationTarget? || f.StackOverflow?)
  }

  /**
   * The failure a dependent stage (`thenApply`, `thenCompose`, `allOf`) of a
   * future that failed with `f` fails with: `f` itself when it is already a
   * CompletionException, otherwise a CompletionException wrapping it.
   */
  function Wrapped(f: Failure): (r: Failure)
    ensures r.Completion?
    ensures f.Completion? ==> r == f
    ensures !f.Completion? ==> r.cause == f
  {
    if f.Completion? then f else Completion(f)
  }

  /** Wrapping is idempotent, so a failure crosses any number of stages unchanged after the first. */
  lemma WrappedIdempotent(f: Failure)
    ensures Wrapped(Wrapped(f)) == Wrapped(f)
  {
  }

  /** A CompletionException always has a message, and it begins with its cause's class name. */
  lemma CompletionMessageNamesCause(cause: Failure)
    ensures Message(Completion(cause)).Some?
    ensures ClassName(cause) <= Message(Completion(cause)).value
  {
  }
}

=== FILE: graph_builder.dfy ===
/** `GraphBuilder`: accumulates nodes and the start nodes, then copies both into a definition. */
module Builders {
  import opened Wrappers
  import opened Nodes
  import opened Definitions

  /** A node without dependencies (null or empty list) is a start node. */
  predicate HasNoDependencies(node: Node)
  {
    node.dependencies == None || node.dependencies == Some([])
  }

  class GraphBuilder {
    var nodes: map<string, Node>
    var startNodes: seq<string>

    /** Every start node is a key of the node map. */
    ghost predicate Valid()
      reads this
    {
      forall i :: 0 <= i < |startNodes| ==> startNodes[i] in nodes
    }

    constructor()
      ensures nodes == map[] && startNodes == []
      ensures Valid()
    {
      nodes := map[];
      startNodes := [];
    }

    /**
     * Maps the node's name to it, silently replacing an earlier node of that
     * name, and appends the name to the start nodes when it has no
     * dependencies. A name already there stays, even when the new node has
     * dependencies; a name can be listed twice.
     */
    method AddNode(node: Node)
      requires Valid()
      modifies this
      ensures Valid()
      ensures nodes == old(nodes)[node.name := node]
      ensures HasNoDependencies(node) ==> startNodes == old(startNodes) + [node.name]
      ensures !HasNoDependencies(node) ==> startNodes == old(startNodes)
    {
      nodes := nodes[node.name := node];
      if node.dependencies == None || node.dependencies.value == [] {
        startNodes := startNodes + [node.name];
      }
    }

    /**
     * A definition holding copies of the current node map and start list;
     * description, metadata and config are left unset. The result is a
     * value, so later `AddNode` calls cannot reach it.
     */
    method Build(name: string) returns (workflow: WorkflowDefinition)
      requires Valid()
      ensures workflow == WorkflowDefinition(name, None, nodes, Some(startNodes), None, None)
      ensures forall s :: s in workflow.startNodes.value ==> s in workflow.nodes
    {
      workflow := WorkflowDefinition(name, None, nodes, Some(startNodes), None, None);
    }
  }
}

=== FILE: node.dfy ===
/**
 * A workflow node, its configuration, and the readiness check `canExecute`.
 * The reflective `Method` and target object become a `Handler`: the
 * parameters the executor resolves, and the identity of the code it calls.
 */
module Nodes {
  import opened Wrappers
  import opened State

  datatype NodeType = Function | Ai | Conditional | Parallel | Join

  /** How a parameter of the node's method is filled in. */
  datatype ParamKind =
    | StateParam                                  // declared type WorkflowState
    | ContextParam                                // declared type WorkflowContext
    | StateVar(key: string, required: bool)       // @StateVariable(value = key, required = ...)
    | OtherParam                                  // anything else

  datatype Param = Param(name: string, kind: ParamKind)

  /** The node's `Method` (its parameters) and the object it is invoked on. */
  datatype Handler = Handler(methodId: nat, params: seq<Param>, target: nat)

  /** The part of `Node.NodeConfig` the core reads. */
  datatype NodeConfig = NodeConfig(systemPrompt: Option<string>, async: bool)

  /**
   * `Node`. A null reference field is None. `inputs` and `outputs` are the
   * keys of the node's parameter-type maps, in the maps' iteration order.
   */
  datatype Node = Node(
    name: string,
    description: Option<string>,
    nodeType: NodeType,
    handler: Option<Handler>,
    dependencies: Option<seq<string>>,
    config: Option<NodeConfig>,
    inputs: Option<seq<string>>,
    outputs: Option<seq<string>>)

  /** Whether every name in `deps` is a key of `history` (`allMatch(isNodeCompleted)`). */
  function AllCompleted(deps: seq<string>, history: map<string, HistoryEntry>): (r: bool)
    ensures r <==> forall d :: d in deps ==> d in history
  {
    if deps == [] then true
    else
      assert forall d :: d in deps <==> d == deps[0] || d in deps[1..];
      deps[0] in history && AllCompleted(deps[1..], history)
  }

  /** `Node.canExecute`: ready when it has no dependencies or all of them are completed. */
  function CanExecute(node: Node, state: WorkflowState): (r: bool)
    reads state
    ensures (node.dependencies == None || node.dependencies == Some([])) ==> r
    ensures node.dependencies.Some? ==>
      (r <==> forall d :: d in node.dependencies.value ==> state.IsNodeCompleted(d))
  {
    match node.dependencies
    case None => true
    case Some(deps) => deps == [] || AllCompleted(deps, state.executionHistory)
  }

  /** Readiness depends on the set of dependency names only: not on their order or repetition. */
  lemma CanExecuteIgnoresOrder(a: Node, b: Node, state: WorkflowState)
    requires a.dependencies.Some? && b.dependencies.Some?
    requires forall d :: d in a.dependencies.value <==> d in b.dependencies.value
    ensures CanExecute(a, state) == CanExecute(b, state)
  {
  }

  /** Readiness reads only the history: two states with the same history agree, whatever their variables. */
  lemma CanExecuteReadsOnlyHistory(node: Node, s: WorkflowState, t: WorkflowState)
    requires s.executionHistory == t.executionHistory
    ensures CanExecute(node, s) == CanExecute(node, t)
  {
  }

  /** Every history key is one the record methods write. */
  ghost predicate RecordedHistory(history: map<string, HistoryEntry>)
  {
    forall k :: k in history ==> IsSuffixedKey(k)
  }

  /**
   * Since `isNodeCompleted` looks up the bare name, a node that depends on a
   * name that is not itself of the form `n.start`, `n.end` or `n.error` is
   * never ready while the history holds only recorded keys.
   */
  lemma BareDependencyNeverReady(node: Node, state: WorkflowState, d: string)
    requires node.dependencies.Some? && d in node.dependencies.value
    requires IsBareKey(d)
    requires RecordedHistory(state.executionHistory)
    ensures !CanExecute(node, state)
  {
    if d in state.executionHistory {
      assert IsSuffixedKey(d);
      var n :| d == StartKey(n) || d == EndKey(n) || d == ErrorKey(n);
      assert false;
    }
  }

  /** In particular a node depending on a node whose name has no '.' is never ready. */
  lemma DotlessDependencyNeverReady(node: Node, state: WorkflowState, d: string)
    requires node.dependencies.Some? && d in node.dependencies.value
    requires '.' !in d
    requires RecordedHistory(state.executionHistory)
    ensures !CanExecute(node, state)
  {
    DotlessNameIsBare(d);
    BareDependencyNeverReady(node, state, d);
  }
}

=== FILE: node_executors.dfy ===
/**
 * The node executors. A node's future is read as an immediate value: the
 * call either completes with the (updated) state, returns an already failed
 * future, or throws before returning. The reflective call of the node's
 * method is the parameter `invoke`, the chat model the parameter `chat`,
 * `String.valueOf` on a variable the parameter `show`, and the clock
 * readings are passed in.
 */
module Executors {
  import opened Wrappers
  import opened Values
  import opened Failures
  import opened State
  import opened Nodes

  /** What `execute` does with the future it would return. */
  datatype Outcome =
    | Done                        // completes normally with the state
    | FailedWith(failure: Failure) // returns a future that fails with `failure`
    | Threw(failure: Failure)      // throws `failure` synchronously

  /** An argument passed to the node's method. */
  datatype Arg = StateArg | ContextArg | ValueArg(value: Option<Value>)

  datatype Resolution = Resolved(arg: Arg) | MissingVariable(key: string)

  /** What `Method.invoke` does: it returns a possibly null value, or the target throws. */
  datatype InvokeResult = Returned(result: Option<Value>) | TargetThrew

  type Invoker = (Handler, seq<Arg>) -> InvokeResult

  /* DefaultNodeExecutor */

  /** The key a @StateVariable parameter reads: the annotation's value, or the parameter name when that is empty. */
  function StateVarKey(p: Param): string
    requires p.kind.StateVar?
  {
    if p.kind.key == "" then p.name else p.kind.key
  }

  /** `resolveParameter`. The expression hook always yields null, so any other parameter is null. */
  function ResolveParameter(p: Param, variables: map<string, Value>): (r: Resolution)
    ensures p.kind.StateParam? ==> r == Resolved(StateArg)
    ensures p.kind.ContextParam? ==> r == Resolved(ContextArg)
    ensures p.kind.OtherParam? ==> r == Resolved(ValueArg(None))
    ensures p.kind.StateVar? ==>
      (r.MissingVariable? <==> p.kind.required && StateVarKey(p) !in variables)
    ensures p.kind.StateVar? && r.Resolved? ==>
      r.arg == ValueArg(if StateVarKey(p) in variables then Some(variables[StateVarKey(p)]) else None)
    ensures r.MissingVariable? ==> p.kind.StateVar? && r.key == StateVarKey(p)
  {
    match p.kind
    case StateParam => Resolved(StateArg)
    case ContextParam => Resolved(ContextArg)
    case StateVar(_, required) =>
      var key := StateVarKey(p);
      if key in variables then Resolved(ValueArg(Some(variables[key])))
      else if required then MissingVariable(key)
      else Resolved(ValueArg(None))
    case OtherParam => Resolved(ValueArg(None))
  }

  datatype Arguments = Arguments(args: seq<Arg>) | ArgumentMissing(key: string)

  /** The arguments, or the first required variable that is missing. */
  function ResolveAll(params: seq<Param>, variables: map<string, Value>): Arguments
    decreases |params|
  {
    if params == [] then Arguments([])
    else
      match ResolveAll(params[..|params| - 1], variables)
      case ArgumentMissing(key) => ArgumentMissing(key)
      case Arguments(args) =>
        match ResolveParameter(params[|params| - 1], variables)
        case MissingVariable(key) => ArgumentMissing(key)
        case Resolved(arg) => Arguments(args + [arg])
  }

  /**
   * Resolution succeeds exactly when every parameter resolves, and then
   * yields one argument per parameter in order; otherwise it names the
   * missing key of the first parameter that does not resolve.
   */
  lemma ResolveAllMeaning(params: seq<Param>, variables: map<string, Value>)
    ensures ResolveAll(params, variables).Arguments? <==>
      forall i :: 0 <= i < |params| ==> ResolveParameter(params[i], variables).Resolved?
    ensures ResolveAll(params, variables).Arguments? ==>
      var args := ResolveAll(params, variables).args;
      |args| == |params| && forall i :: 0 <= i < |params| ==> args[i] == ResolveParameter(params[i], variables).arg
    ensures ResolveAll(params, variables).ArgumentMissing? ==>
      exists i :: 0 <= i < |params|
        && ResolveParameter(params[i], variables) == MissingVariable(ResolveAll(params, variables).key)
        && forall j :: 0 <= j < i ==> ResolveParameter(params[j], variables).Resolved?
  {
    ResolveAllResolved(params, variables);
    ResolveAllFirstMissing(params, variables);
  }

  /** The success half: every parameter resolves, one argument each. */
  lemma {:induction false} ResolveAllResolved(params: seq<Param>, variables: map<string, Value>)
    ensures ResolveAll(params, variables).Arguments? <==>
      forall i :: 0 <= i < |params| ==> ResolveParameter(params[i], variables).Resolved?
    ensures ResolveAll(params, variables).Arguments? ==>
      var args := ResolveAll(params, variables).args;
      |args| == |params| && forall i :: 0 <= i < |params| ==> args[i] == ResolveParameter(params[i], variables).arg
    decreases |params|
  {
    if params != [] {
      var prefix := params[..|params| - 1];
      ResolveAllResolved(prefix, variables);
      assert forall i :: 0 <= i < |prefix| ==> prefix[i] == params[i];
    }
  }

  /** The failure half: the reported key is that of the first parameter that does not resolve. */
  lemma {:induction false} ResolveAllFirstMissing(params: seq<Param>, variables: map<string, Value>)
    ensures ResolveAll(params, variables).ArgumentMissing? ==>
      exists i :: 0 <= i < |params|
        && ResolveParameter(params[i], variables) == MissingVariable(ResolveAll(params, variables).key)
        && forall j :: 0 <= j < i ==> ResolveParameter(params[j], variables).Resolved?
    decreases |params|
  {
    if params != [] {
      var prefix := params[..|params| - 1];
      var last := |params| - 1;
      assert forall i :: 0 <= i < |prefix| ==> prefix[i] == params[i];
      match ResolveAll(prefix, variables)
      case ArgumentMissing(key) =>
        ResolveAllFirstMissing(prefix, variables);
        var i :| 0 <= i < |prefix|
          && ResolveParameter(prefix[i], variables) == MissingVariable(key)
          && forall j :: 0 <= j < i ==> ResolveParameter(prefix[j], variables).Resolved?;
        assert ResolveParameter(params[i], variables) == MissingVariable(key);
      case Arguments(args) =>
        ResolveAllResolved(prefix, variables);
        match ResolveParameter(params[last], variables)
        case MissingVariable(key) =>
          assert forall j :: 0 <= j < last ==> ResolveParameter(params[j], variables).Resolved?;
        case Resolved(arg) =>
    }
  }

  /** `resolveArguments`: the parameters in order; the first missing required variable throws. */
  method ResolveArguments(params: seq<Param>, state: WorkflowState) returns (r: Arguments)
    ensures r == ResolveAll(params, state.variables)
  {
    var args: seq<Arg> := [];
    var i := 0;
    while i < |params|
      invariant 0 <= i <= |params|
      invariant ResolveAll(params[..i], state.variables) == Arguments(args)
    {
      assert params[..i + 1][..i] == params[..i];
      match ResolveParameter(params[i], state.variables)
      case MissingVariable(key) =>
        ResolveAllStopsAtMissing(params, i + 1, state.variables);
        return ArgumentMissing(key);
      case Resolved(arg) =>
        args := args + [arg];
      i := i + 1;
    }
    assert params[..|params|] == params;
    r := Arguments(args);
  }

  /** Once some prefix fails to resolve, every longer prefix fails with the same key. */
  lemma {:induction false} ResolveAllStopsAtMissing(params: seq<Param>, n: nat, variables: map<string, Value>)
    requires n <= |params|
    requires ResolveAll(params[..n], variables).ArgumentMissing?
    ensures ResolveAll(params, variables) == ResolveAll(params[..n], variables)
    decreases |params| - n
  {
    if n < |params| {
      assert params[..n + 1][..n] == params[..n];
      ResolveAllStopsAtMissing(params, n + 1, variables);
    } else {
      assert params[..n] == params;
    }
  }

  /** How far the synchronous part of `DefaultNodeExecutor.execute` gets. */
  datatype Step =
    | Finished(result: Option<Value>)  // the method returned
    | Raised(failure: Failure)         // an exception reached the catch block
    | AsyncThrew                       // the target threw inside `supplyAsync`

  /**
   * The node's method must be present (else a NullPointerException in
   * `resolveArguments`), every argument must resolve, and the config must be
   * present (else a NullPointerException at `isAsync`). A synchronous call
   * whose target throws raises InvocationTargetException.
   */
  function DefaultStep(node: Node, variables: map<string, Value>, invoke: Invoker): Step
  {
    match node.handler
    case None => Raised(NullPointer(Some("method")))
    case Some(h) =>
      match ResolveAll(h.params, variables)
      case ArgumentMissing(key) => Raised(IllegalArgument("Required state variable not found: " + key))
      case Arguments(args) =>
        match node.config
        case None => Raised(NullPointer(Some("config")))
        case Some(c) =>
          match invoke(h, args)
          case Returned(v) => Finished(v)
          case TargetThrew => if c.async then AsyncThrew else Raised(InvocationTarget)
  }

  /** The exception the async path fails with: `NodeExecutionException("Async execution failed", null)` in a CompletionException. */
  const AsyncFailure := Completion(NodeExecution("Async execution failed", None))

  /**
   * `handleError` records `error.getMessage()`, which throws a
   * NullPointerException in the history map when the message is null;
   * otherwise it rethrows a RuntimeException and wraps anything else.
   */
  function HandledError(nodeName: string, error: Failure): (r: Failure)
    ensures Message(error).None? ==> r == NullPointer(None)
    ensures Message(error).Some? && IsRuntime(error) ==> r == error
    ensures Message(error).Some? && !IsRuntime(error) ==> r == NodeExecution(nodeName, Some("Execution failed"))
  {
    if Message(error).None? then NullPointer(None)
    else if IsRuntime(error) then error
    else NodeExecution(nodeName, Some("Execution failed"))
  }

  function DefaultOutcome(nodeName: string, step: Step): Outcome
  {
    match step
    case Finished(_) => Done
    case Raised(f) => Threw(HandledError(nodeName, f))
    case AsyncThrew => FailedWith(AsyncFailure)
  }

  /** What the run leaves in the history after `n.start`. */
  function DefaultHistory(history: map<string, HistoryEntry>, nodeName: string, step: Step, endedAt: int): map<string, HistoryEntry>
  {
    match step
    case Finished(_) => history[EndKey(nodeName) := Timestamp(endedAt)]
    case Raised(f) =>
      if Message(f).Some? then history[ErrorKey(nodeName) := ErrorText(Message(f).value)] else history
    case AsyncThrew => history[ErrorKey(nodeName) := ErrorText(ToString(AsyncFailure.cause))]
  }

  /** What the run leaves in the variables: a returned non-null value is stored under `<name>_result`. */
  function DefaultVariables(variables: map<string, Value>, nodeName: string, step: Step): map<string, Value>
  {
    if step.Finished? && step.result.Some? then variables[nodeName + "_result" := step.result.value] else variables
  }

  /** `processResult`: a non-null result is stored under `<name>_result`, then the completion is recorded. */
  method ProcessResult(node: Node, state: WorkflowState, result: Option<Value>, endedAt: int)
    modifies state
    ensures state.variables == if result.Some? then old(state.variables)[node.name + "_result" := result.value] else old(state.variables)
    ensures state.executionHistory == old(state.executionHistory)[EndKey(node.name) := Timestamp(endedAt)]
    ensures state.status == old(state.status) && state.errorMessage == old(state.errorMessage)
  {
    if result.Some? {
      state.SetVariable(node.name + "_result", result.value);
    }
    state.RecordNodeCompletion(node.name, endedAt);
  }

  /**
   * `DefaultNodeExecutor.execute`. The start is recorded before anything is
   * resolved; a failure before the call returns is recorded and rethrown,
   * so the failed-future branch of the source is never reached.
   */
  method DefaultExecute(node: Node, state: WorkflowState, invoke: Invoker, startedAt: int, endedAt: int)
    returns (outcome: Outcome)
    modifies state
    ensures var step := DefaultStep(node, old(state.variables), invoke);
      && outcome == DefaultOutcome(node.name, step)
      && state.variables == DefaultVariables(old(state.variables), node.name, step)
      && state.executionHistory == DefaultHistory(old(state.executionHistory)[StartKey(node.name) := Timestamp(startedAt)], node.name, step, endedAt)
    ensures state.status == old(state.status) && state.errorMessage == old(state.errorMessage)
  {
    ghost var step := DefaultStep(node, state.variables, invoke);
    state.RecordNodeStart(node.name, startedAt);
    var failure: Failure;
    if node.handler.None? {
      failure := NullPointer(Some("method"));
    } else {
      var h := node.handler.value;
      var resolved := ResolveArguments(h.params, state);
      if resolved.ArgumentMissing? {
        failure := IllegalArgument("Required state variable not found: " + resolved.key);
      } else if node.config.None? {
        failure := NullPointer(Some("config"));
      } else {
        var result := invoke(h, resolved.args);
        if result.Returned? {
          ProcessResult(node, state, result.result, endedAt);
          return Done;
        }
        if node.config.value.async {
          var _ := state.RecordNodeError(node.name, Message(AsyncFailure));
          return FailedWith(AsyncFailure);
        }
        failure := InvocationTarget;
      }
    }
    assert step == Raised(failure);
    var recorded := state.RecordNodeError(node.name, Message(failure));
    if !recorded {
      return Threw(NullPointer(None));
    }
    if IsRuntime(failure) {
      return Threw(failure);
    }
    return Threw(NodeExecution(node.name, Some("Execution failed")));
  }

  /** A future fails only on the asynchronous path; every other failure is thrown synchronously. */
  lemma DefaultFailsLateOnlyWhenAsync(node: Node, variables: map<string, Value>, invoke: Invoker)
    ensures DefaultOutcome(node.name, DefaultStep(node, variables, invoke)).FailedWith? <==>
      DefaultStep(node, variables, invoke).AsyncThrew?
    ensures DefaultStep(node, variables, invoke).AsyncThrew? ==>
      node.config.Some? && node.config.value.async
  {
  }

  /**
   * A required @StateVariable that is missing, with every parameter before it
   * resolved, makes `execute` throw IllegalArgumentException naming the key,
   * before the method is called.
   */
  lemma MissingRequiredVariableThrows(node: Node, variables: map<string, Value>, invoke: Invoker, i: nat)
    requires node.handler.Some? && i < |node.handler.value.params|
    requires var p := node.handler.value.params[i];
      p.kind.StateVar? && p.kind.required && StateVarKey(p) !in variables
    requires forall j :: 0 <= j < i ==> ResolveParameter(node.handler.value.params[j], variables).Resolved?
    ensures var key := StateVarKey(node.handler.value.params[i]);
      DefaultOutcome(node.name, DefaultStep(node, variables, invoke)) ==
        Threw(IllegalArgument("Required state variable not found: " + key))
  {
    var params := node.handler.value.params;
    var prefix := params[..i];
    assert forall j :: 0 <= j < |prefix| ==> prefix[j] == params[j];
    ResolveAllResolved(prefix, variables);
    assert params[..i + 1][..i] == prefix;
    ResolveAllStopsAtMissing(params, i + 1, variables);
    var key := StateVarKey(params[i]);
    assert ResolveAll(params, variables) == ArgumentMissing(key);
    assert DefaultStep(node, variables, invoke) == Raised(IllegalArgument("Required state variable not found: " + key));
  }

  /**
   * When a synchronous node's method throws, Method.invoke raises an
   * InvocationTargetException, whose message is null: recording it makes
   * the history map throw a NullPointerException, so nothing is recorded
   * and `execute` throws that instead.
   */
  lemma SyncTargetFailureBecomesNullPointer(node: Node, variables: map<string, Value>, invoke: Invoker)
    requires node.handler.Some? && node.config.Some? && !node.config.value.async
    requires ResolveAll(node.handler.value.params, variables).Arguments?
    requires invoke(node.handler.value, ResolveAll(node.handler.value.params, variables).args) == TargetThrew
    ensures DefaultOutcome(node.name, DefaultStep(node, variables, invoke)) == Threw(NullPointer(None))
    ensures forall h :: DefaultHistory(h, node.name, DefaultStep(node, variables, invoke), 0) == h
  {
  }

  /* AINodeExecutor */

  function PromptHeader(systemPrompt: Option<string>): string
  {
    match systemPrompt
    case Some(s) => s + "\n\n"
    case None => ""
  }

  /** One `key: value` line per input key whose variable is present, in the inputs' order. */
  function PromptLines(inputs: seq<string>, variables: map<string, Value>, show: Value -> string): string
    decreases |inputs|
  {
    if inputs == [] then ""
    else
      var key := inputs[|inputs| - 1];
      PromptLines(inputs[..|inputs| - 1], variables, show)
      + (if key in variables then key + ": " + show(variables[key]) + "\n" else "")
  }

  function PromptOf(systemPrompt: Option<string>, inputs: seq<string>, variables: map<string, Value>, show: Value -> string): string
  {
    PromptHeader(systemPrompt) + PromptLines(inputs, variables, show)
  }

  lemma {:induction false} PromptLinesAppend(a: seq<string>, b: seq<string>, variables: map<string, Value>, show: Value -> string)
    ensures PromptLines(a + b, variables, show) == PromptLines(a, variables, show) + PromptLines(b, variables, show)
    decreases |b|
  {
    if b == [] {
      assert a + b == a;
    } else {
      var front := b[..|b| - 1];
      var key := b[|b| - 1];
      var line := if key in variables then key + ": " + show(variables[key]) + "\n" else "";
      PromptLinesAppend(a, front, variables, show);
      assert (a + b)[..|a + b| - 1] == a + front;
      assert PromptLines(a + b, variables, show) == PromptLines(a + front, variables, show) + line;
      ConcatAssociative(PromptLines(a, variables, show), PromptLines(front, variables, show), line);
    }
  }

  lemma ConcatAssociative(x: string, y: string, z: string)
    ensures (x + y) + z == x + (y + z)
  {
  }

  /** An input key with no variable adds nothing to the prompt. */
  lemma PromptSkipsMissing(a: seq<string>, key: string, b: seq<string>, variables: map<string, Value>, show: Value -> string)
    requires key !in variables
    ensures PromptLines(a + [key] + b, variables, show) == PromptLines(a + b, variables, show)
  {
    PromptLinesAppend(a + [key], b, variables, show);
    PromptLinesAppend(a, [key], variables, show);
    PromptLinesAppend(a, b, variables, show);
    assert ([key])[..0] == [];
  }

  /** The prompt opens with the system prompt and a blank line, when there is one, and is otherwise only the lines. */
  lemma PromptStartsWithSystemPrompt(systemPrompt: Option<string>, inputs: seq<string>, variables: map<string, Value>, show: Value -> string)
    ensures systemPrompt.Some? ==> systemPrompt.value + "\n\n" <= PromptOf(systemPrompt, inputs, variables, show)
    ensures systemPrompt.None? ==> PromptOf(systemPrompt, inputs, variables, show) == PromptLines(inputs, variables, show)
  {
  }

  /** With no input variable present, the prompt is the header alone. */
  lemma {:induction false} PromptWithoutVariables(systemPrompt: Option<string>, inputs: seq<string>, variables: map<string, Value>, show: Value -> string)
    requires forall k :: k in inputs ==> k !in variables
    ensures PromptOf(systemPrompt, inputs, variables, show) == PromptHeader(systemPrompt)
    decreases |inputs|
  {
    if inputs != [] {
      var prefix := inputs[..|inputs| - 1];
      assert forall k :: k in prefix ==> k in inputs;
      PromptWithoutVariables(systemPrompt, prefix, variables, show);
      assert inputs[|inputs| - 1] in inputs;
    }
  }

  datatype Prompt = Built(text: string) | BuildFailed(failure: Failure)

  /** `buildPrompt`: the header, then a line per present input; a null config or input map throws. */
  method BuildPrompt(node: Node, state: WorkflowState, show: Value -> string) returns (r: Prompt)
    ensures node.config.None? ==> r == BuildFailed(NullPointer(Some("config")))
    ensures node.config.Some? && node.inputs.None? ==> r == BuildFailed(NullPointer(Some("inputs")))
    ensures node.config.Some? && node.inputs.Some? ==>
      r == Built(PromptOf(node.config.value.systemPrompt, node.inputs.value, state.variables, show))
  {
    if node.config.None? {
      return BuildFailed(NullPointer(Some("config")));
    }
    var prompt := "";
    if node.config.value.systemPrompt.Some? {
      prompt := prompt + node.config.value.systemPrompt.value + "\n\n";
    }
    if node.inputs.None? {
      return BuildFailed(NullPointer(Some("inputs")));
    }
    var inputs := node.inputs.value;
    var i := 0;
    while i < |inputs|
      invariant 0 <= i <= |inputs|
      invariant prompt == PromptOf(node.config.value.systemPrompt, inputs[..i], state.variables, show)
    {
      assert inputs[..i + 1][..i] == inputs[..i];
      var key := inputs[i];
      var value := state.GetVariable(key);
      if value.Some? {
        prompt := prompt + key + ": " + show(value.value) + "\n";
      }
      i := i + 1;
    }
    assert inputs[..|inputs|] == inputs;
    r := Built(prompt);
  }

  /** What `chatModel.generate` does: it answers (possibly null) or throws. */
  datatype ChatResult = Replied(text: Option<string>) | ChatThrew(className: string, message: Option<string>)

  /**
   * What `AINodeExecutor.execute` makes of an AI node. A missing config or
   * input map makes building the prompt throw a NullPointerException, which
   * the catch block returns as a failed future. Otherwise the chat call runs
   * inside `supplyAsync`: a reply completes the future, and an exception
   * fails it wrapped in a CompletionException.
   */
  function AiOutcome(node: Node, variables: map<string, Value>, chat: string -> ChatResult, show: Value -> string): Outcome
  {
    if node.config.None? then FailedWith(NullPointer(Some("config")))
    else if node.inputs.None? then FailedWith(NullPointer(Some("inputs")))
    else
      match chat(PromptOf(node.config.value.systemPrompt, node.inputs.value, variables, show))
      case Replied(_) => Done
      case ChatThrew(className, message) => FailedWith(Completion(Foreign(className, message)))
  }

  /** The outputs map an AI node's reply is put in under "response". */
  function AiOutputs(node: Node, variables: map<string, Value>, chat: string -> ChatResult, show: Value -> string): map<string, Option<Value>>
  {
    if node.config.None? || node.inputs.None? then map[]
    else
      match chat(PromptOf(node.config.value.systemPrompt, node.inputs.value, variables, show))
      case Replied(text) => map["response" := if text.Some? then Some(Text(text.value)) else None]
      case ChatThrew(_, _) => map[]
  }

  /**
   * The history an AI node leaves: its start, then the error of a prompt
   * that cannot be built or the completion of a reply. An exception of the
   * chat model is raised inside `supplyAsync`, outside the catch block, so
   * it is not recorded.
   */
  function AiHistory(history: map<string, HistoryEntry>, node: Node, variables: map<string, Value>,
                     chat: string -> ChatResult, show: Value -> string, startedAt: int, endedAt: int): map<string, HistoryEntry>
  {
    var started := history[StartKey(node.name) := Timestamp(startedAt)];
    if node.config.None? then started[ErrorKey(node.name) := ErrorText("config")]
    else if node.inputs.None? then started[ErrorKey(node.name) := ErrorText("inputs")]
    else
      match chat(PromptOf(node.config.value.systemPrompt, node.inputs.value, variables, show))
      case Replied(_) => started[EndKey(node.name) := Timestamp(endedAt)]
      case ChatThrew(_, _) => started
  }

  /**
   * The AI executor never throws: every failure reaches the caller as a
   * failed future. A "response" output exists exactly when it succeeds, and
   * a failure of the chat model leaves only the start in the history.
   */
  lemma AiFailsOnlyLate(node: Node, variables: map<string, Value>, chat: string -> ChatResult, show: Value -> string,
                        history: map<string, HistoryEntry>, startedAt: int, endedAt: int)
    ensures !AiOutcome(node, variables, chat, show).Threw?
    ensures AiOutcome(node, variables, chat, show).Done? <==> "response" in AiOutputs(node, variables, chat, show)
    ensures AiOutcome(node, variables, chat, show).FailedWith? && node.config.Some? && node.inputs.Some? ==>
      AiHistory(history, node, variables, chat, show, startedAt, endedAt) == history[StartKey(node.name) := Timestamp(startedAt)]
  {
  }

  /**
   * `AINodeExecutor.execute`. A non-AI node goes to the default executor
   * unchanged. For an AI node the start is recorded before the prompt is
   * built; a failure to build it is recorded and returned as a failed future.
   * The reply is put under "response" in the outputs map; the source hands
   * that map to a two-argument `recordNodeCompletion` WorkflowState does not
   * define, so here the map is returned and the one-argument form records
   * the completion.
   */
  method AiExecute(node: Node, state: WorkflowState, invoke: Invoker, chat: string -> ChatResult,
                   show: Value -> string, startedAt: int, endedAt: int)
    returns (outcome: Outcome, outputs: map<string, Option<Value>>)
    modifies state
    ensures node.nodeType != Ai ==>
      var step := DefaultStep(node, old(state.variables), invoke);
      && outcome == DefaultOutcome(node.name, step) && outputs == map[]
      && state.variables == DefaultVariables(old(state.variables), node.name, step)
      && state.executionHistory == DefaultHistory(old(state.executionHistory)[StartKey(node.name) := Timestamp(startedAt)], node.name, step, endedAt)
    ensures node.nodeType == Ai ==>
      && outcome == AiOutcome(node, old(state.variables), chat, show)
      && outputs == AiOutputs(node, old(state.variables), chat, show)
      && state.variables == old(state.variables)
      && state.executionHistory == AiHistory(old(state.executionHistory), node, old(state.variables), chat, show, startedAt, endedAt)
    ensures state.status == old(state.status) && state.errorMessage == old(state.errorMessage)
  {
    outputs := map[];
    if node.nodeType != Ai {
      outcome := DefaultExecute(node, state, invoke, startedAt, endedAt);
      return;
    }
    state.RecordNodeStart(node.name, startedAt);
    var prompt := BuildPrompt(node, state, show);
    match prompt
    case BuildFailed(f) =>
      var _ := state.RecordNodeError(node.name, Message(f));
      outcome := FailedWith(f);
    case Built(text) =>
      match chat(text)
      case Replied(reply) =>
        outputs := map["response" := if reply.Some? then Some(Text(reply.value)) else None];
        state.RecordNodeCompletion(node.name, endedAt);
        outcome := Done;
      case ChatThrew(className, message) =>
        outcome := FailedWith(Completion(Foreign(className, message)));
  }

  /* ConditionalNodeExecutor and ParallelNodeExecutor */

  /**
   * What `ConditionalNodeExecutor.execute` returns. A node of another type
   * goes to the default executor unguarded. A conditional node runs on the
   * default executor inside a catch block: whatever that throws is recorded
   * under `<name>.error` and returned as a failed future, unless its message
   * is null, in which case recording it throws a NullPointerException that
   * escapes the block.
   */
  function ConditionalOutcome(node: Node, variables: map<string, Value>, invoke: Invoker): Outcome
  {
    var inner := DefaultOutcome(node.name, DefaultStep(node, variables, invoke));
    if node.nodeType == Conditional && inner.Threw? then
      if Message(inner.failure).Some? then FailedWith(inner.failure) else Threw(NullPointer(None))
    else inner
  }

  /** The history: the default executor's, then the catch block's record of what it threw. */
  function ConditionalHistory(history: map<string, HistoryEntry>, node: Node, variables: map<string, Value>,
                              invoke: Invoker, startedAt: int, endedAt: int): map<string, HistoryEntry>
  {
    var step := DefaultStep(node, variables, invoke);
    var inner := DefaultOutcome(node.name, step);
    var ran := DefaultHistory(history[StartKey(node.name) := Timestamp(startedAt)], node.name, step, endedAt);
    if node.nodeType == Conditional && inner.Threw? && Message(inner.failure).Some? then
      ran[ErrorKey(node.name) := ErrorText(Message(inner.failure).value)]
    else ran
  }

  /**
   * On a conditional node the one exception that escapes is the
   * NullPointerException a null message raises; every failure of the
   * default executor with a message becomes a failed future instead.
   */
  lemma ConditionalThrowsOnlyNullPointer(node: Node, variables: map<string, Value>, invoke: Invoker)
    requires node.nodeType == Conditional
    ensures var step := DefaultStep(node, variables, invoke);
      ConditionalOutcome(node, variables, invoke).Threw? <==> step.Raised? && Message(step.failure).None?
    ensures ConditionalOutcome(node, variables, invoke).Threw? ==>
      ConditionalOutcome(node, variables, invoke) == Threw(NullPointer(None))
    ensures var step := DefaultStep(node, variables, invoke);
      step.Raised? && Message(step.failure).Some? ==>
        ConditionalOutcome(node, variables, invoke) == FailedWith(HandledError(node.name, step.failure))
  {
  }

  /** A conditional node without a method fails its future with the NullPointerException and records it. */
  lemma ConditionalMissingMethodFails(node: Node, history: map<string, HistoryEntry>, variables: map<string, Value>,
                                      invoke: Invoker, startedAt: int, endedAt: int)
    requires node.nodeType == Conditional && node.handler.None?
    ensures ConditionalOutcome(node, variables, invoke) == FailedWith(NullPointer(Some("method")))
    ensures ConditionalHistory(history, node, variables, invoke, startedAt, endedAt) ==
      history[StartKey(node.name) := Timestamp(startedAt)][ErrorKey(node.name) := ErrorText("method")]
  {
    Overwrite(history[StartKey(node.name) := Timestamp(startedAt)], ErrorKey(node.name), ErrorText("method"), ErrorText("method"));
  }

  /** A conditional node whose required variable is missing fails its future with the IllegalArgumentException. */
  lemma ConditionalMissingVariableFails(node: Node, variables: map<string, Value>, invoke: Invoker, i: nat)
    requires node.nodeType == Conditional
    requires node.handler.Some? && i < |node.handler.value.params|
    requires var p := node.handler.value.params[i];
      p.kind.StateVar? && p.kind.required && StateVarKey(p) !in variables
    requires forall j :: 0 <= j < i ==> ResolveParameter(node.handler.value.params[j], variables).Resolved?
    ensures var key := StateVarKey(node.handler.value.params[i]);
      ConditionalOutcome(node, variables, invoke) == FailedWith(IllegalArgument("Required state variable not found: " + key))
  {
    MissingRequiredVariableThrows(node, variables, invoke, i);
  }

  /**
   * `ConditionalNodeExecutor.execute`. The condition hook always holds, so a
   * conditional node records its start and then runs on the default
   * executor, which records a start of its own; what that throws is caught,
   * recorded and returned as a failed future.
   */
  method ConditionalExecute(node: Node, state: WorkflowState, invoke: Invoker, checkedAt: int, startedAt: int, endedAt: int)
    returns (outcome: Outcome)
    modifies state
    ensures outcome == ConditionalOutcome(node, old(state.variables), invoke)
    ensures state.variables == DefaultVariables(old(state.variables), node.name, DefaultStep(node, old(state.variables), invoke))
    ensures state.executionHistory == ConditionalHistory(old(state.executionHistory), node, old(state.variables), invoke, startedAt, endedAt)
    ensures state.status == old(state.status) && state.errorMessage == old(state.errorMessage)
  {
    if node.nodeType != Conditional {
      outcome := DefaultExecute(node, state, invoke, startedAt, endedAt);
      return;
    }
    ghost var before := state.executionHistory;
    state.RecordNodeStart(node.name, checkedAt);
    Overwrite(before, StartKey(node.name), Timestamp(checkedAt), Timestamp(startedAt));
    outcome := DefaultExecute(node, state, invoke, startedAt, endedAt);
    if outcome.Threw? {
      var recorded := state.RecordNodeError(node.name, Message(outcome.failure));
      outcome := if recorded then FailedWith(outcome.failure) else Threw(NullPointer(None));
    }
  }

  /** A second write under the same key hides the first. */
  lemma Overwrite(h: map<string, HistoryEntry>, key: string, first: HistoryEntry, second: HistoryEntry)
    ensures h[key := first][key := second] == h[key := second]
  {
  }

  /**
   * `ParallelNodeExecutor.execute`. The list of parallel branches is always
   * empty, so a parallel node records its start, merges nothing, and records
   * a completion under the workflow id rather than the node's name.
   */
  method ParallelExecute(node: Node, state: WorkflowState, invoke: Invoker, startedAt: int, endedAt: int)
    returns (outcome: Outcome)
    modifies state
    ensures node.nodeType != Parallel ==>
      var step := DefaultStep(node, old(state.variables), invoke);
      && outcome == DefaultOutcome(node.name, step)
      && state.variables == DefaultVariables(old(state.variables), node.name, step)
      && state.executionHistory == DefaultHistory(old(state.executionHistory)[StartKey(node.name) := Timestamp(startedAt)], node.name, step, endedAt)
    ensures node.nodeType == Parallel ==>
      && outcome == Done
      && state.variables == old(state.variables)
      && state.executionHistory == old(state.executionHistory)[StartKey(node.name) := Timestamp(startedAt)][EndKey(state.workflowId) := Timestamp(endedAt)]
    ensures state.status == old(state.status) && state.errorMessage == old(state.errorMessage)
  {
    if node.nodeType != Parallel {
      outcome := DefaultExecute(node, state, invoke, startedAt, endedAt);
      return;
    }
    state.RecordNodeStart(node.name, startedAt);
    state.RecordNodeCompletion(state.workflowId, endedAt);
    outcome := Done;
  }

  /* CompositeNodeExecutor */

  datatype ExecutorKind = AiExecutor | ConditionalExecutor | ParallelExecutor | DefaultExecutor

  /** The table the constructor fills once. */
  const ExecutorTable: map<NodeType, ExecutorKind> :=
    map[Ai := AiExecutor, Conditional := ConditionalExecutor, Parallel := ParallelExecutor]

  /** `executors.getOrDefault(node.getType(), defaultExecutor)`. */
  function Route(t: NodeType): (r: ExecutorKind)
    ensures r == AiExecutor <==> t == Ai
    ensures r == ConditionalExecutor <==> t == Conditional
    ensures r == ParallelExecutor <==> t == Parallel
    ensures r == DefaultExecutor <==> t.Function? || t.Join?
  {
    assert ExecutorTable.Keys == {Ai, Conditional, Parallel};
    assert ExecutorTable.Values == {AiExecutor, ConditionalExecutor, ParallelExecutor};
    if t in ExecutorTable then ExecutorTable[t] else DefaultExecutor
  }

  /** The executor each node type reaches, and the node type it then acts on, agree: a routed node is never sent back to the default executor by its type check. */
  lemma RoutedExecutorHandlesItsType(node: Node)
    ensures Route(node.nodeType) == AiExecutor ==> node.nodeType == Ai
    ensures Route(node.nodeType) == ConditionalExecutor ==> node.nodeType == Conditional
    ensures Route(node.nodeType) == ParallelExecutor ==> node.nodeType == Parallel
  {
  }

  /** The outcome of the executor a node's type routes it to. */
  function ExecutorOutcome(node: Node, variables: map<string, Value>, invoke: Invoker,
                           chat: string -> ChatResult, show: Value -> string): Outcome
  {
    match Route(node.nodeType)
    case AiExecutor => AiOutcome(node, variables, chat, show)
    case ConditionalExecutor => ConditionalOutcome(node, variables, invoke)
    case ParallelExecutor => Done
    case DefaultExecutor => DefaultOutcome(node.name, DefaultStep(node, variables, invoke))
  }

  /**
   * Only a node routed to the default executor can make `execute` throw
   * anything but a NullPointerException: the AI and parallel executors
   * never throw, and the conditional one throws only the
   * NullPointerException that recording a null message raises.
   */
  lemma OnlyDefaultRouteThrows(node: Node, variables: map<string, Value>, invoke: Invoker,
                               chat: string -> ChatResult, show: Value -> string)
    ensures var o := ExecutorOutcome(node, variables, invoke, chat, show);
      o.Threw? ==> Route(node.nodeType) == DefaultExecutor || o.failure == NullPointer(None)
    ensures Route(node.nodeType) == AiExecutor || Route(node.nodeType) == ParallelExecutor ==>
      !ExecutorOutcome(node, variables, invoke, chat, show).Threw?
  {
    if Route(node.nodeType) == AiExecutor {
      AiFailsOnlyLate(node, variables, chat, show, map[], 0, 0);
    } else if Route(node.nodeType) == ConditionalExecutor {
      ConditionalThrowsOnlyNullPointer(node, variables, invoke);
    }
  }

  /**
   * `CompositeNodeExecutor.execute`: dispatch on the node type alone; the
   * outcome, the variables and the history are those of the chosen executor.
   */
  method CompositeExecute(node: Node, state: WorkflowState, invoke: Invoker, chat: string -> ChatResult,
                          show: Value -> string, checkedAt: int, startedAt: int, endedAt: int)
    returns (outcome: Outcome, outputs: map<string, Option<Value>>)
    modifies state
    ensures outcome == ExecutorOutcome(node, old(state.variables), invoke, chat, show)
    ensures outputs == if Route(node.nodeType) == AiExecutor then AiOutputs(node, old(state.variables), chat, show) else map[]
    ensures match Route(node.nodeType)
      case AiExecutor =>
        && state.variables == old(state.variables)
        && state.executionHistory == AiHistory(old(state.executionHistory), node, old(state.variables), chat, show, startedAt, endedAt)
      case ConditionalExecutor =>
        && state.variables == DefaultVariables(old(state.variables), node.name, DefaultStep(node, old(state.variables), invoke))
        && state.executionHistory == ConditionalHistory(old(state.executionHistory), node, old(state.variables), invoke, startedAt, endedAt)
      case ParallelExecutor =>
        && state.variables == old(state.variables)
        && state.executionHistory == old(state.executionHistory)[StartKey(node.name) := Timestamp(startedAt)][EndKey(state.workflowId) := Timestamp(endedAt)]
      case DefaultExecutor =>
        var step := DefaultStep(node, old(state.variables), invoke);
        && state.variables == DefaultVariables(old(state.variables), node.name, step)
        && state.executionHistory == DefaultHistory(old(state.executionHistory)[StartKey(node.name) := Timestamp(startedAt)], node.name, step, endedAt)
    ensures state.status == old(state.status) && state.errorMessage == old(state.errorMessage)
  {
    outputs := map[];
    match Route(node.nodeType)
    case AiExecutor =>
      outcome, outputs := AiExecute(node, state, invoke, chat, show, startedAt, endedAt);
    case ConditionalExecutor =>
      outcome := ConditionalExecute(node, state, invoke, checkedAt, startedAt, endedAt);
    case ParallelExecutor =>
      outcome := ParallelExecute(node, state, invoke, startedAt, endedAt);
    case DefaultExecutor =>
      outcome := DefaultExecute(node, state, invoke, startedAt, endedAt);
  }
}

=== FILE: registry.dfy ===
/** `InMemoryWorkflowRegistry`: workflow definitions by name. */
module Registry {
  import opened Wrappers
  import opened Definitions

  class InMemoryWorkflowRegistry {
    var workflows: map<string, WorkflowDefinition>

    /** Each definition is stored under its own name. */
    ghost predicate Valid()
      reads this
    {
      forall n :: n in workflows ==> workflows[n].name == n
    }

    constructor()
      ensures workflows == map[] && Valid()
    {
      workflows := map[];
    }

    /** Stores the definition under its name, replacing any earlier one; other names keep theirs. */
    method Register(workflow: WorkflowDefinition)
      requires Valid()
      modifies this
      ensures Valid()
      ensures workflows == old(workflows)[workflow.name := workflow]
      ensures Get(workflow.name) == Some(workflow)
      ensures forall n :: n != workflow.name ==> Get(n) == old(Get(n))
    {
      workflows := workflows[workflow.name := workflow];
    }

    /** `Optional.ofNullable(workflows.get(name))`. */
    function Get(name: string): (r: Option<WorkflowDefinition>)
      reads this
      ensures r.Some? <==> name in workflows
      ensures r.Some? ==> r.value == workflows[name]
    {
      if name in workflows then Some(workflows[name]) else None
    }

    /** Removes the name; an absent name is a silent no-op. Other names keep theirs. */
    method Unregister(name: string)
      requires Valid()
      modifies this
      ensures Valid()
      ensures workflows == old(workflows) - {name}
      ensures Get(name) == None
      ensures name !in old(workflows) ==> workflows == old(workflows)
      ensures forall n :: n != name ==> Get(n) == old(Get(n))
    {
      workflows := workflows - {name};
    }

    /** `containsKey`, which agrees with `get(name).isPresent()`. */
    predicate Exists(name: string)
      reads this
      ensures Exists(name) <==> Get(name).Some?
    {
      name in workflows
    }

    /** A fresh list of the stored definitions: one per registered name, in the map's iteration order. */
    method GetAll() returns (all: seq<WorkflowDefinition>)
      requires Valid()
      ensures |all| == |workflows|
      ensures forall i :: 0 <= i < |all| ==> all[i].name in workflows && workflows[all[i].name] == all[i]
      ensures forall n :: n in workflows ==> exists i :: 0 <= i < |all| && all[i].name == n
      ensures forall i, j :: 0 <= i < j < |all| ==> all[i].name != all[j].name
    {
      var order := IterationOrder(workflows.Keys);
      ListingLength(order, workflows.Keys);
      all := [];
      var i := 0;
      while i < |order|
        invariant 0 <= i <= |order|
        invariant |all| == i
        invariant forall j :: 0 <= j < i ==> all[j] == workflows[order[j]] && all[j].name == order[j]
      {
        all := all + [workflows[order[i]]];
        i := i + 1;
      }
      forall n | n in workflows
        ensures exists j :: 0 <= j < |all| && all[j].name == n
      {
        var j :| 0 <= j < |order| && order[j] == n;
        assert all[j].name == n;
      }
    }

    /** `list()` returns `getAll()`. */
    method List() returns (all: seq<WorkflowDefinition>)
      requires Valid()
      ensures |all| == |workflows|
      ensures forall i :: 0 <= i < |all| ==> all[i].name in workflows && workflows[all[i].name] == all[i]
      ensures forall n :: n in workflows ==> exists i :: 0 <= i < |all| && all[i].name == n
      ensures forall i, j :: 0 <= i < j < |all| ==> all[i].name != all[j].name
    {
      all := GetAll();
    }
  }

  /** A register or unregister call, for reasoning about a run of them. */
  datatype RegistryCall = RegisterCall(workflow: WorkflowDefinition) | UnregisterCall(name: string)

  /** The map after the calls, applied in order to `m`, as the two methods change it. */
  function Replay(m: map<string, WorkflowDefinition>, calls: seq<RegistryCall>): map<string, WorkflowDefinition>
    decreases |calls|
  {
    if calls == [] then m
    else
      var prev := Replay(m, calls[..|calls| - 1]);
      match calls[|calls| - 1]
      case RegisterCall(w) => prev[w.name := w]
      case UnregisterCall(n) => prev - {n}
  }

  /** The last call in `calls` that concerns `name`, if any. */
  function LastCallFor(calls: seq<RegistryCall>, name: string): (r: Option<RegistryCall>)
    ensures r.Some? ==> r.value in calls
    decreases |calls|
  {
    if calls == [] then None
    else
      var c := calls[|calls| - 1];
      if (c.RegisterCall? && c.workflow.name == name) || (c.UnregisterCall? && c.name == name) then Some(c)
      else LastCallFor(calls[..|calls| - 1], name)
  }

  /**
   * Last write wins: after a run of calls, `get(name)` yields the definition
   * of the last register call for that name, nothing when the last call for
   * it unregistered it, and the original entry when no call concerned it.
   */
  lemma {:induction false} ReplayLastWriteWins(m: map<string, WorkflowDefinition>, calls: seq<RegistryCall>, name: string)
    ensures var r := Replay(m, calls);
      match LastCallFor(calls, name)
      case Some(RegisterCall(w)) => name in r && r[name] == w
      case Some(UnregisterCall(_)) => name !in r
      case None => (name in r <==> name in m) && (name in m ==> r[name] == m[name])
    decreases |calls|
  {
    if calls != [] {
      ReplayLastWriteWins(m, calls[..|calls| - 1], name);
    }
  }

  /** Registering keeps the registry's invariant through any run of calls. */
  lemma {:induction false} ReplayKeepsNames(m: map<string, WorkflowDefinition>, calls: seq<RegistryCall>)
    requires forall n :: n in m ==> m[n].name == n
    ensures forall n :: n in Replay(m, calls) ==> Replay(m, calls)[n].name == n
    decreases |calls|
  {
    if calls != [] {
      ReplayKeepsNames(m, calls[..|calls| - 1]);
      var prev := Replay(m, calls[..|calls| - 1]);
      match calls[|calls| - 1]
      case RegisterCall(w) =>
        var r := prev[w.name := w];
        assert Replay(m, calls) == r;
        assert forall n :: n in r ==> r[n].name == n;
      case UnregisterCall(x) =>
        assert Replay(m, calls) == prev - {x};
    }
  }
}

=== FILE: requests.dfy ===
/**
 * The request records the service and the validator read. A null field is
 * None; a `Map<String, String>` of parameter names to class names is its
 * entries in the map's iteration order.
 */
module Requests {
  import opened Wrappers
  import opened Values
  import opened Nodes

  /** The part of `RetryConfigRequest` the service reads: the retryable exception class names. */
  datatype RetryConfigRequest = RetryConfigRequest(retryableExceptions: Option<seq<string>>)

  datatype NodeConfigRequest = NodeConfigRequest(systemPrompt: Option<string>, async: bool, retry: Option<RetryConfigRequest>)

  datatype CreateNodeRequest = CreateNodeRequest(
    name: string,
    description: Option<string>,
    nodeType: NodeType,
    dependencies: Option<seq<string>>,
    config: Option<NodeConfigRequest>,
    inputs: Option<seq<(string, string)>>,
    outputs: Option<seq<(string, string)>>)

  datatype WorkflowConfigRequest = WorkflowConfigRequest(timeoutMillis: Option<int>, asyncEnabled: bool, retry: Option<RetryConfigRequest>)

  datatype CreateWorkflowRequest = CreateWorkflowRequest(
    name: Option<string>,
    description: Option<string>,
    nodes: Option<seq<CreateNodeRequest>>,
    config: Option<WorkflowConfigRequest>,
    metadata: Option<map<string, Value>>)

  datatype UpdateWorkflowRequest = UpdateWorkflowRequest(
    name: Option<string>,
    description: Option<string>,
    nodes: Option<seq<CreateNodeRequest>>,
    config: Option<WorkflowConfigRequest>,
    metadata: Option<map<string, Value>>,
    version: Option<string>,
    force: bool)

  datatype ExecuteWorkflowRequest = ExecuteWorkflowRequest(
    workflowName: string,
    inputs: Option<map<string, Value>>,
    context: Option<map<string, Value>>)

  /** The names of the nodes in a request, as `Collectors.toSet()` gathers them. */
  function NameSet(nodes: seq<CreateNodeRequest>): (r: set<string>)
    ensures forall n :: n in r <==> exists i :: 0 <= i < |nodes| && nodes[i].name == n
    decreases |nodes|
  {
    if nodes == [] then {}
    else
      var r := NameSet(nodes[..|nodes| - 1]) + {nodes[|nodes| - 1].name};
      assert forall i :: 0 <= i < |nodes| - 1 ==> nodes[..|nodes| - 1][i] == nodes[i];
      r
  }

  /** The keys of a parameter map's entries. */
  function EntryKeys(entries: seq<(string, string)>): (r: seq<string>)
    ensures |r| == |entries|
    ensures forall i :: 0 <= i < |r| ==> r[i] == entries[i].0
  {
    if entries == [] then [] else [entries[0].0] + EntryKeys(entries[1..])
  }
}

=== FILE: service.dfy ===
/**
 * `WorkflowServiceImpl`: creating, updating and deleting definitions in the
 * registry, and starting, stopping and querying executions through the
 * engine. The engine and `Class.forName` are outside the service and are
 * parameters here.
 */
module Service {
  import opened Wrappers
  import opened Values
  import opened Failures
  import opened State
  import opened Nodes
  import opened Definitions
  import opened Registry
  import opened Requests
  import opened Validation

  /** What `Class.forName(name)` finds: no class, or a class that is or is not a Throwable. */
  datatype ClassLookup = NotFound | Found(throwable: bool)

  type ClassResolver = string -> ClassLookup

  /** A future the engine returned: still running, completed with a state, or failed. */
  datatype Future = Pending | Succeeded(state: WorkflowState) | FailedFuture(failure: Failure)

  /** What the engine's `execute(name, inputs)` does: return a future or throw. */
  datatype EngineStart = Started(future: Future) | StartThrew(failure: Failure)

  type Engine = (string, map<string, Value>) -> EngineStart

  /** The part of `WorkflowResponse` the service fills from the model's state. */
  datatype WorkflowResponse = WorkflowResponse(
    workflowId: Option<string>,
    executionId: string,
    status: string,
    outputs: Option<map<string, Value>>)

  /** A service call returns a value, throws a ValidationException with its error map, or throws `failure`. */
  datatype Reply<T> = Ok(value: T) | Invalid(errors: Errors) | Raised(failure: Failure)

  /* executeWorkflow: the inputs the engine is given */

  /**
   * `new HashMap<>(inputs)` followed by `putAll(context)` when the context is
   * not null; a null inputs map makes the copy throw (None).
   */
  function ExecutionInputs(request: ExecuteWorkflowRequest): (r: Option<map<string, Value>>)
    ensures r.None? <==> request.inputs.None?
    ensures r.Some? && request.context.Some? ==>
      r.value.Keys == request.inputs.value.Keys + request.context.value.Keys
    ensures r.Some? && request.context.None? ==> r.value == request.inputs.value
    ensures r.Some? && request.context.Some? ==>
      forall k :: k in request.context.value ==> r.value[k] == request.context.value[k]
    ensures r.Some? ==>
      forall k :: k in request.inputs.value && (request.context.None? || k !in request.context.value) ==>
        r.value[k] == request.inputs.value[k]
  {
    match request.inputs
    case None => None
    case Some(inputs) =>
      Some(match request.context case Some(context) => inputs + context case None => inputs)
  }

  /* buildNodes */

  datatype Built<T> = Built(value: T) | BuildFailed(failure: Failure)

  /**
   * `mapStringToClassMap`: null stays null; otherwise every class name must
   * resolve, and the first one in iteration order that does not throws
   * "Failed to map class: <name>".
   */
  function MapClasses(entries: Option<seq<(string, string)>>, resolves: ClassResolver): (r: Built<Option<seq<string>>>)
    ensures entries.None? ==> r == Built(None)
    ensures entries.Some? ==>
      (r.BuildFailed? <==> exists i :: 0 <= i < |entries.value| && !resolves(entries.value[i].1).Found?)
    ensures r.Built? && entries.Some? ==> r.value == Some(EntryKeys(entries.value))
    ensures r.BuildFailed? ==>
      exists i :: && 0 <= i < |entries.value| && !resolves(entries.value[i].1).Found?
                  && (forall j :: 0 <= j < i ==> resolves(entries.value[j].1).Found?)
                  && r.failure == WorkflowCreation("Failed to map class: " + entries.value[i].1)
    decreases if entries.Some? then |entries.value| else 0
  {
    match entries
    case None => Built(None)
    case Some(es) =>
      if es == [] then Built(Some([]))
      else if !resolves(es[0].1).Found? then BuildFailed(WorkflowCreation("Failed to map class: " + es[0].1))
      else
        var rest := MapClasses(Some(es[1..]), resolves);
        assert forall j :: 0 <= j < |es| - 1 ==> es[1..][j] == es[j + 1];
        match rest
        case BuildFailed(f) => BuildFailed(f)
        case Built(keys) => Built(Some([es[0].0] + keys.value))
  }

  /** Whether `Class.forName(name)` finds a class that is a Throwable. */
  predicate IsExceptionClass(name: string, resolves: ClassResolver)
  {
    resolves(name).Found? && resolves(name).throwable
  }

  /** The IllegalArgumentException `mapExceptionClasses` throws for a name that is not an exception class. */
  function ExceptionClassFailure(name: string, resolves: ClassResolver): Failure
  {
    if resolves(name).NotFound? then IllegalArgument("Class not found: " + name)
    else IllegalArgument("Class is not a Throwable: " + name)
  }

  /**
   * `mapExceptionClasses`: null stays null; otherwise every name must be an
   * exception class, and the first in list order that is not throws.
   */
  function MapExceptionClasses(names: Option<seq<string>>, resolves: ClassResolver): (r: Built<Option<seq<string>>>)
    ensures names.None? ==> r == Built(None)
    ensures names.Some? ==>
      (r.BuildFailed? <==> exists i :: 0 <= i < |names.value| && !IsExceptionClass(names.value[i], resolves))
    ensures r.Built? ==> r.value == names
    ensures r.BuildFailed? ==>
      exists i :: && 0 <= i < |names.value| && !IsExceptionClass(names.value[i], resolves)
                  && (forall j :: 0 <= j < i ==> IsExceptionClass(names.value[j], resolves))
                  && r.failure == ExceptionClassFailure(names.value[i], resolves)
    decreases if names.Some? then |names.value| else 0
  {
    match names
    case None => Built(None)
    case Some(ns) =>
      if ns == [] then Built(Some([]))
      else if !IsExceptionClass(ns[0], resolves) then BuildFailed(ExceptionClassFailure(ns[0], resolves))
      else
        var rest := MapExceptionClasses(Some(ns[1..]), resolves);
        assert forall j :: 0 <= j < |ns| - 1 ==> ns[1..][j] == ns[j + 1];
        match rest
        case BuildFailed(f) => BuildFailed(f)
        case Built(_) =>
          assert ns == [ns[0]] + ns[1..];
          Built(Some(ns))
  }

  /** `buildRetryConfig` and `buildWorkflowRetryConfig`: only the exception class list can fail. */
  function BuildRetryConfig(request: Option<RetryConfigRequest>, resolves: ClassResolver): (r: Built<Option<seq<string>>>)
    ensures r.BuildFailed? <==>
      request.Some? && request.value.retryableExceptions.Some?
      && exists i :: 0 <= i < |request.value.retryableExceptions.value|
                     && !IsExceptionClass(request.value.retryableExceptions.value[i], resolves)
    ensures r.Built? ==> r.value == if request.Some? then request.value.retryableExceptions else None
    ensures r.BuildFailed? ==> r.failure.IllegalArgument?
  {
    match request
    case None => Built(None)
    case Some(r) => MapExceptionClasses(r.retryableExceptions, resolves)
  }

  /** `buildNodeConfig`: null stays null; the retry config is built first, and its failure is the config's. */
  function BuildNodeConfig(request: Option<NodeConfigRequest>, resolves: ClassResolver): (r: Built<Option<NodeConfig>>)
    ensures request.None? ==> r == Built(None)
    ensures request.Some? ==>
      && (r.BuildFailed? <==> BuildRetryConfig(request.value.retry, resolves).BuildFailed?)
      && (r.BuildFailed? ==> r.failure == BuildRetryConfig(request.value.retry, resolves).failure)
      && (r.Built? ==> r.value == Some(NodeConfig(request.value.systemPrompt, request.value.async)))
  {
    match request
    case None => Built(None)
    case Some(c) =>
      match BuildRetryConfig(c.retry, resolves)
      case BuildFailed(f) => BuildFailed(f)
      case Built(_) => Built(Some(NodeConfig(c.systemPrompt, c.async)))
  }

  /** `buildConfig`: null stays null; the retry config is built first, and its failure is the config's. */
  function BuildConfig(request: Option<WorkflowConfigRequest>, resolves: ClassResolver): (r: Built<Option<WorkflowConfig>>)
    ensures request.None? ==> r == Built(None)
    ensures request.Some? ==>
      && (r.BuildFailed? <==> BuildRetryConfig(request.value.retry, resolves).BuildFailed?)
      && (r.BuildFailed? ==> r.failure == BuildRetryConfig(request.value.retry, resolves).failure)
      && (r.Built? ==> r.value == Some(WorkflowConfig(request.value.timeoutMillis, request.value.asyncEnabled)))
  {
    match request
    case None => Built(None)
    case Some(c) =>
      match BuildRetryConfig(c.retry, resolves)
      case BuildFailed(f) => BuildFailed(f)
      case Built(_) => Built(Some(WorkflowConfig(c.timeoutMillis, c.asyncEnabled)))
  }

  /**
   * `buildNode`: the request's fields copied over; the config is built
   * first, then the parameter maps' class names are resolved (inputs
   * first). A node built from a request has no method to invoke.
   */
  function BuildNode(request: CreateNodeRequest, resolves: ClassResolver): (r: Built<Node>)
    ensures r.Built? ==>
      && r.value.name == request.name && r.value.nodeType == request.nodeType
      && r.value.dependencies == request.dependencies && r.value.handler.None?
      && BuildNodeConfig(request.config, resolves) == Built(r.value.config)
    ensures r.BuildFailed? <==>
      || BuildNodeConfig(request.config, resolves).BuildFailed?
      || MapClasses(request.inputs, resolves).BuildFailed?
      || MapClasses(request.outputs, resolves).BuildFailed?
    ensures BuildNodeConfig(request.config, resolves).BuildFailed? ==>
      r.BuildFailed? && r.failure == BuildNodeConfig(request.config, resolves).failure
  {
    match BuildNodeConfig(request.config, resolves)
    case BuildFailed(f) => BuildFailed(f)
    case Built(config) =>
      match MapClasses(request.inputs, resolves)
      case BuildFailed(f) => BuildFailed(f)
      case Built(inputs) =>
        match MapClasses(request.outputs, resolves)
        case BuildFailed(f) => BuildFailed(f)
        case Built(outputs) =>
          Built(Node(request.name, request.description, request.nodeType, None,
            request.dependencies, config, inputs, outputs))
  }

  /** The map `buildNodes` fills: each request put under its name in list order; the first failure stops it. */
  function NodesOf(requests: seq<CreateNodeRequest>, resolves: ClassResolver): Built<map<string, Node>>
    decreases |requests|
  {
    if requests == [] then Built(map[])
    else
      var last := requests[|requests| - 1];
      match NodesOf(requests[..|requests| - 1], resolves)
      case BuildFailed(f) => BuildFailed(f)
      case Built(nodes) =>
        match BuildNode(last, resolves)
        case BuildFailed(f) => BuildFailed(f)
        case Built(node) => Built(nodes[last.name := node])
  }

  /** The nodes are built exactly when every request's class names resolve. */
  lemma {:induction false} NodesOfBuiltIff(requests: seq<CreateNodeRequest>, resolves: ClassResolver)
    ensures NodesOf(requests, resolves).Built? <==>
      forall i :: 0 <= i < |requests| ==> BuildNode(requests[i], resolves).Built?
    decreases |requests|
  {
    if requests != [] {
      var prefix := requests[..|requests| - 1];
      NodesOfBuiltIff(prefix, resolves);
      assert forall i :: 0 <= i < |prefix| ==> prefix[i] == requests[i];
    }
  }

  /** The built map is keyed by exactly the request names. */
  lemma {:induction false} NodesOfKeys(requests: seq<CreateNodeRequest>, resolves: ClassResolver)
    requires NodesOf(requests, resolves).Built?
    ensures NodesOf(requests, resolves).value.Keys == NameSet(requests)
    decreases |requests|
  {
    if requests != [] {
      var prefix := requests[..|requests| - 1];
      var last := requests[|requests| - 1];
      assert NodesOf(prefix, resolves).Built?;
      NodesOfKeys(prefix, resolves);
      assert NodesOf(requests, resolves).value.Keys == NodesOf(prefix, resolves).value.Keys + {last.name};
      assert NameSet(requests) == NameSet(prefix) + {last.name};
    }
  }

  /** A later request with the same name replaces an earlier one: each name holds the node of its last request. */
  lemma {:induction false} NodesOfLastWins(requests: seq<CreateNodeRequest>, resolves: ClassResolver, j: nat)
    requires NodesOf(requests, resolves).Built?
    requires j < |requests|
    requires forall i :: j < i < |requests| ==> requests[i].name != requests[j].name
    ensures BuildNode(requests[j], resolves).Built?
    ensures requests[j].name in NodesOf(requests, resolves).value
    ensures NodesOf(requests, resolves).value[requests[j].name] == BuildNode(requests[j], resolves).value
    decreases |requests|
  {
    var prefix := requests[..|requests| - 1];
    if j < |requests| - 1 {
      assert prefix[j] == requests[j];
      assert forall i :: j < i < |prefix| ==> prefix[i] == requests[i];
      NodesOfLastWins(prefix, resolves, j);
    }
  }

  /** `buildNodes`: the HashMap filled in list order. */
  method BuildNodes(requests: seq<CreateNodeRequest>, resolves: ClassResolver) returns (r: Built<map<string, Node>>)
    ensures r == NodesOf(requests, resolves)
  {
    var nodes: map<string, Node> := map[];
    var i := 0;
    while i < |requests|
      invariant 0 <= i <= |requests|
      invariant NodesOf(requests[..i], resolves) == Built(nodes)
    {
      assert requests[..i + 1][..i] == requests[..i];
      var node := BuildNode(requests[i], resolves);
      if node.BuildFailed? {
        NodesOfStopsAtFailure(requests, resolves, i);
        return BuildFailed(node.failure);
      }
      nodes := nodes[requests[i].name := node.value];
      i := i + 1;
    }
    assert requests[..|requests|] == requests;
    r := Built(nodes);
  }

  /** Once a request fails to build, the whole list fails with its failure. */
  lemma {:induction false} NodesOfStopsAtFailure(requests: seq<CreateNodeRequest>, resolves: ClassResolver, i: nat)
    requires i < |requests| && NodesOf(requests[..i], resolves).Built?
    requires BuildNode(requests[i], resolves).BuildFailed?
    ensures NodesOf(requests, resolves) == BuildFailed(BuildNode(requests[i], resolves).failure)
    decreases |requests|
  {
    if i < |requests| - 1 {
      var prefix := requests[..|requests| - 1];
      assert prefix[..i] == requests[..i] && prefix[i] == requests[i];
      NodesOfStopsAtFailure(prefix, resolves, i);
    } else {
      assert requests[..|requests| - 1] == requests[..i];
    }
  }

  /** `buildWorkflowDefinition` once its nodes and config are built: no start-node list is set, so it is null. */
  function BuildWorkflowDefinition(request: CreateWorkflowRequest, name: string, nodes: map<string, Node>, config: Option<WorkflowConfig>): (r: WorkflowDefinition)
    ensures r.name == name && r.nodes == nodes && r.config == config
    ensures r.startNodes.None?
  {
    WorkflowDefinition(name, request.description, nodes, None, request.metadata, config)
  }

  /** `new WorkflowCreationException("Failed to create workflow: " + e.getMessage(), e)`. */
  function CreationFailure(e: Failure): Failure
  {
    WorkflowCreation("Failed to create workflow: " + JavaText(Message(e)))
  }

  /**
   * The try block of `createWorkflow`: the nodes are built, then the
   * config, and whatever either throws is rethrown as a
   * WorkflowCreationException.
   */
  function CreatedDefinition(request: CreateWorkflowRequest, name: string, resolves: ClassResolver): Reply<WorkflowDefinition>
    requires request.nodes.Some?
  {
    match NodesOf(request.nodes.value, resolves)
    case BuildFailed(f) => Raised(CreationFailure(f))
    case Built(nodes) =>
      match BuildConfig(request.config, resolves)
      case BuildFailed(f) => Raised(CreationFailure(f))
      case Built(config) => Ok(BuildWorkflowDefinition(request, name, nodes, config))
  }

  /**
   * The definition is built exactly when every node request and the config
   * build; it then holds the built nodes, keyed by the request names, and
   * no start-node list.
   */
  lemma CreatedIffEverythingBuilds(request: CreateWorkflowRequest, name: string, resolves: ClassResolver)
    requires request.nodes.Some?
    ensures var nodes := request.nodes.value;
      CreatedDefinition(request, name, resolves).Ok? <==>
        (forall i :: 0 <= i < |nodes| ==> BuildNode(nodes[i], resolves).Built?) && BuildConfig(request.config, resolves).Built?
    ensures CreatedDefinition(request, name, resolves).Ok? ==>
      var d := CreatedDefinition(request, name, resolves).value;
      && d.name == name && d.startNodes.None? && d.nodes.Keys == NameSet(request.nodes.value)
      && Built(d.config) == BuildConfig(request.config, resolves)
    ensures !CreatedDefinition(request, name, resolves).Ok? ==>
      CreatedDefinition(request, name, resolves).Raised? && CreatedDefinition(request, name, resolves).failure.WorkflowCreation?
  {
    NodesOfBuiltIff(request.nodes.value, resolves);
    if NodesOf(request.nodes.value, resolves).Built? {
      NodesOfKeys(request.nodes.value, resolves);
    }
  }

  /**
   * `updateWorkflowDefinition`: the name is kept; each of description,
   * nodes, config and metadata comes from the request when it is not null
   * and from the existing definition otherwise. The builder sets no
   * start-node list, so the result's is null.
   */
  function UpdatedDefinition(existing: WorkflowDefinition, request: UpdateWorkflowRequest, built: map<string, Node>, config: Option<WorkflowConfig>): (r: WorkflowDefinition)
  {
    WorkflowDefinition(
      existing.name,
      if request.description.Some? then request.description else existing.description,
      if request.nodes.Some? then built else existing.nodes,
      None,
      if request.metadata.Some? then request.metadata else existing.metadata,
      if request.config.Some? then config else existing.config)
  }

  /** The try block of `createWorkflow` up to the registration. */
  method BuildDefinition(request: CreateWorkflowRequest, name: string, resolves: ClassResolver) returns (r: Reply<WorkflowDefinition>)
    requires request.nodes.Some?
    ensures r == CreatedDefinition(request, name, resolves)
  {
    var nodes := BuildNodes(request.nodes.value, resolves);
    if nodes.BuildFailed? {
      return Raised(CreationFailure(nodes.failure));
    }
    var config := BuildConfig(request.config, resolves);
    if config.BuildFailed? {
      return Raised(CreationFailure(config.failure));
    }
    r := Ok(BuildWorkflowDefinition(request, name, nodes.value, config.value));
  }

  /** `new WorkflowUpdateException("Failed to update workflow: " + e.getMessage(), e)`. */
  function UpdateFailure(e: Failure): Failure
  {
    WorkflowUpdate("Failed to update workflow: " + JavaText(Message(e)))
  }

  /** A request with every field null changes nothing but the start-node list, which is dropped. */
  lemma EmptyUpdateDropsOnlyStartNodes(existing: WorkflowDefinition, request: UpdateWorkflowRequest, built: map<string, Node>, config: Option<WorkflowConfig>)
    requires request.description.None? && request.nodes.None? && request.config.None? && request.metadata.None?
    ensures UpdatedDefinition(existing, request, built, config) == existing.(startNodes := None)
  {
  }

  /** Applying the same update twice gives what applying it once gives. */
  lemma UpdateIdempotent(existing: WorkflowDefinition, request: UpdateWorkflowRequest, built: map<string, Node>, config: Option<WorkflowConfig>)
    ensures UpdatedDefinition(UpdatedDefinition(existing, request, built, config), request, built, config)
      == UpdatedDefinition(existing, request, built, config)
  {
  }

  /** Each field of the update comes from the request exactly when the request sets it. */
  lemma UpdateTakesSetFields(existing: WorkflowDefinition, request: UpdateWorkflowRequest, built: map<string, Node>, config: Option<WorkflowConfig>)
    ensures var r := UpdatedDefinition(existing, request, built, config);
      && r.name == existing.name && r.startNodes.None?
      && (request.description.Some? ==> r.description == request.description)
      && (request.description.None? ==> r.description == existing.description)
      && (request.nodes.Some? ==> r.nodes == built)
      && (request.nodes.None? ==> r.nodes == existing.nodes)
      && (request.metadata.Some? ==> r.metadata == request.metadata)
      && (request.metadata.None? ==> r.metadata == existing.metadata)
      && (request.config.Some? ==> r.config == config)
      && (request.config.None? ==> r.config == existing.config)
  {
  }

  /* buildMetrics */

  /** The two fields of a history entry `buildMetrics` reads. */
  datatype NodeExecutionInfo = NodeExecutionInfo(error: Option<string>, attempts: int)

  datatype ExecutionMetrics = ExecutionMetrics(totalNodes: nat, completedNodes: nat, failedNodes: nat, totalRetries: int)

  function Plus(a: ExecutionMetrics, b: ExecutionMetrics): ExecutionMetrics
  {
    ExecutionMetrics(a.totalNodes + b.totalNodes, a.completedNodes + b.completedNodes,
      a.failedNodes + b.failedNodes, a.totalRetries + b.totalRetries)
  }

  /** The metrics of one entry. */
  function MetricsOfOne(info: NodeExecutionInfo): ExecutionMetrics
  {
    ExecutionMetrics(1, if info.error.None? then 1 else 0, if info.error.Some? then 1 else 0, info.attempts - 1)
  }

  function AttemptsOf(infos: seq<NodeExecutionInfo>): int
    decreases |infos|
  {
    if infos == [] then 0 else AttemptsOf(infos[..|infos| - 1]) + infos[|infos| - 1].attempts
  }

  /**
   * `buildMetrics` over the history's entries in iteration order: the total
   * is the entry count, the completed and failed counts split it by whether
   * an error is recorded, and the retries are the attempts beyond the first.
   */
  function BuildMetrics(infos: seq<NodeExecutionInfo>): ExecutionMetrics
    decreases |infos|
  {
    if infos == [] then ExecutionMetrics(0, 0, 0, 0)
    else Plus(BuildMetrics(infos[..|infos| - 1]), MetricsOfOne(infos[|infos| - 1]))
  }

  /** Completed and failed entries add up to the total, and the retries are the attempts beyond one per entry. */
  lemma {:induction false} BuildMetricsCounts(infos: seq<NodeExecutionInfo>)
    ensures BuildMetrics(infos).totalNodes == |infos|
    ensures BuildMetrics(infos).completedNodes + BuildMetrics(infos).failedNodes == BuildMetrics(infos).totalNodes
    ensures BuildMetrics(infos).totalRetries == AttemptsOf(infos) - |infos|
    decreases |infos|
  {
    if infos != [] {
      BuildMetricsCounts(infos[..|infos| - 1]);
    }
  }

  lemma BuildMetricsSnoc(infos: seq<NodeExecutionInfo>, x: NodeExecutionInfo)
    ensures BuildMetrics(infos + [x]) == Plus(BuildMetrics(infos), MetricsOfOne(x))
  {
    assert (infos + [x])[..|infos|] == infos;
  }

  lemma PlusAssociative(p: ExecutionMetrics, q: ExecutionMetrics, r: ExecutionMetrics)
    ensures Plus(Plus(p, q), r) == Plus(p, Plus(q, r))
  {
  }

  lemma {:induction false} BuildMetricsAppend(a: seq<NodeExecutionInfo>, b: seq<NodeExecutionInfo>)
    ensures BuildMetrics(a + b) == Plus(BuildMetrics(a), BuildMetrics(b))
    decreases |b|
  {
    if b == [] {
      assert a + b == a;
      var m := BuildMetrics(a);
      assert Plus(m, BuildMetrics(b)) == m;
    } else {
      var b' := b[..|b| - 1];
      var x := b[|b| - 1];
      assert a + b == (a + b') + [x];
      assert b == b' + [x];
      BuildMetricsSnoc(a + b', x);
      BuildMetricsSnoc(b', x);
      BuildMetricsAppend(a, b');
      PlusAssociative(BuildMetrics(a), BuildMetrics(b'), MetricsOfOne(x));
    }
  }

  /** Taking out one entry takes out its multiset element. */
  lemma RemoveOneMultiset(b: seq<NodeExecutionInfo>, i: nat)
    requires i < |b|
    ensures multiset(b) == multiset(b[..i] + b[i + 1..]) + multiset{b[i]}
  {
    assert b == b[..i] + [b[i]] + b[i + 1..];
  }

  lemma PlusCommutative(p: ExecutionMetrics, q: ExecutionMetrics)
    ensures Plus(p, q) == Plus(q, p)
  {
  }

  /** Taking out one entry takes out its metrics. */
  lemma RemoveOneMetrics(p: seq<NodeExecutionInfo>, x: NodeExecutionInfo, q: seq<NodeExecutionInfo>)
    ensures BuildMetrics(p + [x] + q) == Plus(BuildMetrics(p + q), MetricsOfOne(x))
  {
    var mp, mx, mq := BuildMetrics(p), MetricsOfOne(x), BuildMetrics(q);
    BuildMetricsAppend(p + [x], q);
    BuildMetricsSnoc(p, x);
    BuildMetricsAppend(p, q);
    PlusAssociative(mp, mx, mq);
    PlusCommutative(mx, mq);
    PlusAssociative(mp, mq, mx);
  }

  lemma MultisetCancel(p: multiset<NodeExecutionInfo>, q: multiset<NodeExecutionInfo>, x: NodeExecutionInfo)
    requires p + multiset{x} == q + multiset{x}
    ensures p == q
  {
    assert forall y :: p[y] == (p + multiset{x})[y] - multiset{x}[y];
    assert forall y :: q[y] == (q + multiset{x})[y] - multiset{x}[y];
  }

  /** The metrics do not depend on the order the map yields its entries in. */
  lemma {:induction false} BuildMetricsOrderFree(a: seq<NodeExecutionInfo>, b: seq<NodeExecutionInfo>)
    requires multiset(a) == multiset(b)
    ensures BuildMetrics(a) == BuildMetrics(b)
    decreases |a|
  {
    if a != [] {
      var x := a[|a| - 1];
      var a' := a[..|a| - 1];
      assert a == a' + [x];
      assert x in multiset(b);
      var i :| 0 <= i < |b| && b[i] == x;
      var b' := b[..i] + b[i + 1..];
      RemoveOneMultiset(b, i);
      assert b == b[..i] + [x] + b[i + 1..];
      RemoveOneMetrics(b[..i], x, b[i + 1..]);
      MultisetCancel(multiset(a'), multiset(b'), x);
      BuildMetricsOrderFree(a', b');
      BuildMetricsSnoc(a', x);
    }
  }

  /** What the service's status query reads for a running, completed or failed execution. */
  function StatusOf(executionId: string, future: Future): (r: Reply<WorkflowResponse>)
    reads if future.Succeeded? then {future.state} else {}
    ensures future.Pending? ==> r == Ok(WorkflowResponse(None, executionId, "RUNNING", None))
    ensures future.Succeeded? ==>
      && r.Ok? && r.value.status == "COMPLETED"
      && r.value.workflowId == Some(future.state.workflowId) && r.value.outputs == Some(future.state.variables)
    ensures future.FailedFuture? ==>
      && r.Raised? && r.failure.WorkflowExecution?
      && r.failure.detail == "Failed to get execution status: "
           + ToString(if future.failure.Completion? then future.failure.cause else future.failure)
  {
    match future
    case Pending => Ok(WorkflowResponse(None, executionId, "RUNNING", None))
    case Succeeded(state) => Ok(WorkflowResponse(Some(state.workflowId), executionId, "COMPLETED", Some(state.variables)))
    case FailedFuture(f) =>
      Raised(WorkflowExecution("Failed to get execution status: " + JavaText(Message(Wrapped(f)))))
  }

  class WorkflowService {
    const registry: InMemoryWorkflowRegistry
    var activeExecutions: map<string, Future>

    constructor(registry: InMemoryWorkflowRegistry)
      ensures this.registry == registry && activeExecutions == map[]
    {
      this.registry := registry;
      activeExecutions := map[];
    }

    /**
     * `createWorkflow`: validation first, then the name check, then the
     * build and the registration. Nothing is registered unless the request
     * passes every check, its name is new and everything in it builds.
     */
    method CreateWorkflow(request: CreateWorkflowRequest, resolves: ClassResolver) returns (reply: Reply<WorkflowDefinition>)
      requires registry.Valid()
      modifies registry
      ensures registry.Valid()
      ensures request.nodes.None? ==> reply == Raised(NullPointer(Some("validation")))
      ensures request.nodes.Some? && RequestErrors(request) != map[] ==>
        reply == Invalid(RequestErrors(request)) || reply == Raised(NullPointer(Some("validation")))
      ensures request.nodes.Some? && RequestErrors(request) != map[]
              && DependencyPairs(request.nodes.value, NameSet(request.nodes.value)) == [] ==>
        reply == Invalid(RequestErrors(request))
      ensures request.nodes.Some? && RequestErrors(request) == map[] ==>
        && request.name.Some?
        && (request.name.value in old(registry.workflows) ==> reply == Raised(WorkflowAlreadyExists(request.name.value)))
        && (request.name.value !in old(registry.workflows) ==> reply == CreatedDefinition(request, request.name.value, resolves))
      ensures !reply.Ok? ==> registry.workflows == old(registry.workflows)
      ensures reply.Ok? ==>
        && request.name.Some? && request.name.value !in old(registry.workflows)
        && registry.workflows == old(registry.workflows)[request.name.value := reply.value]
    {
      var validation := ValidateCreateRequest(request);
      if request.nodes.Some? && RequestErrors(request) == map[] {
        NoErrorsHasName(request);
      }
      match validation
      case NullPointerThrown =>
        return Raised(NullPointer(Some("validation")));
      case Rejected(errors) =>
        return Invalid(errors);
      case Accepted =>
        var name := request.name.value;
        if registry.Exists(name) {
          return Raised(WorkflowAlreadyExists(name));
        }
        reply := BuildDefinition(request, name, resolves);
        if reply.Ok? {
          registry.Register(reply.value);
        }
    }

    /**
     * `updateWorkflow`: an unknown id throws WorkflowNotFoundException;
     * otherwise the merged definition replaces the existing one under the
     * same name. The request is not validated; a node list or config that
     * does not build is rethrown as a WorkflowUpdateException.
     */
    method UpdateWorkflow(id: string, request: UpdateWorkflowRequest, resolves: ClassResolver) returns (reply: Reply<WorkflowDefinition>)
      requires registry.Valid()
      modifies registry
      ensures registry.Valid()
      ensures id !in old(registry.workflows) ==> reply == Raised(WorkflowNotFound(id))
      ensures !reply.Ok? ==> registry.workflows == old(registry.workflows)
      ensures id in old(registry.workflows) && request.nodes.Some? && NodesOf(request.nodes.value, resolves).BuildFailed? ==>
        reply == Raised(UpdateFailure(NodesOf(request.nodes.value, resolves).failure))
      ensures id in old(registry.workflows) && (request.nodes.None? || NodesOf(request.nodes.value, resolves).Built?)
              && request.config.Some? && BuildConfig(request.config, resolves).BuildFailed? ==>
        reply == Raised(UpdateFailure(BuildConfig(request.config, resolves).failure))
      ensures reply.Raised? && id in old(registry.workflows) ==> reply.failure.WorkflowUpdate?
      ensures reply.Ok? ==>
        && id in old(registry.workflows) && reply.value.name == id
        && (request.nodes.Some? ==> NodesOf(request.nodes.value, resolves) == Built(reply.value.nodes))
        && (request.config.Some? ==> BuildConfig(request.config, resolves) == Built(reply.value.config))
        && reply.value == UpdatedDefinition(old(registry.workflows)[id], request, reply.value.nodes, reply.value.config)
        && registry.workflows == old(registry.workflows)[id := reply.value]
      ensures id in old(registry.workflows) && (request.nodes.None? || NodesOf(request.nodes.value, resolves).Built?)
              && (request.config.None? || BuildConfig(request.config, resolves).Built?) ==>
        reply.Ok?
      ensures !reply.Invalid?
    {
      var found := registry.Get(id);
      if found.None? {
        return Raised(WorkflowNotFound(id));
      }
      var existing := found.value;
      var built: map<string, Node> := existing.nodes;
      if request.nodes.Some? {
        var nodes := BuildNodes(request.nodes.value, resolves);
        if nodes.BuildFailed? {
          return Raised(UpdateFailure(nodes.failure));
        }
        built := nodes.value;
      }
      var config := existing.config;
      if request.config.Some? {
        var c := BuildConfig(request.config, resolves);
        if c.BuildFailed? {
          return Raised(UpdateFailure(c.failure));
        }
        config := c.value;
      }
      var updated := UpdatedDefinition(existing, request, built, config);
      registry.Register(updated);
      reply := Ok(updated);
    }

    /**
     * `deleteWorkflow`. The in-use check asks every running future for its
     * state's id: `getNow(null)` gives null for one still running, so the
     * check throws a NullPointerException whenever any execution is
     * running, and WorkflowInUseException is never thrown. Otherwise the
     * name is unregistered, which never fails.
     */
    method DeleteWorkflow(id: string) returns (failure: Option<Failure>)
      requires registry.Valid()
      modifies registry
      ensures registry.Valid()
      ensures failure.Some? <==> exists k :: k in activeExecutions && activeExecutions[k].Pending?
      ensures failure.Some? ==> failure.value.NullPointer? && registry.workflows == old(registry.workflows)
      ensures failure.None? ==> registry.workflows == old(registry.workflows) - {id}
    {
      if exists k :: k in activeExecutions && activeExecutions[k].Pending? {
        return Some(NullPointer(Some("workflowId")));
      }
      registry.Unregister(id);
      failure := None;
    }

    /**
     * `executeWorkflow`: the engine runs on the inputs overlaid with the
     * context; its future is kept under the new execution id until it
     * completes, which for a future completed on return is at once. Anything
     * thrown is rethrown as "Failed to start workflow execution: ...".
     */
    method ExecuteWorkflow(request: ExecuteWorkflowRequest, executionId: string, engine: Engine) returns (reply: Reply<WorkflowResponse>)
      modifies this
      ensures request.inputs.None? ==>
        reply == Raised(WorkflowExecution("Failed to start workflow execution: " + JavaText(Message(NullPointer(Some("inputs"))))))
      ensures reply.Raised? && request.inputs.Some? ==>
        engine(request.workflowName, ExecutionInputs(request).value).StartThrew?
        && reply.failure == WorkflowExecution("Failed to start workflow execution: "
          + JavaText(Message(engine(request.workflowName, ExecutionInputs(request).value).failure)))
      ensures reply.Raised? ==> activeExecutions == old(activeExecutions)
      ensures reply.Ok? ==>
        && request.inputs.Some?
        && engine(request.workflowName, ExecutionInputs(request).value).Started?
        && reply.value == WorkflowResponse(Some(request.workflowName), executionId, "RUNNING", None)
        && (engine(request.workflowName, ExecutionInputs(request).value).future.Pending? ==>
              activeExecutions == old(activeExecutions)[executionId := Pending])
        && (!engine(request.workflowName, ExecutionInputs(request).value).future.Pending? ==>
              activeExecutions == old(activeExecutions) - {executionId})
      ensures !reply.Invalid?
    {
      var inputs := ExecutionInputs(request);
      if inputs.None? {
        return Raised(WorkflowExecution("Failed to start workflow execution: " + JavaText(Message(NullPointer(Some("inputs"))))));
      }
      var started := engine(request.workflowName, inputs.value);
      match started
      case StartThrew(f) =>
        return Raised(WorkflowExecution("Failed to start workflow execution: " + JavaText(Message(f))));
      case Started(future) =>
        activeExecutions := activeExecutions[executionId := future];
        if !future.Pending? {
          activeExecutions := activeExecutions - {executionId};
        }
        reply := Ok(WorkflowResponse(Some(request.workflowName), executionId, "RUNNING", None));
    }

    /** `stopWorkflow`: an unknown id throws; a known one is cancelled and removed. */
    method StopWorkflow(executionId: string) returns (failure: Option<Failure>)
      modifies this
      ensures executionId !in old(activeExecutions) ==>
        failure == Some(ExecutionNotFound(executionId)) && activeExecutions == old(activeExecutions)
      ensures executionId in old(activeExecutions) ==>
        failure == None && activeExecutions == old(activeExecutions) - {executionId}
    {
      if executionId !in activeExecutions {
        return Some(ExecutionNotFound(executionId));
      }
      activeExecutions := activeExecutions - {executionId};
      failure := None;
    }

    /**
     * `getExecutionStatus`: an unknown id throws ExecutionNotFoundException;
     * a failed future makes `join` throw, so its status is never reported
     * and the query throws instead.
     */
    function GetExecutionStatus(executionId: string): (r: Reply<WorkflowResponse>)
      reads this, set k | k in activeExecutions && activeExecutions[k].Succeeded? :: activeExecutions[k].state
      ensures executionId !in activeExecutions ==> r == Raised(ExecutionNotFound(executionId))
      ensures executionId in activeExecutions ==> r == StatusOf(executionId, activeExecutions[executionId])
      ensures r.Ok? ==> r.value.executionId == executionId && r.value.status != "FAILED"
    {
      if executionId !in activeExecutions then Raised(ExecutionNotFound(executionId))
      else StatusOf(executionId, activeExecutions[executionId])
    }

    /** `getWorkflow`: the registered definition, or WorkflowNotFoundException. */
    function GetWorkflow(id: string): (r: Reply<WorkflowDefinition>)
      reads registry
      ensures r.Ok? <==> id in registry.workflows
      ensures r.Ok? ==> r.value == registry.workflows[id]
      ensures !r.Ok? ==> r == Raised(WorkflowNotFound(id))
    {
      match registry.Get(id)
      case Some(w) => Ok(w)
      case None => Raised(WorkflowNotFound(id))
    }
  }
}

=== FILE: validator.dfy ===
/**
 * `WorkflowValidator`. The error map groups messages by key in the order
 * they were added (`computeIfAbsent(key, ArrayList::new).add(message)`);
 * each check is specified by the list of (key, message) pairs it adds, and
 * each loop of the validator adds exactly those pairs.
 */
module Validation {
  import opened Wrappers
  import opened Nodes
  import opened Requests
  import opened Cycles

  type Errors = map<string, seq<string>>
  type ErrorPair = (string, string)

  predicate IsNameChar(c: char)
  {
    ('a' <= c <= 'z') || ('A' <= c <= 'Z') || ('0' <= c <= '9') || c == '_' || c == '-'
  }

  /** `isValidName`: non-null and wholly matching `^[a-zA-Z0-9_-]{1,64}$`. */
  predicate IsValidName(name: Option<string>)
  {
    name.Some? && 1 <= |name.value| <= 64
    && forall i :: 0 <= i < |name.value| ==> IsNameChar(name.value[i])
  }

  /** A valid name never contains '.', so it never collides with a suffixed history key. */
  lemma ValidNameHasNoDot(name: string)
    requires IsValidName(Some(name))
    ensures '.' !in name
  {
  }

  /** `errors.computeIfAbsent(key, k -> new ArrayList<>()).add(message)`. */
  function AddError(errors: Errors, key: string, message: string): Errors
  {
    errors[key := (if key in errors then errors[key] else []) + [message]]
  }

  /** The errors after adding the pairs in order. */
  function AddAll(errors: Errors, pairs: seq<ErrorPair>): Errors
    decreases |pairs|
  {
    if pairs == [] then errors
    else
      var p := pairs[|pairs| - 1];
      AddError(AddAll(errors, pairs[..|pairs| - 1]), p.0, p.1)
  }

  /** The messages of the pairs with the given key, in order. */
  function MessagesFor(pairs: seq<ErrorPair>, key: string): seq<string>
    decreases |pairs|
  {
    if pairs == [] then []
    else
      var p := pairs[|pairs| - 1];
      MessagesFor(pairs[..|pairs| - 1], key) + (if p.0 == key then [p.1] else [])
  }

  /** A key is present iff it was there before or some added pair used it. */
  lemma {:induction false} AddAllKeys(errors: Errors, pairs: seq<ErrorPair>, key: string)
    ensures key in AddAll(errors, pairs) <==> key in errors || exists i :: 0 <= i < |pairs| && pairs[i].0 == key
    decreases |pairs|
  {
    if pairs != [] {
      var prefix := pairs[..|pairs| - 1];
      AddAllKeys(errors, prefix, key);
      if key !in errors && pairs[|pairs| - 1].0 != key && exists i :: 0 <= i < |pairs| && pairs[i].0 == key {
        var i :| 0 <= i < |pairs| && pairs[i].0 == key;
        assert prefix[i].0 == key;
      }
    }
  }

  /** A key's list is its earlier list followed by that key's messages, in the order they were added. */
  lemma {:induction false} AddAllMessages(errors: Errors, pairs: seq<ErrorPair>, key: string)
    ensures (if key in AddAll(errors, pairs) then AddAll(errors, pairs)[key] else [])
      == (if key in errors then errors[key] else []) + MessagesFor(pairs, key)
    decreases |pairs|
  {
    if pairs != [] {
      var prefix, p := pairs[..|pairs| - 1], pairs[|pairs| - 1];
      AddAllMessages(errors, prefix, key);
      AddErrorList(AddAll(errors, prefix), p.0, p.1, key);
    }
  }

  /** The list under `key` after one more error: one more message exactly when the error is for `key`. */
  lemma AddErrorList(errors: Errors, k: string, message: string, key: string)
    ensures key in AddError(errors, k, message) <==> key in errors || key == k
    ensures (if key in AddError(errors, k, message) then AddError(errors, k, message)[key] else [])
      == (if key in errors then errors[key] else []) + (if k == key then [message] else [])
  {
  }

  lemma {:induction false} AddAllAppend(errors: Errors, a: seq<ErrorPair>, b: seq<ErrorPair>)
    ensures AddAll(errors, a + b) == AddAll(AddAll(errors, a), b)
    decreases |b|
  {
    if b == [] {
      assert a + b == a;
    } else {
      AddAllAppend(errors, a, b[..|b| - 1]);
      assert (a + b)[..|a + b| - 1] == a + b[..|b| - 1];
    }
  }

  /** No pairs leave an empty map empty, and any pair makes it non-empty. */
  lemma AddAllEmptyIff(pairs: seq<ErrorPair>)
    ensures AddAll(map[], pairs) == map[] <==> pairs == []
  {
    if pairs != [] {
      AddAllKeys(map[], pairs, pairs[0].0);
      assert pairs[0].0 in AddAll(map[], pairs);
    }
  }

  /* The pairs each check adds. */

  function NamePairs(name: Option<string>): seq<ErrorPair>
  {
    if IsValidName(name) then [] else [("name", "Invalid workflow name format")]
  }

  /** One pair for each node whose name already occurred earlier in the list. */
  function DuplicatePairs(nodes: seq<CreateNodeRequest>): seq<ErrorPair>
    decreases |nodes|
  {
    if nodes == [] then []
    else
      var prefix := nodes[..|nodes| - 1];
      var last := nodes[|nodes| - 1];
      DuplicatePairs(prefix)
      + (if last.name in NameSet(prefix) then [("nodes", "Duplicate node name: " + last.name)] else [])
  }

  /** One pair for each parameter name that is not a valid name. */
  function ParameterPairs(prefix: string, entries: seq<(string, string)>): seq<ErrorPair>
    decreases |entries|
  {
    if entries == [] then []
    else
      var key := entries[|entries| - 1].0;
      ParameterPairs(prefix, entries[..|entries| - 1])
      + (if IsValidName(Some(key)) then [] else [(prefix, "Invalid parameter name: " + key)])
  }

  function NodePrefix(node: CreateNodeRequest): string { "node." + node.name }

  /** An AI node needs a config with a non-null system prompt; an empty prompt passes. */
  predicate LacksSystemPrompt(node: CreateNodeRequest)
  {
    node.nodeType == Ai && (node.config == None || node.config.value.systemPrompt == None)
  }

  function NodeConfigPairs(node: CreateNodeRequest): seq<ErrorPair>
  {
    var prefix := NodePrefix(node);
    (if LacksSystemPrompt(node) then [(prefix, "AI node requires system prompt")] else [])
    + (if node.inputs.Some? then ParameterPairs(prefix + ".inputs", node.inputs.value) else [])
    + (if node.outputs.Some? then ParameterPairs(prefix + ".outputs", node.outputs.value) else [])
  }

  function ConfigPairs(nodes: seq<CreateNodeRequest>): seq<ErrorPair>
    decreases |nodes|
  {
    if nodes == [] then []
    else ConfigPairs(nodes[..|nodes| - 1]) + NodeConfigPairs(nodes[|nodes| - 1])
  }

  /** One pair for each listed dependency that is not among `names`. */
  function MissingPairs(key: string, deps: seq<string>, names: set<string>): seq<ErrorPair>
    decreases |deps|
  {
    if deps == [] then []
    else
      var d := deps[|deps| - 1];
      MissingPairs(key, deps[..|deps| - 1], names)
      + (if d in names then [] else [(key, "Invalid dependency: " + d)])
  }

  function NodeDependencyPairs(node: CreateNodeRequest, names: set<string>): seq<ErrorPair>
  {
    match node.dependencies
    case None => []
    case Some(deps) => MissingPairs(NodePrefix(node) + ".dependencies", deps, names)
  }

  function DependencyPairs(nodes: seq<CreateNodeRequest>, names: set<string>): seq<ErrorPair>
    decreases |nodes|
  {
    if nodes == [] then []
    else DependencyPairs(nodes[..|nodes| - 1], names) + NodeDependencyPairs(nodes[|nodes| - 1], names)
  }

  function CyclePairs(cyclic: bool): seq<ErrorPair>
  {
    if cyclic then [("dependencies", "Cyclic dependencies detected")] else []
  }

  /** The pairs the node list earns, in the order they are added. */
  ghost function NodeListPairs(nodes: seq<CreateNodeRequest>): seq<ErrorPair>
  {
    (DuplicatePairs(nodes) + ConfigPairs(nodes))
    + (DependencyPairs(nodes, NameSet(nodes)) + CyclePairs(HasCycle(DependencyGraph(nodes))))
  }

  /** Every pair the request earns, in the order `validateCreateRequest` adds them. */
  ghost function RequestPairs(request: CreateWorkflowRequest): seq<ErrorPair>
    requires request.nodes.Some?
  {
    NamePairs(request.name) + NodeListPairs(request.nodes.value)
  }

  ghost function RequestErrors(request: CreateWorkflowRequest): Errors
    requires request.nodes.Some?
  {
    AddAll(map[], RequestPairs(request))
  }

  /* Meaning of the pair lists. */

  /** There are no duplicate pairs exactly when the node names are pairwise distinct. */
  lemma {:induction false} NoDuplicatePairsIffDistinct(nodes: seq<CreateNodeRequest>)
    ensures DuplicatePairs(nodes) == [] <==>
      forall i, j :: 0 <= i < j < |nodes| ==> nodes[i].name != nodes[j].name
    decreases |nodes|
  {
    if nodes != [] {
      var prefix := nodes[..|nodes| - 1];
      NoDuplicatePairsIffDistinct(prefix);
      assert forall i :: 0 <= i < |prefix| ==> prefix[i] == nodes[i];
      var last := nodes[|nodes| - 1];
      if last.name in NameSet(prefix) {
        var i :| 0 <= i < |prefix| && prefix[i].name == last.name;
        assert nodes[i].name == nodes[|nodes| - 1].name;
      }
    }
  }

  /** There are no missing-dependency pairs exactly when every listed dependency is among `names`. */
  lemma {:induction false} NoMissingPairsIffKnown(key: string, deps: seq<string>, names: set<string>)
    ensures MissingPairs(key, deps, names) == [] <==> forall d :: d in deps ==> d in names
    decreases |deps|
  {
    if deps != [] {
      var prefix := deps[..|deps| - 1];
      NoMissingPairsIffKnown(key, prefix, names);
      assert deps == prefix + [deps[|deps| - 1]];
    }
  }

  lemma {:induction false} NoDependencyPairsIffKnown(nodes: seq<CreateNodeRequest>, names: set<string>)
    ensures DependencyPairs(nodes, names) == [] <==>
      forall i, d :: 0 <= i < |nodes| && nodes[i].dependencies.Some? && d in nodes[i].dependencies.value ==> d in names
    decreases |nodes|
  {
    if nodes != [] {
      var prefix := nodes[..|nodes| - 1];
      var last := nodes[|nodes| - 1];
      NoDependencyPairsIffKnown(prefix, names);
      assert forall i :: 0 <= i < |prefix| ==> prefix[i] == nodes[i];
      if last.dependencies.Some? {
        NoMissingPairsIffKnown(NodePrefix(last) + ".dependencies", last.dependencies.value, names);
      }
    }
  }

  /**
   * When no dependency is reported missing, every dependency in the graph
   * names a node, so the search cannot reach an unknown node.
   */
  lemma NoDependencyPairsMeansAllKnown(nodes: seq<CreateNodeRequest>)
    requires DependencyPairs(nodes, NameSet(nodes)) == []
    ensures AllKnown(DependencyGraph(nodes))
  {
    NoDependencyPairsIffKnown(nodes, NameSet(nodes));
    var g := DependencyGraph(nodes);
    forall n, d | n in g && d in g[n]
      ensures d in g
    {
      GraphEntryFromRequest(nodes, n);
      var i :| 0 <= i < |nodes| && nodes[i].name == n && g[n] == DependencySet(nodes[i]);
    }
  }

  /** The error map is empty exactly when the request earns no pair. */
  lemma NoErrorsIffNoPairs(request: CreateWorkflowRequest)
    requires request.nodes.Some?
    ensures RequestErrors(request) == map[] <==> RequestPairs(request) == []
  {
    AddAllEmptyIff(RequestPairs(request));
  }

  /** A request without errors has a name, and none of its dependencies is unknown. */
  lemma NoErrorsHasName(request: CreateWorkflowRequest)
    requires request.nodes.Some? && RequestErrors(request) == map[]
    ensures request.name.Some?
    ensures DependencyPairs(request.nodes.value, NameSet(request.nodes.value)) == []
  {
    NoErrorsIffNoPairs(request);
    AcceptedIffEveryCheckPasses(request);
    var nodes := request.nodes.value;
    assert |RequestPairs(request)| >= |DependencyPairs(nodes, NameSet(nodes))|;
  }

  /** A request is accepted exactly when each check passes. */
  lemma AcceptedIffEveryCheckPasses(request: CreateWorkflowRequest)
    requires request.nodes.Some?
    ensures var nodes := request.nodes.value;
      RequestPairs(request) == [] <==>
        IsValidName(request.name)
        && (forall i, j :: 0 <= i < j < |nodes| ==> nodes[i].name != nodes[j].name)
        && ConfigPairs(nodes) == []
        && (forall i, d :: 0 <= i < |nodes| && nodes[i].dependencies.Some? && d in nodes[i].dependencies.value ==> d in NameSet(nodes))
        && !HasCycle(DependencyGraph(nodes))
  {
    var nodes := request.nodes.value;
    var cyclic := HasCycle(DependencyGraph(nodes));
    assert RequestPairs(request) == NamePairs(request.name) + (DuplicatePairs(nodes) + ConfigPairs(nodes)
      + DependencyPairs(nodes, NameSet(nodes)) + CyclePairs(cyclic));
    NoDuplicatePairsIffDistinct(nodes);
    NoDependencyPairsIffKnown(nodes, NameSet(nodes));
  }

  /* The validator's methods. */

  /** `validateIOConfig`: one error per entry whose key is not a valid name. */
  method ValidateIOConfig(prefix: string, entries: seq<(string, string)>, errors: Errors) returns (errors': Errors)
    ensures errors' == AddAll(errors, ParameterPairs(prefix, entries))
  {
    errors' := errors;
    var i := 0;
    while i < |entries|
      invariant 0 <= i <= |entries|
      invariant errors' == AddAll(errors, ParameterPairs(prefix, entries[..i]))
    {
      var key := entries[i].0;
      ghost var step := if IsValidName(Some(key)) then [] else [(prefix, "Invalid parameter name: " + key)];
      assert entries[..i + 1][..i] == entries[..i];
      assert ParameterPairs(prefix, entries[..i + 1]) == ParameterPairs(prefix, entries[..i]) + step;
      AddAllAppend(errors, ParameterPairs(prefix, entries[..i]), step);
      if !IsValidName(Some(key)) {
        errors' := AddError(errors', prefix, "Invalid parameter name: " + key);
        assert [(prefix, "Invalid parameter name: " + key)][..0] == [];
      }
      i := i + 1;
    }
    assert entries[..|entries|] == entries;
  }

  /** `validateNodeConfig`: the AI system-prompt rule, then the input and output parameter names. */
  method ValidateNodeConfig(node: CreateNodeRequest, errors: Errors) returns (errors': Errors)
    ensures errors' == AddAll(errors, NodeConfigPairs(node))
  {
    var prefix := "node." + node.name;
    var ai: seq<ErrorPair> := if LacksSystemPrompt(node) then [(prefix, "AI node requires system prompt")] else [];
    var ins: seq<ErrorPair> := if node.inputs.Some? then ParameterPairs(prefix + ".inputs", node.inputs.value) else [];
    var outs: seq<ErrorPair> := if node.outputs.Some? then ParameterPairs(prefix + ".outputs", node.outputs.value) else [];
    errors' := errors;
    if node.nodeType == Ai {
      if node.config == None || node.config.value.systemPrompt == None {
        errors' := AddError(errors', prefix, "AI node requires system prompt");
        assert ai[..0] == [];
      }
    }
    assert errors' == AddAll(errors, ai);
    if node.inputs.Some? {
      errors' := ValidateIOConfig(prefix + ".inputs", node.inputs.value, errors');
    }
    AddAllAppend(errors, ai, ins);
    if node.outputs.Some? {
      errors' := ValidateIOConfig(prefix + ".outputs", node.outputs.value, errors');
    }
    AddAllAppend(errors, ai + ins, outs);
  }

  /** Adding one pair at the end adds one error. */
  lemma AddAllSnoc(errors: Errors, pairs: seq<ErrorPair>, p: ErrorPair)
    ensures AddAll(errors, pairs + [p]) == AddError(AddAll(errors, pairs), p.0, p.1)
  {
    assert (pairs + [p])[..|pairs|] == pairs;
  }

  /** What one more node adds to the names seen and to the duplicate pairs. */
  lemma DuplicateStep(nodes: seq<CreateNodeRequest>, i: nat)
    requires i < |nodes|
    ensures NameSet(nodes[..i + 1]) == NameSet(nodes[..i]) + {nodes[i].name}
    ensures nodes[i].name in NameSet(nodes[..i]) ==>
      DuplicatePairs(nodes[..i + 1]) == DuplicatePairs(nodes[..i]) + [("nodes", "Duplicate node name: " + nodes[i].name)]
    ensures nodes[i].name !in NameSet(nodes[..i]) ==> DuplicatePairs(nodes[..i + 1]) == DuplicatePairs(nodes[..i])
  {
    assert nodes[..i + 1][..i] == nodes[..i];
    assert DuplicatePairs(nodes[..i]) + [] == DuplicatePairs(nodes[..i]);
  }

  /** The duplicate-name loop of `validateNodes`, with its HashSet of names seen so far. */
  method CheckDuplicates(nodes: seq<CreateNodeRequest>, errors: Errors) returns (errors': Errors)
    ensures errors' == AddAll(errors, DuplicatePairs(nodes))
  {
    errors' := errors;
    var seen: set<string> := {};
    var i := 0;
    while i < |nodes|
      invariant 0 <= i <= |nodes|
      invariant seen == NameSet(nodes[..i])
      invariant errors' == AddAll(errors, DuplicatePairs(nodes[..i]))
    {
      var name := nodes[i].name;
      DuplicateStep(nodes, i);
      if name in seen {
        AddAllSnoc(errors, DuplicatePairs(nodes[..i]), ("nodes", "Duplicate node name: " + name));
        errors' := AddError(errors', "nodes", "Duplicate node name: " + name);
      } else {
        seen := seen + {name};
      }
      i := i + 1;
    }
    assert nodes[..|nodes|] == nodes;
  }

  /** `validateNodes`: duplicate names first, then each node's configuration. */
  method ValidateNodes(nodes: seq<CreateNodeRequest>, errors: Errors) returns (errors': Errors)
    ensures errors' == AddAll(errors, DuplicatePairs(nodes) + ConfigPairs(nodes))
  {
    errors' := CheckDuplicates(nodes, errors);
    ghost var mid := errors';
    var i := 0;
    while i < |nodes|
      invariant 0 <= i <= |nodes|
      invariant errors' == AddAll(mid, ConfigPairs(nodes[..i]))
    {
      assert nodes[..i + 1][..i] == nodes[..i];
      assert ConfigPairs(nodes[..i + 1]) == ConfigPairs(nodes[..i]) + NodeConfigPairs(nodes[i]);
      AddAllAppend(mid, ConfigPairs(nodes[..i]), NodeConfigPairs(nodes[i]));
      errors' := ValidateNodeConfig(nodes[i], errors');
      i := i + 1;
    }
    assert nodes[..|nodes|] == nodes;
    AddAllAppend(errors, DuplicatePairs(nodes), ConfigPairs(nodes));
  }

  /** The inner loop of `validateDependencies`, over one node's dependency list. */
  method CheckNodeDependencies(node: CreateNodeRequest, names: set<string>, errors: Errors) returns (errors': Errors)
    ensures errors' == AddAll(errors, NodeDependencyPairs(node, names))
  {
    errors' := errors;
    if node.dependencies.Some? {
      var deps := node.dependencies.value;
      var key := "node." + node.name + ".dependencies";
      var i := 0;
      while i < |deps|
        invariant 0 <= i <= |deps|
        invariant errors' == AddAll(errors, MissingPairs(key, deps[..i], names))
      {
        ghost var step := if deps[i] in names then [] else [(key, "Invalid dependency: " + deps[i])];
        assert deps[..i + 1][..i] == deps[..i];
        assert MissingPairs(key, deps[..i + 1], names) == MissingPairs(key, deps[..i], names) + step;
        AddAllAppend(errors, MissingPairs(key, deps[..i], names), step);
        if deps[i] !in names {
          errors' := AddError(errors', key, "Invalid dependency: " + deps[i]);
          assert step[..0] == [];
        }
        i := i + 1;
      }
      assert deps[..|deps|] == deps;
    }
  }

  /** What one more node adds to the dependency pairs. */
  lemma DependencyStep(nodes: seq<CreateNodeRequest>, names: set<string>, i: nat)
    requires i < |nodes|
    ensures DependencyPairs(nodes[..i + 1], names) == DependencyPairs(nodes[..i], names) + NodeDependencyPairs(nodes[i], names)
  {
    assert nodes[..i + 1][..i] == nodes[..i];
  }

  /**
   * `validateDependencies`: unknown dependencies, then the cycle check.
   * `thrown` reports the NullPointerException of the search reaching an
   * unknown node, which can only happen when a dependency is unknown.
   */
  method ValidateDependencies(nodes: seq<CreateNodeRequest>, errors: Errors) returns (errors': Errors, thrown: bool)
    ensures thrown ==> DependencyPairs(nodes, NameSet(nodes)) != []
    ensures DependencyPairs(nodes, NameSet(nodes)) == [] ==> !thrown
    ensures !thrown ==>
      errors' == AddAll(errors, DependencyPairs(nodes, NameSet(nodes)) + CyclePairs(HasCycle(DependencyGraph(nodes))))
  {
    var names := NameSet(nodes);
    errors' := errors;
    var i := 0;
    while i < |nodes|
      invariant 0 <= i <= |nodes|
      invariant errors' == AddAll(errors, DependencyPairs(nodes[..i], names))
    {
      DependencyStep(nodes, names, i);
      AddAllAppend(errors, DependencyPairs(nodes[..i], names), NodeDependencyPairs(nodes[i], names));
      errors' := CheckNodeDependencies(nodes[i], names, errors');
      i := i + 1;
    }
    assert nodes[..|nodes|] == nodes;
    if DependencyPairs(nodes, names) == [] {
      NoDependencyPairsMeansAllKnown(nodes);
    }
    var verdict := HasCyclicDependencies(nodes);
    thrown := verdict == UnknownNodeReached;
    if !thrown {
      var cyclic := verdict == CycleFound;
      if cyclic {
        AddAllSnoc(errors, DependencyPairs(nodes, names), ("dependencies", "Cyclic dependencies detected"));
        errors' := AddError(errors', "dependencies", "Cyclic dependencies detected");
      } else {
        assert DependencyPairs(nodes, names) + CyclePairs(cyclic) == DependencyPairs(nodes, names);
      }
    } else if DependencyPairs(nodes, names) == [] {
      assert false;
    }
  }

  /** The node-list part of `validateCreateRequest`: `validateNodes`, then `validateDependencies`. */
  method ValidateNodeList(nodes: seq<CreateNodeRequest>, errors: Errors) returns (errors': Errors, thrown: bool)
    ensures thrown ==> DependencyPairs(nodes, NameSet(nodes)) != []
    ensures DependencyPairs(nodes, NameSet(nodes)) == [] ==> !thrown
    ensures !thrown ==> errors' == AddAll(errors, NodeListPairs(nodes))
  {
    errors' := ValidateNodes(nodes, errors);
    errors', thrown := ValidateDependencies(nodes, errors');
    if !thrown {
      ghost var a := DuplicatePairs(nodes) + ConfigPairs(nodes);
      ghost var b := DependencyPairs(nodes, NameSet(nodes)) + CyclePairs(HasCycle(DependencyGraph(nodes)));
      AddAllAppend(errors, a, b);
    }
  }

  /** The outcome of `validateCreateRequest`: it returns, throws ValidationException, or throws a NullPointerException. */
  datatype ValidationOutcome = Accepted | Rejected(errors: Errors) | NullPointerThrown

  /**
   * `validateCreateRequest`. The request is rejected with exactly the errors
   * its checks earn, and accepted exactly when there are none. A null node
   * list throws; so may a request with an unknown dependency, which would
   * otherwise have been rejected for it.
   */
  method ValidateCreateRequest(request: CreateWorkflowRequest) returns (outcome: ValidationOutcome)
    ensures request.nodes == None ==> outcome == NullPointerThrown
    ensures outcome.Rejected? ==>
      request.nodes.Some? && outcome.errors == RequestErrors(request) && outcome.errors != map[]
    ensures outcome.Accepted? ==> request.nodes.Some? && RequestErrors(request) == map[]
    ensures outcome.NullPointerThrown? && request.nodes.Some? ==>
      DependencyPairs(request.nodes.value, NameSet(request.nodes.value)) != []
    ensures request.nodes.Some? && DependencyPairs(request.nodes.value, NameSet(request.nodes.value)) == [] ==>
      !outcome.NullPointerThrown?
  {
    var errors: Errors := map[];
    if !IsValidName(request.name) {
      errors := AddError(errors, "name", "Invalid workflow name format");
      assert NamePairs(request.name)[..0] == [];
    }
    assert errors == AddAll(map[], NamePairs(request.name));
    if request.nodes == None {
      return NullPointerThrown;
    }
    var thrown;
    errors, thrown := ValidateNodeList(request.nodes.value, errors);
    if thrown {
      return NullPointerThrown;
    }
    AddAllAppend(map[], NamePairs(request.name), NodeListPairs(request.nodes.value));
    if errors != map[] {
      outcome := Rejected(errors);
    } else {
      outcome := Accepted;
    }
  }
}

=== FILE: values.dfy ===
/**
 * The Java `Object`s a workflow passes around: variable values, node results,
 * arguments handed to a node's work item. Only equality matters to the core;
 * the text Java's `toString` gives a value is an uninterpreted function that
 * callers pass in (`show`).
 */
module Values {

  datatype Value =
    | Text(text: string)
    | Number(number: int)
    | Flag(flag: bool)
    | Opaque(id: nat)
}

=== FILE: workflow_definition.dfy ===
/**
 * `WorkflowDefinition`, a plain record, and the iteration order of the hash
 * maps and sets the core walks over. Java leaves that order unspecified, so
 * the model lets a method choose any listing of the keys.
 */
module Definitions {
  import opened Wrappers
  import opened Values
  import opened Nodes

  /** The part of `WorkflowDefinition.WorkflowConfig` the core passes along. */
  datatype WorkflowConfig = WorkflowConfig(timeoutMillis: Option<int>, asyncEnabled: bool)

  datatype WorkflowDefinition = WorkflowDefinition(
    name: string,
    description: Option<string>,
    nodes: map<string, Node>,
    startNodes: Option<seq<string>>,
    metadata: Option<map<string, Value>>,
    config: Option<WorkflowConfig>)

  /** `order` lists each element of `keys` exactly once. */
  predicate IsListing(order: seq<string>, keys: set<string>)
  {
    (forall i, j :: 0 <= i < j < |order| ==> order[i] != order[j])
    && (forall k :: k in order ==> k in keys) && (forall k :: k in keys ==> k in order)
  }

  /** A listing has one position per element. */
  lemma ListingLength(order: seq<string>, keys: set<string>)
    requires IsListing(order, keys)
    ensures |order| == |keys|
    decreases |order|
  {
    if order != [] {
      var last := order[|order| - 1];
      var rest := order[..|order| - 1];
      forall k | k in rest
        ensures k in keys - {last}
      {
        var i :| 0 <= i < |rest| && rest[i] == k;
        assert order[i] == k && order[|order| - 1] == last;
      }
      forall k | k in keys - {last}
        ensures k in rest
      {
        var i :| 0 <= i < |order| && order[i] == k;
        assert rest[i] == k;
      }
      ListingLength(rest, keys - {last});
    } else {
      assert forall k :: k !in keys;
      assert keys == {};
    }
  }

  /** Some iteration order of a hash set: an arbitrary listing of its elements. */
  method IterationOrder(keys: set<string>) returns (order: seq<string>)
    ensures IsListing(order, keys)
  {
    order := [];
    var remaining := keys;
    while remaining != {}
      invariant forall i, j :: 0 <= i < j < |order| ==> order[i] != order[j]
      invariant forall k :: k in order <==> k in keys - remaining
      invariant remaining <= keys
      decreases |remaining|
    {
      var k :| k in remaining;
      assert k !in order;
      order := order + [k];
      remaining := remaining - {k};
    }
  }
}

=== FILE: workflow_executor.dfy ===
/**
 * `WorkflowExecutor`: structural validation of a definition and the
 * dependency walk. Every node runs on the composite node executor against
 * the one shared state; the clock reads `env.now` throughout a run. The
 * recursion of the walk is bounded by `fuel`, standing for the thread's
 * stack: running out is the StackOverflowError the unbounded walk ends in.
 */
module Execution {
  import opened Wrappers
  import opened Values
  import opened Failures
  import opened State
  import opened Nodes
  import opened Definitions
  import opened Registry
  import opened Executors

  /** What the walk hands to the node executor besides the node and the state. */
  datatype Env = Env(invoke: Invoker, chat: string -> ChatResult, show: Value -> string, now: int)

  /* Validation */

  /** The first dependency that is not a node, in list order. */
  function FirstMissing(deps: seq<string>, keys: set<string>): (r: Option<string>)
    ensures r.None? <==> forall d :: d in deps ==> d in keys
    ensures r.Some? ==> r.value in deps && r.value !in keys
  {
    if deps == [] then None
    else
      assert forall d :: d in deps <==> d == deps[0] || d in deps[1..];
      if deps[0] !in keys then Some(deps[0]) else FirstMissing(deps[1..], keys)
  }

  /** An AI node with a config needs a non-empty system prompt; a node without a config is not checked. */
  predicate LacksPrompt(node: Node)
  {
    node.config.Some? && node.nodeType == Ai
    && (node.config.value.systemPrompt == None || node.config.value.systemPrompt == Some(""))
  }

  /** What `validateNodes` throws for one node, if anything: a missing dependency first, then the prompt rule. */
  function NodeCheck(node: Node, keys: set<string>): Option<Failure>
  {
    var missing := if node.dependencies.Some? then FirstMissing(node.dependencies.value, keys) else None;
    if missing.Some? then
      Some(InvalidWorkflow("Node " + node.name + " depends on non-existent node: " + missing.value))
    else if LacksPrompt(node) then
      Some(InvalidWorkflow("AI node " + node.name + " requires system prompt"))
    else None
  }

  predicate HasStartNodes(workflow: WorkflowDefinition)
  {
    workflow.startNodes.Some? && workflow.startNodes.value != []
  }

  /** A definition `validateWorkflow` accepts. */
  ghost predicate WellFormed(workflow: WorkflowDefinition)
  {
    HasStartNodes(workflow)
    && forall k :: k in workflow.nodes ==> NodeCheck(workflow.nodes[k], workflow.nodes.Keys).None?
  }

  /** An accepted definition has no dependency outside its node map, and every configured AI node has a prompt. */
  lemma WellFormedMeaning(workflow: WorkflowDefinition, k: string)
    requires WellFormed(workflow) && k in workflow.nodes
    ensures var node := workflow.nodes[k];
      && (node.dependencies.Some? ==> forall d :: d in node.dependencies.value ==> d in workflow.nodes)
      && (node.config.Some? && node.nodeType == Ai ==>
            node.config.value.systemPrompt.Some? && node.config.value.systemPrompt.value != "")
  {
    assert NodeCheck(workflow.nodes[k], workflow.nodes.Keys).None?;
  }

  /** The dependency loop of `validateNodes` for one node, then `validateNodeConfig`. */
  method CheckNode(node: Node, keys: set<string>) returns (r: Option<Failure>)
    ensures r == NodeCheck(node, keys)
  {
    if node.dependencies.Some? {
      var deps := node.dependencies.value;
      var i := 0;
      while i < |deps|
        invariant 0 <= i <= |deps|
        invariant forall j :: 0 <= j < i ==> deps[j] in keys
      {
        if deps[i] !in keys {
          FirstMissingIsFirst(deps, keys, i);
          return Some(InvalidWorkflow("Node " + node.name + " depends on non-existent node: " + deps[i]));
        }
        i := i + 1;
      }
    }
    if node.config.Some? && node.nodeType == Ai {
      var prompt := node.config.value.systemPrompt;
      if prompt.None? || prompt.value == "" {
        return Some(InvalidWorkflow("AI node " + node.name + " requires system prompt"));
      }
    }
    r := None;
  }

  /** The dependency the loop stops at is the one `FirstMissing` names. */
  lemma {:induction false} FirstMissingIsFirst(deps: seq<string>, keys: set<string>, i: nat)
    requires i < |deps| && deps[i] !in keys
    requires forall j :: 0 <= j < i ==> deps[j] in keys
    ensures FirstMissing(deps, keys) == Some(deps[i])
    decreases i
  {
    if i > 0 {
      assert deps[0] in keys;
      assert forall j :: 0 <= j < i - 1 ==> deps[1..][j] == deps[j + 1];
      FirstMissingIsFirst(deps[1..], keys, i - 1);
    }
  }

  /**
   * `validateWorkflow`: the start nodes must be non-null and non-empty; then
   * the nodes are checked in the map's iteration order and the first
   * violation is thrown. It rejects exactly the definitions that are not
   * well formed, with a violation of one of their nodes.
   */
  method ValidateWorkflow(workflow: WorkflowDefinition) returns (r: Option<Failure>)
    ensures !HasStartNodes(workflow) ==> r == Some(InvalidWorkflow("No start nodes defined"))
    ensures r.None? <==> WellFormed(workflow)
    ensures r.Some? && HasStartNodes(workflow) ==>
      exists k :: k in workflow.nodes && r == NodeCheck(workflow.nodes[k], workflow.nodes.Keys)
    ensures r.Some? ==> r.value.InvalidWorkflow?
  {
    if !HasStartNodes(workflow) {
      return Some(InvalidWorkflow("No start nodes defined"));
    }
    var nodes := workflow.nodes;
    var order := IterationOrder(nodes.Keys);
    var i := 0;
    while i < |order|
      invariant 0 <= i <= |order|
      invariant forall j :: 0 <= j < i ==> NodeCheck(nodes[order[j]], nodes.Keys).None?
    {
      var check := CheckNode(nodes[order[i]], nodes.Keys);
      if check.Some? {
        return check;
      }
      i := i + 1;
    }
    forall k | k in nodes
      ensures NodeCheck(nodes[k], nodes.Keys).None?
    {
      var j :| 0 <= j < |order| && order[j] == k;
    }
    r := None;
  }

  /* The walk */

  /** A node follows `name` when its dependency list names it. */
  predicate IsNextOf(node: Node, name: string)
  {
    node.dependencies.Some? && name in node.dependencies.value
  }

  /**
   * `findNextNodes`: the nodes of the map, in its iteration order, whose
   * dependency list contains the current node's name, and only those.
   */
  method FindNextNodes(current: Node, nodes: map<string, Node>) returns (next: seq<Node>)
    ensures forall i :: 0 <= i < |next| ==> next[i] in nodes.Values && IsNextOf(next[i], current.name)
    ensures forall k :: k in nodes && IsNextOf(nodes[k], current.name) ==> nodes[k] in next
    ensures |next| <= |nodes|
  {
    var order := IterationOrder(nodes.Keys);
    ListingLength(order, nodes.Keys);
    next := [];
    var i := 0;
    while i < |order|
      invariant 0 <= i <= |order|
      invariant |next| <= i
      invariant forall j :: 0 <= j < |next| ==> next[j] in nodes.Values && IsNextOf(next[j], current.name)
      invariant forall j :: 0 <= j < i && IsNextOf(nodes[order[j]], current.name) ==> nodes[order[j]] in next
    {
      var node := nodes[order[i]];
      if IsNextOf(node, current.name) {
        next := next + [node];
      }
      i := i + 1;
    }
    forall k | k in nodes && IsNextOf(nodes[k], current.name)
      ensures nodes[k] in next
    {
      var j :| 0 <= j < |order| && order[j] == k;
    }
  }

  /**
   * `executeNode`: a node that is not ready leaves the state alone and
   * completes at once, without reaching the node executor. Otherwise the
   * executor runs it, and once it completes the nodes that follow it run
   * inside `thenCompose`, where whatever they throw fails the future instead.
   */
  method RunNode(workflow: WorkflowDefinition, node: Node, state: WorkflowState, env: Env, fuel: nat)
    returns (outcome: Outcome)
    modifies state
    ensures !old(CanExecute(node, state)) ==>
      outcome == Done && state.variables == old(state.variables) && state.executionHistory == old(state.executionHistory)
    ensures old(CanExecute(node, state)) && fuel > 0 ==>
      var executed := ExecutorOutcome(node, old(state.variables), env.invoke, env.chat, env.show);
      && (executed.Threw? ==> outcome == executed)
      && (executed.FailedWith? ==> outcome == FailedWith(Wrapped(executed.failure)))
    ensures outcome.FailedWith? ==> outcome.failure.Completion?
    ensures state.status == old(state.status) && state.errorMessage == old(state.errorMessage)
    decreases fuel, 1
  {
    if !CanExecute(node, state) {
      return Done;
    }
    if fuel == 0 {
      return Threw(StackOverflow);
    }
    var result, _ := CompositeExecute(node, state, env.invoke, env.chat, env.show, env.now, env.now, env.now);
    match result
    case Threw(f) =>
      outcome := Threw(f);
    case FailedWith(f) =>
      outcome := FailedWith(Wrapped(f));
    case Done =>
      var after := RunNextNodes(workflow, node, state, env, fuel - 1);
      outcome := if after.Done? then Done else FailedWith(Wrapped(after.failure));
  }

  /**
   * `executeNextNodes`: the following nodes run in order; a throw stops the
   * loop and propagates, and otherwise the combined future fails with the
   * first failure among them, in list order.
   */
  method RunNextNodes(workflow: WorkflowDefinition, current: Node, state: WorkflowState, env: Env, fuel: nat)
    returns (outcome: Outcome)
    modifies state
    ensures outcome.FailedWith? ==> outcome.failure.Completion?
    ensures state.status == old(state.status) && state.errorMessage == old(state.errorMessage)
    decreases fuel, 2
  {
    var next := FindNextNodes(current, workflow.nodes);
    var firstFailure: Option<Failure> := None;
    var i := 0;
    while i < |next|
      invariant state.status == old(state.status) && state.errorMessage == old(state.errorMessage)
    {
      var r := RunNode(workflow, next[i], state, env, fuel);
      if r.Threw? {
        return r;
      }
      if r.FailedWith? && firstFailure.None? {
        firstFailure := Some(r.failure);
      }
      i := i + 1;
    }
    outcome := if firstFailure.Some? then FailedWith(Wrapped(firstFailure.value)) else Done;
  }

  /** The message `executeWorkflow` gives the failure it wraps the walk's failure in. */
  const WalkFailure := Completion(WorkflowExecution("Workflow execution failed"))

  class WorkflowExecutor {
    const registry: InMemoryWorkflowRegistry

    constructor(registry: InMemoryWorkflowRegistry)
      ensures this.registry == registry
    {
      this.registry := registry;
    }

    /**
     * `execute`. An unregistered name throws before any state exists. The
     * new state holds exactly the inputs and is RUNNING; a definition that
     * fails validation marks it FAILED with the exception's message and is
     * returned as a failed future, not thrown. A run that completes marks the
     * state COMPLETED, and one whose future fails marks it FAILED. Only the
     * StackOverflowError, not being an Exception, escapes the catch block.
     */
    method Execute(workflowName: string, inputs: map<string, Value>, newId: string, env: Env, fuel: nat)
      returns (outcome: Outcome, state: WorkflowState?)
      ensures registry.Get(workflowName).None? ==> outcome == Threw(WorkflowNotFound(workflowName)) && state == null
      ensures registry.Get(workflowName).Some? ==> state != null && fresh(state) && state.workflowId == newId
      ensures registry.Get(workflowName).Some? && !WellFormed(registry.Get(workflowName).value) ==>
        && outcome.FailedWith? && outcome.failure.InvalidWorkflow?
        && state.status == Failed && state.errorMessage == Message(outcome.failure)
        && state.variables == inputs && state.executionHistory == map[]
      ensures outcome == Done ==> state != null && state.status == Completed
      ensures outcome.FailedWith? ==> state != null && state.status == Failed
      ensures outcome.Threw? && state != null ==> outcome.failure == StackOverflow && state.status == Running
    {
      var found := registry.Get(workflowName);
      if found.None? {
        return Threw(WorkflowNotFound(workflowName)), null;
      }
      var workflow := found.value;
      state := new WorkflowState(newId);
      state.variables := state.variables + inputs;
      assert state.variables == inputs;
      var invalid := ValidateWorkflow(workflow);
      if invalid.Some? {
        state.MarkAsFailed(Message(invalid.value));
        return FailedWith(invalid.value), state;
      }
      var startNodes := workflow.startNodes.value;
      var firstFailure: Option<Failure> := None;
      var i := 0;
      while i < |startNodes|
        invariant state.status == Running
      {
        var name := startNodes[i];
        if name !in workflow.nodes {
          var npe := NullPointer(Some("node"));
          state.MarkAsFailed(Message(npe));
          return FailedWith(npe), state;
        }
        var r := RunNode(workflow, workflow.nodes[name], state, env, fuel);
        if r.Threw? {
          if r.failure == StackOverflow {
            return r, state;
          }
          state.MarkAsFailed(Message(r.failure));
          return FailedWith(r.failure), state;
        }
        if r.FailedWith? && firstFailure.None? {
          firstFailure := Some(r.failure);
        }
        i := i + 1;
      }
      if firstFailure.Some? {
        state.MarkAsFailed(Message(Wrapped(firstFailure.value)));
        return FailedWith(WalkFailure), state;
      }
      state.MarkAsCompleted();
      outcome := Done;
    }
  }
}

=== FILE: workflow_state.dfy ===
/**
 * The per-execution state: variables, the execution history of the nodes,
 * the status and the error message. Both maps are ConcurrentHashMaps in the
 * repository, so neither holds null values; the history maps a node's
 * suffixed key to the clock reading or to the error message recorded for it.
 */
module State {
  import opened Wrappers
  import opened Values

  datatype WorkflowStatus = Created | Running | Completed | Failed | Cancelled | Timeout

  /** A value of the execution history. */
  datatype HistoryEntry =
    | Timestamp(millis: int)
    | ErrorText(message: string)

  function StartKey(nodeName: string): string { nodeName + ".start" }
  function EndKey(nodeName: string): string { nodeName + ".end" }
  function ErrorKey(nodeName: string): string { nodeName + ".error" }

  /** A key no record method writes for any node: none of the three suffixes ends it. */
  ghost predicate IsBareKey(key: string)
  {
    forall n :: key != StartKey(n) && key != EndKey(n) && key != ErrorKey(n)
  }

  /** A key of the form `n.start`, `n.end` or `n.error`. */
  ghost predicate IsSuffixedKey(key: string)
  {
    exists n :: key == StartKey(n) || key == EndKey(n) || key == ErrorKey(n)
  }

  /** A name without a '.' is never one of the keys the record methods write. */
  lemma DotlessNameIsBare(name: string)
    requires '.' !in name
    ensures IsBareKey(name)
  {
    forall n
      ensures name != StartKey(n) && name != EndKey(n) && name != ErrorKey(n)
    {
      assert StartKey(n)[|n|] == '.';
      assert EndKey(n)[|n|] == '.';
      assert ErrorKey(n)[|n|] == '.';
    }
  }

  /** A node name is never the key its own record methods write. */
  lemma OwnKeysDiffer(nodeName: string)
    ensures StartKey(nodeName) != nodeName
    ensures EndKey(nodeName) != nodeName
    ensures ErrorKey(nodeName) != nodeName
  {
    assert |StartKey(nodeName)| == |nodeName| + 6;
    assert |EndKey(nodeName)| == |nodeName| + 4;
    assert |ErrorKey(nodeName)| == |nodeName| + 6;
  }

  class WorkflowState {
    const workflowId: string
    var variables: map<string, Value>
    var executionHistory: map<string, HistoryEntry>
    var status: WorkflowStatus
    var errorMessage: Option<string>

    /** `new WorkflowState(id)`; the no-argument form passes a random UUID as `id`. */
    constructor(id: string)
      ensures workflowId == id
      ensures variables == map[] && executionHistory == map[]
      ensures status == Running && errorMessage == None
    {
      workflowId := id;
      variables := map[];
      executionHistory := map[];
      status := Running;
      errorMessage := None;
    }

    /** Sets COMPLETED from whatever status there was; nothing else changes. */
    method MarkAsCompleted()
      modifies this
      ensures status == Completed
      ensures errorMessage == old(errorMessage)
      ensures variables == old(variables) && executionHistory == old(executionHistory)
    {
      status := Completed;
    }

    /** Sets FAILED and the message (which may be null) from whatever status there was. */
    method MarkAsFailed(message: Option<string>)
      modifies this
      ensures status == Failed && errorMessage == message
      ensures variables == old(variables) && executionHistory == old(executionHistory)
    {
      status := Failed;
      errorMessage := message;
    }

    /** Looks up the bare node name among the history keys. */
    predicate IsNodeCompleted(nodeName: string)
      reads this
    {
      nodeName in executionHistory
    }

    method RecordNodeStart(nodeName: string, now: int)
      modifies this
      ensures executionHistory == old(executionHistory)[StartKey(nodeName) := Timestamp(now)]
      ensures IsNodeCompleted(nodeName) == old(IsNodeCompleted(nodeName))
      ensures variables == old(variables) && status == old(status) && errorMessage == old(errorMessage)
    {
      OwnKeysDiffer(nodeName);
      executionHistory := executionHistory[StartKey(nodeName) := Timestamp(now)];
    }

    method RecordNodeCompletion(nodeName: string, now: int)
      modifies this
      ensures executionHistory == old(executionHistory)[EndKey(nodeName) := Timestamp(now)]
      ensures IsNodeCompleted(nodeName) == old(IsNodeCompleted(nodeName))
      ensures variables == old(variables) && status == old(status) && errorMessage == old(errorMessage)
    {
      OwnKeysDiffer(nodeName);
      executionHistory := executionHistory[EndKey(nodeName) := Timestamp(now)];
    }

    /**
     * Records the error's message under `n.error`. A null message makes the
     * map throw a NullPointerException: then `recorded` is false and the
     * history is unchanged.
     */
    method RecordNodeError(nodeName: string, message: Option<string>) returns (recorded: bool)
      modifies this
      ensures recorded == message.Some?
      ensures recorded ==> executionHistory == old(executionHistory)[ErrorKey(nodeName) := ErrorText(message.value)]
      ensures !recorded ==> executionHistory == old(executionHistory)
      ensures IsNodeCompleted(nodeName) == old(IsNodeCompleted(nodeName))
      ensures variables == old(variables) && status == old(status) && errorMessage == old(errorMessage)
    {
      OwnKeysDiffer(nodeName);
      match message
      case Some(m) =>
        executionHistory := executionHistory[ErrorKey(nodeName) := ErrorText(m)];
        recorded := true;
      case None =>
        recorded := false;
    }

    method SetVariable(key: string, value: Value)
      modifies this
      ensures variables == old(variables)[key := value]
      ensures GetVariable(key) == Some(value) && HasVariable(key)
      ensures executionHistory == old(executionHistory) && status == old(status) && errorMessage == old(errorMessage)
    {
      variables := variables[key := value];
    }

    /** `getVariable(key)`: null (None) for a missing key. */
    function GetVariable(key: string): (r: Option<Value>)
      reads this
      ensures r.Some? <==> HasVariable(key)
      ensures r.Some? ==> r.value == variables[key]
    {
      if key in variables then Some(variables[key]) else None
    }

    /** `getVariable(key, type)`: the value when present and an instance of the type, else null. */
    function GetVariableAs(key: string, isInstance: Value -> bool): (r: Option<Value>)
      reads this
      ensures r.Some? <==> HasVariable(key) && isInstance(variables[key])
      ensures r.Some? ==> r == GetVariable(key)
    {
      match GetVariable(key)
      case Some(v) => if isInstance(v) then Some(v) else None
      case None => None
    }

    predicate HasVariable(key: string)
      reads this
    {
      key in variables
    }

    method RemoveVariable(key: string)
      modifies this
      ensures variables == old(variables) - {key}
      ensures !HasVariable(key)
      ensures forall k :: k != key ==> GetVariable(k) == old(GetVariable(k))
      ensures executionHistory == old(executionHistory) && status == old(status) && errorMessage == old(errorMessage)
    {
      variables := variables - {key};
    }

    /**
     * A new state with the same id whose maps are copies: the clone is a
     * different object, so later writes to it leave this state as it is.
     */
    method Clone() returns (cloned: WorkflowState)
      ensures fresh(cloned)
      ensures cloned.workflowId == workflowId
      ensures cloned.variables == variables && cloned.executionHistory == executionHistory
      ensures cloned.status == status && cloned.errorMessage == errorMessage
    {
      cloned := new WorkflowState(workflowId);
      cloned.variables := cloned.variables + variables;
      cloned.executionHistory := cloned.executionHistory + executionHistory;
      cloned.status := status;
      cloned.errorMessage := errorMessage;
    }
  }
}

=== FILE: wrappers.dfy ===
/** Java's nullable references, as the usual Some/None datatype. */
module Wrappers {

  datatype Option<+T> = None | Some(value: T) {

    /** The value, or `default` when this is None. */
    function GetOr(default: T): T
    {
      match this
      case Some(v) => v
      case None => default
    }
  }
}
